=== FILE: README.md ===
# NutSort level resolution and client framework, modelled in Dafny

This project models the level system of the NutSort puzzle game and the
framework managers it runs on.

The game numbers its levels from 1 and groups them into pages called
*stages*. A versioned *catalog* (`MapData`) lists the stages and how many
levels each holds. A stage file holds the level records of one stage.

**Unity client** (`unity-level/`):
- A `LevelModel` resolves a level number to its stage. It walks the
  catalog's level counts, and past the catalog's end it repeats the last
  stage's size (`UnityLevelModel`).
- The main and special tracks each keep such a model:
  - The main track caches level records around the player's level and loads
    the next page ahead of time.
  - The special track unlocks one special level every `offset` main levels
    (`UnityLevelHandlers`).
- `BaseLevelMgr` registers the tracks and chooses between the bundled and
  the saved catalog. It loads stage files from the bundle or from disk,
  requests downloads, and reacts to their completion (`UnityLevelMgr`).

**Cocos client** (`assets/Scripts/Game/Level/`): the same idea with
per-track state records that are shared and updated in place:
- `CocosLevelTypes` holds the records.
- `CocosLevelModel` is the level model.
- `CocosLevelHandlers` covers the special and daily handlers.
- `CocosLevelMgr` is the manager.

**Framework** (`assets/Scripts/Framework/Core/`):
- the event bus (`Events`)
- the reference-counted asset cache (`Resources`)
- the timer manager (`Timers`)
- the log buffer (`Logging`)
- the string and time helpers (`Strings`, `TimeFormat`)
- the model registry (`Models`)

`Common` holds the shared pieces:
- `Option`
- C#/JavaScript truncating division and remainder
- decimal text of integers

Side effects become parameters or recorded requests:
- **Files.** Files shipped in the game bundle are a `Package` value. Files
  on the device's persistent storage are a `Disk` value.
- **Downloads.** A download is a request appended to a `Downloader`. Its
  completion is a later call made with the updated `Disk`.
- **Engine loads.** Engine asset loads are passed in as their outcomes, and
  the clock is passed in as a number.
- **Throws.** Where a public operation can throw (a null handler, a
  division by a zero offset, an index out of range), the model returns
  `None` or `false` and states the field values the source leaves behind.
  Some inner steps carry the throw as a precondition instead:
  `LevelModel.GetStageDesc`, `LevelModel.GetSaveStageFilePath`,
  `LevelModel.IsNeedUpdate`, `LevelModel.SetLevelCount`, `SavedStageFile`,
  `SetCurStageInPersistentData` and `DownloadStage`. The source does not
  always guard them. So the model's callers test the condition first and
  model the throw themselves:
  - `UnityLevelMgr.CheckOne` is `None` where `IsNeedUpdate`, called without
    a check at unity-level/BaseLevelMgr.cs:223, would throw.
  - `SpecialLevelHandler.InitLevels` returns false where `SetLevelCount`,
    called at unity-level/SpecialLevelHandler.cs:47, would meet no loaded
    stage.
  - `LoadStage` and `InitStage` test the catalog and the resolved stage
    before they take the stage-file steps.

## Model

| member | source | states |
|---|---|---|
| Common.TruncDiv | unity-level/LevelModel.cs:61 | C#'s integer division rounds toward zero: the product stays within the dividend's size and falls short of it by less than one divisor, and the sign is negative only for differing signs |
| Common.TruncRem | assets/Scripts/Framework/Core/Utils/TimeUtil.ts:37-38 | JavaScript's `%`: the dividend is the quotient rounded toward zero times the divisor plus the remainder; the remainder is smaller than the divisor in size, takes the dividend's sign, and agrees with Euclidean remainder on non-negative operands |
| Common.NatToStringRoundTrip | assets/Scripts/Framework/Core/Log/LogMgr.ts:84 | `toString` of a natural number reads back as that number |
| Common.IntToStringInjective | unity-level/LevelModel.cs:95 | distinct integers have distinct decimal texts |
| UnityLevelDatas.GetData | unity-level/LevelDatas.cs:61-71 | the level at an in-range index; the first level for an out-of-range index; `None` exactly for a stage without levels |
| UnityLevelDatas.GetTubeCount | unity-level/LevelDatas.cs:126-138 | 0 without tubes; otherwise the summed lengths of the arrays whose first cell is non-zero, and `None` exactly when some array is empty |
| UnityLevelDatas.TubeTotalBounds | unity-level/LevelDatas.cs:126-138 | the tube count is between 0 and the total cell count |
| UnityLevelDatas.TubeTotalAllCounted | unity-level/LevelDatas.cs:132-134 | arrays that all start non-zero are counted in full |
| UnityLevelDatas.TubeTotalSkipsZeroHeads | unity-level/LevelDatas.cs:132-133 | arrays that start with 0 add nothing |
| UnityLevelModel.ResolveFrom | unity-level/LevelModel.cs:40-54 | the loop from stage `i` on only ever chooses an index inside the catalog |
| UnityLevelModel.Resolve | unity-level/LevelModel.cs:30-64 | `ComputeStage` as a function of the stages and the level; a resolved index is inside the catalog (its placement is stated by `ResolveFirstFit`, `ResolveBeyondCapacity` and `ResolveFails`) |
| UnityLevelModel.Wrap | unity-level/LevelModel.cs:56-63 | past the end the last stage is chosen, the page is one last-stage size long, and the wrap fails exactly for an empty catalog or an empty last stage |
| UnityLevelModel.AfterCompute | unity-level/LevelModel.cs:30-64 | without a catalog the fields are untouched; on success they are the resolved page |
| UnityLevelModel.ResolveFromFirstFit | unity-level/LevelModel.cs:40-50 | from stage `i`, the first stage whose cumulative count reaches the level is chosen, with the page running from the previous total plus one to that count |
| UnityLevelModel.ResolveFromBeyond | unity-level/LevelModel.cs:54-63 | a level past every cumulative count falls through the loop to the wrap |
| UnityLevelModel.ResolveFirstFit | unity-level/LevelModel.cs:40-50 | resolution picks the first stage whose cumulative count is at least the level, and the page holds exactly that stage's count |
| UnityLevelModel.ResolveFails | unity-level/LevelModel.cs:34-59 | resolution fails if and only if the level is past every stage and the catalog or its last stage is empty |
| UnityLevelModel.FirstReaching | unity-level/LevelModel.cs:40-50 | a level some cumulative count reaches always resolves |
| UnityLevelModel.ResolveWithinCapacity | unity-level/LevelModel.cs:40-50 | for 1 <= level <= total, the chosen page contains the level, starts after the previous total, and spans the chosen stage's count |
| UnityLevelModel.PrefixMonotone | unity-level/LevelModel.cs:43 | with non-negative counts the running total never decreases |
| UnityLevelModel.BeyondTotal | unity-level/LevelModel.cs:45 | with non-negative counts, a level above the total is past every stage |
| UnityLevelModel.ResolveBeyondCapacity | unity-level/LevelModel.cs:56-63 | above the total, the page is the last stage's size wide, starts at `T + L * ((level - T) / L)` and contains the level |
| UnityLevelModel.ResolvePeriodic | unity-level/LevelModel.cs:61-63 | above the total, moving the level by one last-stage size moves the page by exactly that size |
| UnityLevelModel.WrapStartsAtTotal | unity-level/LevelModel.cs:61 | the first wrapped page starts at the catalog total itself, not one past it |
| UnityLevelModel.ResolveOneStageExample | unity-level/LevelModel.cs:30-64 | one stage of 10 levels: level 15 lands on the page 10 to 20 |
| UnityLevelModel.PathCombine | unity-level/LevelModel.cs:95 | `Path.Combine` keeps a non-empty second part at the end of the result, and the first part at its start unless the second part is rooted; a rooted second part is the result alone |
| UnityLevelModel.SaveStagePath | unity-level/LevelModel.cs:95 | the stage file path: `Path.Combine` of the save directory, the catalog version and the stage id (its shape, the rooted case and injectivity are `SaveStagePathShape`, `SaveStagePathRooted` and `SaveStagePathInjective`) |
| UnityLevelModel.SaveStagePathShape | unity-level/LevelModel.cs:95 | for a stage id not starting with '/', a stage file path is the save directory, the catalog version, '/' and the stage id |
| UnityLevelModel.SaveStagePathInjective | unity-level/LevelModel.cs:92-96 | under one save directory, for stage ids not starting with '/', different catalog versions or stage ids never share a file |
| UnityLevelModel.SaveStagePathRooted | unity-level/LevelModel.cs:95 | a stage id starting with '/' is the whole stage file path |
| UnityLevelModel.ActiveCatalog | unity-level/BaseLevelMgr.cs:121 | start-up resolves on the bundled catalog or on the saved one, nothing else |
| UnityLevelModel.LevelModel.ComputeStage | unity-level/LevelModel.cs:30-64 | the loop writes the placement `Resolve` specifies; `ok` exactly when a catalog exists and resolution succeeds; catalogs, save path and stage are untouched |
| UnityLevelModel.LevelModel.GetStageId | unity-level/LevelModel.cs:66-70 | the id of the current stage in the chosen catalog; `None` exactly when the catalog is missing or the index is out of range |
| UnityLevelModel.LevelModel.GetStageDesc | unity-level/LevelModel.cs:98-108 | the current stage's descriptor; `None` exactly when the index is past the catalog's end |
| UnityLevelModel.LevelModel.GetSaveStageFilePath | unity-level/LevelModel.cs:92-96 | "" exactly when no catalog is saved; otherwise the saved catalog's current stage file |
| UnityLevelModel.LevelModel.SetLevelCount | unity-level/LevelModel.cs:72-75 | the level count becomes the loaded stage's number of levels |
| UnityLevelModel.NeedUpdateIffNewerThanActive | unity-level/LevelModel.cs:114-117 | an update is needed if and only if the remote catalog is newer than the catalog start-up resolves on |
| UnityLevelModel.LevelModel.IsNeedUpdate | unity-level/LevelModel.cs:114-117 | the remote catalog is newer than the saved one (or none is saved) and newer than the bundled one, which must exist when that first test passes |
| UnityLevelModel.ResolvedStageIsInCatalog | unity-level/LevelModel.cs:40-59 | after a successful resolution the index is inside the catalog |
| UnityLevelHandlers.Downloader.DownloadFile | unity-level/BaseLevelMgr.cs:181-182 | a download request is appended to those already made |
| UnityLevelHandlers.BundledStage | unity-level/BaseLevelMgr.cs:151-159 | a bundle load leaves the previous stage or a stage file from the bundle |
| UnityLevelHandlers.InitStagePlan | unity-level/BaseLevelMgr.cs:116-146 | `InitStage` never changes the catalogs or the save directory |
| UnityLevelHandlers.InitStageUsesBundle | unity-level/BaseLevelMgr.cs:121-125 | with no saved catalog or an older one: resolve on the bundled catalog, load the bundled stage, request nothing, go on to `InitLevels` |
| UnityLevelHandlers.InitStageUsesSavedFile | unity-level/BaseLevelMgr.cs:128-142 | with a saved catalog as new as the bundled one and its stage file on disk: resolve on it and load that file |
| UnityLevelHandlers.InitStageDownloadsMissingFile | unity-level/BaseLevelMgr.cs:128-138 | a missing saved stage file is requested from the saved catalog's url, and the bundled catalog is used meanwhile |
| UnityLevelHandlers.InitStageDownloadImpliesBundle | unity-level/BaseLevelMgr.cs:116-146 | a download is only requested for a stage file, for this track, while the page in use comes from the bundled catalog |
| UnityLevelHandlers.FirstLevelOf | unity-level/MainLevelHandler.cs:19 | the first cached level is `LevelDistance` below the player's level, never below 1 |
| UnityLevelHandlers.WindowedContents | unity-level/MainLevelHandler.cs:44-54 | `InitLevels` caches exactly the window of the loaded page from `FirstLevel` on, under each level number, and keeps every other cached level |
| UnityLevelHandlers.MainInitStage | unity-level/MainLevelHandler.cs:25-29 | loading a stage for the main track follows `InitStagePlan` and never drops a cached level or the persisted level |
| UnityLevelHandlers.MainUpdateLevels | unity-level/MainLevelHandler.cs:68-80 | only the level `LevelDistance` behind may leave the cache; the next page is loaded exactly when the look-ahead passes the page's end |
| UnityLevelHandlers.MainGetLevelData | unity-level/MainLevelHandler.cs:23-33 | a record is returned exactly when the level is cached after the update, and it is the cached one; a hit always returns a record |
| UnityLevelHandlers.GetLevelDataMissFindsLevel | unity-level/MainLevelHandler.cs:25-32 | on a cache miss whose stage load reaches `InitLevels` with a window covering the level, the level is found; with no look-ahead page it is the stage's record at the level's offset |
| UnityLevelHandlers.SpecialInitStage | unity-level/BaseLevelMgr.cs:116-146 | loading a stage for the special track never touches its persisted mark |
| UnityLevelHandlers.SpecialLevelSchedule | unity-level/SpecialLevelHandler.cs:33-43 | with a positive offset the special level is defined, counts the unlock steps passed (at least 1), and a hit happens exactly on its step's main level |
| UnityLevelHandlers.SpecialLevel | unity-level/SpecialLevelHandler.cs:33-43 | the special level is undefined (the division throws) exactly when the offset is 0 |
| UnityLevelHandlers.Enter | unity-level/SpecialLevelHandler.cs:66-77 | the decision throws exactly for offset 0, even with the rule off; a hit needs the rule on, a main level past the start and a special level above the mark and within the loaded stage |
| UnityLevelHandlers.DisabledRuleWithoutOffsetThrows | unity-level/SpecialLevelHandler.cs:68-69 | a switched-off rule with offset 0 still throws, because the level is read before `enable` is tested |
| UnityLevelHandlers.EnterRaisesMark | unity-level/SpecialLevelHandler.cs:66-77 | a granted special level is above the previous mark |
| UnityLevelHandlers.EnterNeverTwiceForSameLevel | unity-level/SpecialLevelHandler.cs:66-77 | once granted, the same special level is never granted again |
| UnityLevelHandlers.MainLevelHandler.Level | unity-level/MainLevelHandler.cs:35-39 | the persisted player level, 1 when nothing is saved |
| UnityLevelHandlers.MainLevelHandler.SetLevel | unity-level/MainLevelHandler.cs:38 | the new level is persisted and read back |
| UnityLevelHandlers.MainLevelHandler.FirstLevel | unity-level/MainLevelHandler.cs:19 | `LevelDistance` below the player's level, at least 1 |
| UnityLevelHandlers.MainLevelHandler.InitLevels | unity-level/MainLevelHandler.cs:44-54 | without a loaded stage nothing changes; otherwise the cache becomes `Windowed` of the old cache and the handler is initialised |
| UnityLevelHandlers.MainLevelHandler.UpdateLevels | unity-level/MainLevelHandler.cs:68-80 | the new snapshot and the requests are those of `MainUpdateLevels` |
| UnityLevelHandlers.MainLevelHandler.GetLevelData | unity-level/MainLevelHandler.cs:23-33 | the new snapshot, requests and result are those of `MainGetLevelData`; the record returned is the cached one |
| UnityLevelHandlers.SpecialLevelHandler.PassedSpecialLevel | unity-level/SpecialLevelHandler.cs:82-86 | the persisted mark, 0 when nothing is saved |
| UnityLevelHandlers.SpecialLevelHandler.GetLevelData | unity-level/SpecialLevelHandler.cs:25-31 | the record at the level's offset on the loaded page; `None` exactly without a stage or off the page |
| UnityLevelHandlers.SpecialLevelHandler.InitLevels | unity-level/SpecialLevelHandler.cs:45-49 | succeeds exactly with a loaded stage, recording its level count; on failure nothing changes |
| UnityLevelHandlers.SpecialLevelHandler.IsEnterSpecifiedLevel | unity-level/SpecialLevelHandler.cs:66-77 | the outcome is `Enter` of the old mark (`None` where it throws); a hit raises the mark to the special level; otherwise the mark stays; the mark never decreases |
| UnityLevelHandlers.SetCurStageInPackage | unity-level/BaseLevelMgr.cs:151-159 | the current stage becomes the bundled file of the current stage of the default catalog, and stays as it was when that load fails |
| UnityLevelHandlers.SetCurStageInPersistentData | unity-level/BaseLevelMgr.cs:164-169 | the saved stage file is loaded exactly when it is on disk |
| UnityLevelHandlers.DownloadStage | unity-level/BaseLevelMgr.cs:189-197 | the current saved stage file is requested from its url, and nothing when the index is past the catalog's end |
| UnityLevelHandlers.RunInitLevels | unity-level/BaseLevelMgr.cs:145 | the track's own `InitLevels` succeeds exactly with a loaded stage |
| UnityLevelHandlers.LoadStage | unity-level/BaseLevelMgr.cs:116-143 | the new level state and requests are those `InitStagePlan` specifies |
| UnityLevelHandlers.InitStage | unity-level/BaseLevelMgr.cs:116-146 | the track's new snapshot and requests are those of `MainInitStage` or `SpecialInitStage` |
| UnityLevelMgr.TryAdd | unity-level/BaseLevelMgr.cs:37-40 | the group is registered afterwards, and an existing handler is kept |
| UnityLevelMgr.RegisterKeepsFirst | unity-level/BaseLevelMgr.cs:37-40 | registering twice under one group keeps the first handler |
| UnityLevelMgr.CheckOne | unity-level/BaseLevelMgr.cs:222-226 | throws exactly without a remote catalog, or when a bundled catalog is needed and missing; otherwise requests the catalog exactly when `IsNeedUpdate` holds |
| UnityLevelMgr.CheckAll | unity-level/BaseLevelMgr.cs:218-228 | `CheckUpdate` over the handlers in order: the requests made and whether no handler threw (what they are is stated by `CheckAllStops`, `CheckAllStep` and `CheckAllExactlyStale`) |
| UnityLevelMgr.CheckAllStops | unity-level/BaseLevelMgr.cs:220-227 | once a handler throws, the remaining ones are not checked |
| UnityLevelMgr.CheckAllStopsAny | unity-level/BaseLevelMgr.cs:220-227 | the same at every point of the scan |
| UnityLevelMgr.CheckAllStep | unity-level/BaseLevelMgr.cs:220-227 | a completed check extends by the next handler's own step |
| UnityLevelMgr.CheckOneStale | unity-level/BaseLevelMgr.cs:222-226 | a handler's step requests exactly its stale catalog |
| UnityLevelMgr.CheckAllExactlyStale | unity-level/BaseLevelMgr.cs:218-228 | a completed `CheckUpdate` requests a catalog download for exactly the handlers whose `IsNeedUpdate` holds |
| UnityLevelMgr.ReadSaved | unity-level/BaseLevelMgr.cs:104-114 | the save directory is set, the saved catalog is read when its file exists, and nothing else changes |
| UnityLevelMgr.ReadSaveMapData | unity-level/BaseLevelMgr.cs:104-114 | the level state becomes `ReadSaved` of the old one |
| UnityLevelMgr.LoadMapConfig | unity-level/BaseLevelMgr.cs:91-97 | the bundled catalog becomes the default one exactly when the bundle holds it |
| UnityLevelMgr.DownloadMap | unity-level/BaseLevelMgr.cs:174-183 | no request without a remote catalog; otherwise exactly the catalog download |
| UnityLevelMgr.InitializeMain | unity-level/BaseLevelMgr.cs:76-84 | bundled catalog, saved catalog, then the stage of `FirstLevel`; nothing when the bundled catalog is missing |
| UnityLevelMgr.InitializeSpecial | unity-level/BaseLevelMgr.cs:76-84 | the same for the special track, whose first level is 1 |
| UnityLevelMgr.InitializeMgr | unity-level/BaseLevelMgr.cs:76-84 | `InitializeMain` or `InitializeSpecial` according to the track |
| UnityLevelMgr.OnMapFileDownSuccess | unity-level/BaseLevelMgr.cs:207-213 | the saved catalog is re-read and `FirstLevel` resolved on it; the stage file is requested exactly when resolution succeeds |
| UnityLevelMgr.ReloadAndResolve | unity-level/BaseLevelMgr.cs:209-211 | re-reading the saved catalog and resolving on it gives `AfterCompute` of `ReadSaved` |
| UnityLevelMgr.CheckHandler | unity-level/BaseLevelMgr.cs:222-226 | one handler's check appends exactly `CheckOne`'s requests |
| UnityLevelMgr.CheckHandlers | unity-level/BaseLevelMgr.cs:220-227 | the loop appends exactly `CheckAll`'s requests and completes exactly as `CheckAll` does |
| UnityLevelMgr.OnStageLevelFileDownSuccess | unity-level/BaseLevelMgr.cs:199-205 | resolves `FirstLevel` on the saved catalog, loads the saved file when resolution succeeded and the file exists, and runs `InitLevels` exactly then |
| UnityLevelMgr.BaseLevelMgr.Register | unity-level/BaseLevelMgr.cs:37-40 | the handlers become `TryAdd` of the old ones, and a new group is enumerated after the groups already registered |
| UnityLevelMgr.BaseLevelMgr.Unregister | unity-level/BaseLevelMgr.cs:42-48 | the group is forgotten and leaves the enumeration order; nothing changes for an unknown group |
| UnityLevelMgr.Without | unity-level/BaseLevelMgr.cs:46 | removing a group keeps exactly the other groups, each still once |
| UnityLevelMgr.BaseLevelMgr.GetLevelHandler | unity-level/BaseLevelMgr.cs:50-58 | `None` exactly for an unregistered group |
| UnityLevelMgr.BaseLevelMgr.Registered | unity-level/BaseLevelMgr.cs:66 | the registered handlers, one per group, in the order the groups were registered |
| UnityLevelMgr.BaseLevelMgr.GetLevel | unity-level/BaseLevelMgr.cs:230-234 | `None` for an unregistered group (null handler); the main track's persisted level; or `SpecialLevel`, `None` for offset 0 |
| UnityLevelMgr.BaseLevelMgr.SetLevel | unity-level/BaseLevelMgr.cs:236-240 | `false`, changing nothing, exactly for an unregistered group; the main track persists the level; the special track's setter changes nothing |
| UnityLevelMgr.BaseLevelMgr.GetLevelData | unity-level/BaseLevelMgr.cs:248-252 | `None` for an unregistered group; otherwise the track's own lookup |
| UnityLevelMgr.BaseLevelMgr.IsEnterSpecifiedLevel | unity-level/BaseLevelMgr.cs:257-261 | `Some(false)` without a special handler; otherwise that handler's outcome (`None` where it throws) and mark update |
| UnityLevelMgr.BaseLevelMgr.OnMainLevelUpdate | unity-level/BaseLevelMgr.cs:267-271 | the main handler's `UpdateLevels`, and nothing without one |
| UnityLevelMgr.BaseLevelMgr.CheckUpdate | unity-level/BaseLevelMgr.cs:218-228 | nothing before the content network is ready; then exactly `CheckAll` over the registered handlers in registration order |
| UnityLevelMgr.BaseLevelMgr.Initialize | unity-level/BaseLevelMgr.cs:63-70 | registrations are unchanged; with the main track alone registered, its state is that of `InitializeMain` |
| CocosLevelTypes.LevelTypeData.constructor | assets/Scripts/Game/Level/Core/LevelModel.ts:10-18 | a new record holds no catalogs, no stage, level 1 and the empty page [1, 0] |
| CocosLevelModel.LevelModel.InitType | assets/Scripts/Game/Level/Core/LevelModel.ts:8-20 | a fresh initial record for a track without one; an existing record is kept |
| CocosLevelModel.LevelModel.GetData | assets/Scripts/Game/Level/Core/LevelModel.ts:22-29 | `None` exactly for a track without a record |
| CocosLevelModel.LevelModel.SetMapData | assets/Scripts/Game/Level/Core/LevelModel.ts:31-40 | only the chosen catalog of that track changes; nothing without a record |
| CocosLevelModel.LevelModel.SetStageData | assets/Scripts/Game/Level/Core/LevelModel.ts:42-46 | only that track's current stage changes |
| CocosLevelModel.LevelModel.SetCurrentLevel | assets/Scripts/Game/Level/Core/LevelModel.ts:48-52 | only that track's current level changes |
| CocosLevelModel.LevelModel.SetStageInfo | assets/Scripts/Game/Level/Core/LevelModel.ts:54-60 | only that track's page fields change |
| CocosLevelModel.LevelModel.ClearByType | assets/Scripts/Game/Level/Core/LevelModel.ts:62-64 | exactly that track's record is forgotten |
| CocosLevelModel.LevelModel.Clear | assets/Scripts/Game/Level/Core/LevelModel.ts:66-68 | every record is forgotten |
| CocosLevelHandlers.NeedUpdateWithoutSave | assets/Scripts/Game/Level/Handlers/BaseLevelHandler.ts:53-56 | without a saved catalog an update is needed exactly for a positive remote version, whatever the bundled catalog says |
| CocosLevelHandlers.CurrentStageId | assets/Scripts/Game/Level/Handlers/BaseLevelHandler.ts:45-51 | '' without a current stage, its id otherwise |
| CocosLevelHandlers.LevelDataOf | assets/Scripts/Game/Level/Handlers/BaseLevelHandler.ts:58-71 | the level at its offset from the page start; `None` exactly without a stage or off the stage's levels |
| CocosLevelHandlers.LevelDataConsecutive | assets/Scripts/Game/Level/Handlers/BaseLevelHandler.ts:64-70 | consecutive levels on a page read consecutive entries of the stage |
| CocosLevelHandlers.SelectCatalog | assets/Scripts/Game/Level/Handlers/SpecialLevelHandler.ts:11 | the bundled catalog when asked; otherwise the saved one, falling back to the bundled one |
| CocosLevelHandlers.LoadRemoteConfig | assets/Scripts/Game/Level/Handlers/SpecialLevelHandler.ts:33-39 | the stub remote catalogs stamped with the clock reading: none for the special track, one one-level stage for the daily track (DailyLevelHandler.ts:29-39) |
| CocosLevelHandlers.CumMonotone | assets/Scripts/Game/Level/Handlers/SpecialLevelHandler.ts:27 | the running total of levels never decreases |
| CocosLevelHandlers.FindFrom | assets/Scripts/Game/Level/Handlers/SpecialLevelHandler.ts:18-28 | a stage found holds the level between its cumulative bounds |
| CocosLevelHandlers.FindFromIff | assets/Scripts/Game/Level/Handlers/SpecialLevelHandler.ts:18-28 | a stage is found exactly for levels after the stages skipped and within the catalog |
| CocosLevelHandlers.SpecialCompute | assets/Scripts/Game/Level/Handlers/SpecialLevelHandler.ts:10-31 | the special track's resolution never touches the catalogs or the current level, and changes nothing without a catalog (its page and stage are stated by `SpecialComputePlacement` and `SpecialComputeNoWrap`) |
| CocosLevelHandlers.SpecialComputePlacement | assets/Scripts/Game/Level/Handlers/SpecialLevelHandler.ts:10-31 | within the catalog the page holds the level and spans exactly the stage's levels; the stage becomes current and the catalogs and level stay |
| CocosLevelHandlers.SpecialComputeNoWrap | assets/Scripts/Game/Level/Handlers/SpecialLevelHandler.ts:17-30 | outside the catalog's levels the record is left as it is, with no wrap-around |
| CocosLevelHandlers.SpecialComputeThenLookup | assets/Scripts/Game/Level/Handlers/SpecialLevelHandler.ts:20-25 | after the special track's resolution, `getLevelData` finds the level on the new page |
| CocosLevelHandlers.DailyCompute | assets/Scripts/Game/Level/Handlers/DailyLevelHandler.ts:10-27 | no catalog or no stage leaves the record; otherwise the page is the whole first stage |
| CocosLevelHandlers.DailyIgnoresLevel | assets/Scripts/Game/Level/Handlers/DailyLevelHandler.ts:18-23 | the daily page does not depend on the level |
| CocosLevelHandlers.Compute | assets/Scripts/Game/Level/Handlers/BaseLevelHandler.ts:79 | either handler's `computeStage` never touches the catalogs or the current level, and changes nothing without a catalog |
| CocosLevelHandlers.SpecialComputeStage | assets/Scripts/Game/Level/Handlers/SpecialLevelHandler.ts:10-31 | the loop leaves the record as `SpecialCompute` specifies |
| CocosLevelHandlers.DailyComputeStage | assets/Scripts/Game/Level/Handlers/DailyLevelHandler.ts:10-27 | the record becomes `DailyCompute` of the old one |
| CocosLevelHandlers.LevelHandler.Initialize | assets/Scripts/Game/Level/Handlers/BaseLevelHandler.ts:35-43 | a loaded descriptor is stored and the handler initialised; a failed load changes nothing |
| CocosLevelHandlers.LevelHandler.ComputeStage | assets/Scripts/Game/Level/Handlers/SpecialLevelHandler.ts:10-31 | the handler class's own resolution of the record |
| CocosLevelHandlers.LevelHandler.GetCurrentStageId | assets/Scripts/Game/Level/Handlers/BaseLevelHandler.ts:45-51 | `CurrentStageId` of the record: '' without a current stage, its id otherwise |
| CocosLevelHandlers.LevelHandler.NeedUpdateOf | assets/Scripts/Game/Level/Handlers/BaseLevelHandler.ts:53-56 | `NeedUpdate` of the record: the saved version, or 0, is older than the remote one |
| CocosLevelHandlers.LevelHandler.GetLevelData | assets/Scripts/Game/Level/Handlers/BaseLevelHandler.ts:58-71 | `LevelDataOf` of the record: the level at its page offset, `None` without a stage or off it |
| CocosLevelMgr.LevelMgr.RegisterHandler | assets/Scripts/Game/Level/Core/LevelMgr.ts:37-44 | a track keeps its first handler; a new one is stored and the track's record created |
| CocosLevelMgr.LevelMgr.UnregisterHandler | assets/Scripts/Game/Level/Core/LevelMgr.ts:46-49 | the track's handler and record are both forgotten |
| CocosLevelMgr.LevelMgr.GetHandler | assets/Scripts/Game/Level/Core/LevelMgr.ts:51-58 | `None` exactly for a track without a handler |
| CocosLevelMgr.LevelMgr.ComputeStage | assets/Scripts/Game/Level/Core/LevelMgr.ts:60-66 | only that track's record changes, by its handler's resolution; nothing without a handler or a record |
| CocosLevelMgr.LevelMgr.GetCurrentStageId | assets/Scripts/Game/Level/Core/LevelMgr.ts:68-74 | `None` exactly without a handler or a record |
| CocosLevelMgr.LevelMgr.NeedUpdateOf | assets/Scripts/Game/Level/Core/LevelMgr.ts:76-82 | true exactly when the track is ready and its saved version is older |
| CocosLevelMgr.LevelMgr.GetLevelData | assets/Scripts/Game/Level/Core/LevelMgr.ts:84-90 | `None` without a handler or record; otherwise the page lookup |
| CocosLevelMgr.LevelMgr.SetMapData | assets/Scripts/Game/Level/Core/LevelMgr.ts:92-94 | forwarded to the model unchanged |
| CocosLevelMgr.LevelMgr.SetCurrentLevel | assets/Scripts/Game/Level/Core/LevelMgr.ts:96-99 | the level is stored, then its page resolved on the saved catalog (falling back to the bundled one) |
| CocosLevelMgr.LevelMgr.Clear | assets/Scripts/Game/Level/Core/LevelMgr.ts:101-104 | every handler and record is forgotten |
| CocosLevelMgr.LevelMgr.InitHandlers | assets/Scripts/Game/Level/Core/LevelMgr.ts:24-35 | every handler not yet initialised runs `initialize`; a failing one does not stop the others |
| CocosLevelMgr.LevelMgr.RegisterDefaults | assets/Scripts/Game/Level/Core/LevelMgr.ts:18-19 | a fresh special and daily handler are registered where their track had none; existing handlers are kept |
| CocosLevelMgr.LevelMgr.Initialize | assets/Scripts/Game/Level/Core/LevelMgr.ts:15-22 | both tracks end up with handlers; every handler is initialised unless its remote load fails |
| Events.Remove | assets/Scripts/Framework/Core/Event/EventMgr.ts:45-50 | `off` never adds listeners |
| Events.RemoveKeeps | assets/Scripts/Framework/Core/Event/EventMgr.ts:45-50 | `off` keeps exactly the listeners it does not match |
| Events.RemoveNoDup | assets/Scripts/Framework/Core/Event/EventMgr.ts:45-50 | `off` keeps a list free of duplicates |
| Events.RemoveSplits | assets/Scripts/Framework/Core/Event/EventMgr.ts:45-50 | what `off` keeps stays in the list's order |
| Events.OffEntry | assets/Scripts/Framework/Core/Event/EventMgr.ts:52-54 | the event goes exactly when no listener is left |
| Events.EmitIntendedFrom | assets/Scripts/Framework/Core/Event/EventMgr.ts:70-72 | removing only each fired `once` listener itself, from some point of the list on, leaves the listeners before that point plus the later non-`once` ones |
| Events.RemoveExactOne | assets/Scripts/Framework/Core/Event/EventMgr.ts:70-72 | removing one exact listener from a duplicate-free list drops just it |
| Events.EmitIntendedKeepsPersistent | assets/Scripts/Framework/Core/Event/EventMgr.ts:57-74 | with the intended removal, `emit` leaves exactly the non-`once` listeners in order, and drops the event when none is left |
| Events.EmitRemovesTargetedListener | assets/Scripts/Framework/Core/Event/EventMgr.ts:70-72 | as written, a `once` listener without a target also removes another listener of its callback |
| Events.EmitEntryValid | assets/Scripts/Framework/Core/Event/EventMgr.ts:57-74 | `emit` as written keeps every stored list non-empty and duplicate-free |
| Events.EmitEntry | assets/Scripts/Framework/Core/Event/EventMgr.ts:57-74 | `emit`'s removal as written: `off` with each fired `once` listener's callback and target, in firing order |
| Events.EmitEntryDropsFiredOnce | assets/Scripts/Framework/Core/Event/EventMgr.ts:57-74 | after `emit` as written every remaining listener was there before, and none of the fired `once` listeners is left |
| Events.SpliceMatching | assets/Scripts/Framework/Core/Event/EventMgr.ts:45-50 | the backward splice loop leaves exactly `Remove` of the list |
| Events.EventMgr.On | assets/Scripts/Framework/Core/Event/EventMgr.ts:16-30 | appends the listener unless its callback and target are already registered; afterwards it is registered |
| Events.EventMgr.Once | assets/Scripts/Framework/Core/Event/EventMgr.ts:32-34 | `on` with the `once` flag |
| Events.EventMgr.Off | assets/Scripts/Framework/Core/Event/EventMgr.ts:36-55 | unknown event: nothing; no callback: event forgotten; otherwise `OffEntry` |
| Events.EventMgr.Emit | assets/Scripts/Framework/Core/Event/EventMgr.ts:57-74 | fires a copy of the list in order, then removes the fired `once` listeners through `off` |
| Events.EventMgr.Clear | assets/Scripts/Framework/Core/Event/EventMgr.ts:76-78 | every event is forgotten |
| Resources.CacheKey | assets/Scripts/Framework/Core/Res/ResourceMgr.ts:25-27 | the key is the bundle name, ':' and the path |
| Resources.CacheKeyInjective | assets/Scripts/Framework/Core/Res/ResourceMgr.ts:25-27 | a key names one bundle and path when bundle names have no ':' |
| Resources.SliceRoundTrip | assets/Scripts/Framework/Core/Res/ResourceMgr.ts:183-186 | `releaseBundle` rebuilds each key of the bundle from its slice |
| Resources.AddToCache | assets/Scripts/Framework/Core/Res/ResourceMgr.ts:32-44 | a new key starts with one holder; an existing one gains a holder and is marked used; other keys are untouched |
| Resources.ReleaseFromCache | assets/Scripts/Framework/Core/Res/ResourceMgr.ts:49-58 | one holder less, and the entry goes when none is left; nothing for an absent key |
| Resources.AddThenRelease | assets/Scripts/Framework/Core/Res/ResourceMgr.ts:32-58 | adding a holder and releasing it restores the cache, apart from the use time |
| Resources.DropIdle | assets/Scripts/Framework/Core/Res/ResourceMgr.ts:237-241 | `gc` keeps entries unchanged and, once done, leaves no idle entry |
| Resources.DropIdleStep | assets/Scripts/Framework/Core/Res/ResourceMgr.ts:237-241 | one more key handled: released if idle, kept otherwise |
| Resources.GcReleaseKeyPlain | assets/Scripts/Framework/Core/Res/ResourceMgr.ts:239 | without ':' in names, `gc` releases the key it examined |
| Resources.GcReleaseKeyAsWritten | assets/Scripts/Framework/Core/Res/ResourceMgr.ts:239 | the key `gc` releases: the first two ':'-separated fields of the examined key joined again ("undefined" for a missing second field) |
| Resources.GcReleasesWrongKey | assets/Scripts/Framework/Core/Res/ResourceMgr.ts:239 | with ':' in a path, `gc` releases a different key |
| Resources.ResourceMgr.LoadBundle | assets/Scripts/Framework/Core/Res/ResourceMgr.ts:63-79 | a known bundle is returned; otherwise the engine's load, remembered on success |
| Resources.ResourceMgr.LoadInto | assets/Scripts/Framework/Core/Res/ResourceMgr.ts:86-102 | a hit gains a holder and returns the cached asset; a miss caches a successful load |
| Resources.ResourceMgr.LoadRes | assets/Scripts/Framework/Core/Res/ResourceMgr.ts:84-104 | the same for the resources bundle's key |
| Resources.ResourceMgr.LoadAsset | assets/Scripts/Framework/Core/Res/ResourceMgr.ts:109-135 | the bundle is cached as `loadBundle` does; nothing more without the bundle; otherwise the cache lookup by bundle and path |
| Resources.ResourceMgr.LoadRemote | assets/Scripts/Framework/Core/Res/ResourceMgr.ts:140-159 | the remote cache lookup by url |
| Resources.ResourceMgr.Release | assets/Scripts/Framework/Core/Res/ResourceMgr.ts:164-167 | one holder less for the bundle's asset |
| Resources.ResourceMgr.ReleaseRemote | assets/Scripts/Framework/Core/Res/ResourceMgr.ts:172-174 | one holder less for the remote asset |
| Resources.ResourceMgr.ReleaseBundle | assets/Scripts/Framework/Core/Res/ResourceMgr.ts:179-195 | every cached asset of the bundle loses one holder and the bundle is forgotten; nothing for an unknown bundle |
| Resources.ResourceMgr.ReleaseAll | assets/Scripts/Framework/Core/Res/ResourceMgr.ts:200-227 | every cache and bundle is forgotten |
| Resources.ResourceMgr.Gc | assets/Scripts/Framework/Core/Res/ResourceMgr.ts:233-249 | exactly the idle, singly held entries of both caches go |
| Timers.Advance | assets/Scripts/Framework/Core/Timer/TimerMgr.ts:63-103 | identity, tag and interval are kept; a paused timer, or one without positive scaled time, is unchanged; a pending delay shrinks by the scaled time (time timer) or by one frame (frame timer) and nothing else changes; at most one firing per frame; a timer is removed exactly when it is a running frame timer past its delay whose firing this frame finishes it |
| Timers.AdvanceAll | assets/Scripts/Framework/Core/Timer/TimerMgr.ts:66-102 | handled timers advance or go; the others are untouched |
| Timers.FrameTimerPeriod | assets/Scripts/Framework/Core/Timer/TimerMgr.ts:77-101 | a repeating frame timer of `n` frames fires once every `n` frames |
| Timers.FrameStep | assets/Scripts/Framework/Core/Timer/TimerMgr.ts:80-91 | one frame is counted, and the timer fires once a whole interval has accumulated |
| Timers.TimerMgr.TagMapDetermined | assets/Scripts/Framework/Core/Timer/TimerMgr.ts:105-126 | the tag map is determined by the timers |
| Timers.TimerMgr.AddToTagMap | assets/Scripts/Framework/Core/Timer/TimerMgr.ts:105-114 | a tagged id joins its tag's group; an untagged one changes nothing |
| Timers.TimerMgr.Add | assets/Scripts/Framework/Core/Timer/TimerMgr.ts:145-163 | the timer is stored under the next id, keeping the tag-map invariant |
| Timers.TimerMgr.Schedule | assets/Scripts/Framework/Core/Timer/TimerMgr.ts:131-164 | 0 and nothing added for invalid arguments; otherwise a running time timer with an interval of at least 0.0001 under the next id |
| Timers.TimerMgr.ScheduleByFrame | assets/Scripts/Framework/Core/Timer/TimerMgr.ts:174-206 | 0 for an interval below 1 or no callback; otherwise a frame timer of the interval's floor |
| Timers.TimerMgr.ScheduleOnce | assets/Scripts/Framework/Core/Timer/TimerMgr.ts:214-216 | one run after the delay |
| Timers.TimerMgr.Remove | assets/Scripts/Framework/Core/Timer/TimerMgr.ts:221-227 | the timer leaves the timers and its group, and the group goes once empty |
| Timers.TimerMgr.RemoveByTag | assets/Scripts/Framework/Core/Timer/TimerMgr.ts:232-238 | exactly the timers of the tag go, and the tag with them |
| Timers.TimerMgr.RemoveGroup | assets/Scripts/Framework/Core/Timer/TimerMgr.ts:235-236 | the loop removes the group's timers one by one and drops the tag |
| Timers.TimerMgr.Pause | assets/Scripts/Framework/Core/Timer/TimerMgr.ts:243-248 | only that timer's state changes |
| Timers.TimerMgr.Resume | assets/Scripts/Framework/Core/Timer/TimerMgr.ts:253-258 | only that timer's state changes |
| Timers.TimerMgr.SetPaused | assets/Scripts/Framework/Core/Timer/TimerMgr.ts:263-272 | the manager-wide switch |
| Timers.TimerMgr.SetTimeScale | assets/Scripts/Framework/Core/Timer/TimerMgr.ts:277-279 | negative scales become 0 |
| Timers.TimerMgr.GetTimeScale | assets/Scripts/Framework/Core/Timer/TimerMgr.ts:284-286 | the scale, never negative |
| Timers.TimerMgr.GetTimerInfo | assets/Scripts/Framework/Core/Timer/TimerMgr.ts:307-309 | `None` exactly for an unknown id |
| Timers.TimerMgr.GetActiveTimerCount | assets/Scripts/Framework/Core/Timer/TimerMgr.ts:314-316 | the number of timers |
| Timers.TimerMgr.ClearAsWritten | assets/Scripts/Framework/Core/Timer/TimerMgr.ts:291-293 | as written, clearing keeps stale tag groups and breaks the invariant |
| Timers.TimerMgr.Clear | assets/Scripts/Framework/Core/Timer/TimerMgr.ts:291-293 | timers and tag groups are both emptied, keeping the invariant |
| Timers.TimerMgr.FireFrame | assets/Scripts/Framework/Core/Timer/TimerMgr.ts:83-101 | a frame timer fires at most once per frame, and is removed exactly when that firing finishes it |
| Timers.TimerMgr.Tick | assets/Scripts/Framework/Core/Timer/TimerMgr.ts:66-102 | one timer's turn is `Advance`, removing a finished timer |
| Timers.TimerMgr.Update | assets/Scripts/Framework/Core/Timer/TimerMgr.ts:63-103 | nothing while paused or for a non-positive frame time; otherwise `AdvanceAll` over every timer |
| Timers.AdvanceAllStep | assets/Scripts/Framework/Core/Timer/TimerMgr.ts:66-102 | handling one more timer applies its `Advance` |
| Logging.PadStart | assets/Scripts/Framework/Core/Log/LogMgr.ts:83-89 | zeros in front up to the width; the text itself at the end |
| Logging.PadStartValue | assets/Scripts/Framework/Core/Log/LogMgr.ts:83-89 | a padded number still reads as that number |
| Logging.TimeStampFields | assets/Scripts/Framework/Core/Log/LogMgr.ts:72-78 | a clock reading in range gives "HH:MM:SS.mmm", from which each field reads back |
| Logging.TimeStamp | assets/Scripts/Framework/Core/Log/LogMgr.ts:72-78 | `_getTime`'s "HH:MM:SS.mmm" text from a clock reading, each field zero-padded (its layout is `TimeStampFields`) |
| Logging.Push | assets/Scripts/Framework/Core/Log/LogMgr.ts:98-101 | the entry goes last and the buffer stays within `MaxLogs` |
| Logging.PushAllKeepsNewest | assets/Scripts/Framework/Core/Log/LogMgr.ts:94-102 | the buffer always holds the newest 1000 entries of everything logged, in order |
| Logging.LogMgr.constructor | assets/Scripts/Framework/Core/Log/LogMgr.ts:18-19 | the level starts at `Debug` in a debug build and `Info` otherwise, with an empty buffer |
| Logging.LogMgr.SetLevel | assets/Scripts/Framework/Core/Log/LogMgr.ts:25-27 | the level is set |
| Logging.LogMgr.FormatNumber | assets/Scripts/Framework/Core/Log/LogMgr.ts:83-89 | the padding loop gives `PadStart` |
| Logging.LogMgr.GetTime | assets/Scripts/Framework/Core/Log/LogMgr.ts:72-78 | the time stamp text |
| Logging.LogMgr.SaveLogs | assets/Scripts/Framework/Core/Log/LogMgr.ts:94-102 | the buffer becomes `Push` of the formatted entry |
| Logging.LogMgr.Log | assets/Scripts/Framework/Core/Log/LogMgr.ts:32-67 | a message is kept exactly when the level is at or below its severity |
| Logging.LogMgr.GetLogs | assets/Scripts/Framework/Core/Log/LogMgr.ts:107-109 | the buffer, at most 1000 entries |
| Logging.LogMgr.Clear | assets/Scripts/Framework/Core/Log/LogMgr.ts:114-116 | the buffer is emptied |
| Strings.Width | assets/Scripts/Framework/Core/Utils/StringUtil.ts:40-47 | the width lies between the length and twice the length |
| Strings.WidthAppend | assets/Scripts/Framework/Core/Utils/StringUtil.ts:40-47 | widths add up over a split |
| Strings.GetStringLength | assets/Scripts/Framework/Core/Utils/StringUtil.ts:40-47 | the loop computes `Width` |
| Strings.FitLength | assets/Scripts/Framework/Core/Utils/StringUtil.ts:24-33 | the longest prefix within the width |
| Strings.FitLengthLongest | assets/Scripts/Framework/Core/Utils/StringUtil.ts:24-33 | no longer prefix fits |
| Strings.CutToWidth | assets/Scripts/Framework/Core/Utils/StringUtil.ts:22-34 | the loop returns the whole string if it fits; otherwise the longest fitting prefix and the suffix |
| Strings.TruncateAsWritten | assets/Scripts/Framework/Core/Utils/StringUtil.ts:18-35 | `truncate` as written |
| Strings.TruncatedAsWritten | assets/Scripts/Framework/Core/Utils/StringUtil.ts:18-35 | `truncate` as written: '' for '', the input when it has at most `maxLength` code units or fits by width, otherwise its longest fitting prefix plus the suffix |
| Strings.TruncateKeepsWideString | assets/Scripts/Framework/Core/Utils/StringUtil.ts:20 | as written, two wide characters with a limit of 2 come back whole, four wide |
| Strings.Truncate | assets/Scripts/Framework/Core/Utils/StringUtil.ts:18-35 | `truncate` with the early return measured by width |
| Strings.Truncated | assets/Scripts/Framework/Core/Utils/StringUtil.ts:18-35 | `truncate` with the early return measured by width (its result is stated by `TruncatedFits`) |
| Strings.TruncatedFits | assets/Scripts/Framework/Core/Utils/StringUtil.ts:18-35 | a fitting string comes back whole; otherwise its longest fitting prefix and the suffix |
| Strings.FormatWithoutArgs | assets/Scripts/Framework/Core/Utils/StringUtil.ts:6-10 | with no arguments every placeholder stays |
| Strings.FormatWithoutBraces | assets/Scripts/Framework/Core/Utils/StringUtil.ts:6-10 | a string without '{' is unchanged |
| Strings.FormatCopiesPrefix | assets/Scripts/Framework/Core/Utils/StringUtil.ts:6-10 | text before a placeholder is copied |
| Strings.FormatExample | assets/Scripts/Framework/Core/Utils/StringUtil.ts:6-10 | "Hello {0}!" with "World" gives "Hello World!" |
| Strings.Format | assets/Scripts/Framework/Core/Utils/StringUtil.ts:6-10 | `format`: each "{digits}" naming a defined argument becomes it, the rest is copied (stated for every input by the lemmas around it) |
| Strings.FormatPlaceholderAny | assets/Scripts/Framework/Core/Utils/StringUtil.ts:6-10 | for every index and text after it, "{i}" becomes `args[i]` when that argument exists and stays as it is otherwise, and the rest is formatted in turn |
| Strings.Upper | assets/Scripts/Framework/Core/Utils/StringUtil.ts:60 | ASCII lower-case letters go up; other code units stay |
| Strings.ToCamelCase | assets/Scripts/Framework/Core/Utils/StringUtil.ts:59-61 | `toCamelCase`: never longer than its input; each separator before a word character is replaced by that character in upper case |
| Strings.ToCamelCaseWithoutSeparators | assets/Scripts/Framework/Core/Utils/StringUtil.ts:59-61 | a name without '-' or '_' is unchanged |
| Strings.ToCamelCaseIdentity | assets/Scripts/Framework/Core/Utils/StringUtil.ts:59-61 | the output is the input exactly when its length is, which is exactly when no separator precedes a word character |
| Strings.ToCamelCaseExample | assets/Scripts/Framework/Core/Utils/StringUtil.ts:59-61 | "to-do_it" becomes "toDoIt" |
| Strings.ToPascalCase | assets/Scripts/Framework/Core/Utils/StringUtil.ts:66-69 | the camel-case form with its first code unit in upper case |
| Strings.Trim | assets/Scripts/Framework/Core/Utils/StringUtil.ts:53 | a trimmed string is a slice of the input with only white space cut from each end, and it neither starts nor ends with white space |
| Strings.TrimEmpty | assets/Scripts/Framework/Core/Utils/StringUtil.ts:53 | trimming gives '' exactly for an all-white string |
| Strings.IsNullOrWhiteSpace | assets/Scripts/Framework/Core/Utils/StringUtil.ts:52-54 | true exactly for a missing or all-white string |
| TimeFormat.SplitSeconds | assets/Scripts/Framework/Core/Utils/TimeUtil.ts:36-38 | hours, minutes under 60 and seconds under 60 that add up to the input |
| TimeFormat.FormatSeconds | assets/Scripts/Framework/Core/Utils/TimeUtil.ts:35-46 | the text is empty exactly when zeros are hidden and no unit has a positive count |
| TimeFormat.FormatSecondsUnderAMinute | assets/Scripts/Framework/Core/Utils/TimeUtil.ts:35-46 | under a minute only seconds show, and nothing for 0 |
| TimeFormat.FormatSecondsShowsAll | assets/Scripts/Framework/Core/Utils/TimeUtil.ts:41-43 | with zeros shown, all three units appear |
| TimeFormat.FormatSecondsInjective | assets/Scripts/Framework/Core/Utils/TimeUtil.ts:35-46 | with zeros shown, different durations read differently |
| TimeFormat.SplitMillisSum | assets/Scripts/Framework/Core/Utils/TimeUtil.ts:53-56 | days, hours under 24, minutes and seconds under 60 add up to the input, to the second |
| TimeFormat.FormatLeftTime | assets/Scripts/Framework/Core/Utils/TimeUtil.ts:52-62 | `formatLeftTime`: the largest non-zero unit and the one below it, or the seconds alone (stated by amount in `FormatLeftTimeUnits`) |
| TimeFormat.FormatLeftTimeUnits | assets/Scripts/Framework/Core/Utils/TimeUtil.ts:52-62 | the units shown depend on the amount: days from a day on, hours from an hour, minutes from a minute, else seconds |
| Models.Model.Init | assets/Scripts/Framework/Core/Model/ModelMgr.ts:18-25 | a model is initialised when its `init` succeeds |
| Models.Model.Clear | assets/Scripts/Framework/Core/Model/ModelMgr.ts:41-43 | the model's own `clear` runs once |
| Models.ModelMgr.Register | assets/Scripts/Framework/Core/Model/ModelMgr.ts:8-26 | a key keeps its first model; a new model is stored, then initialised when it has `init`, and stays stored if `init` throws |
| Models.ModelMgr.Get | assets/Scripts/Framework/Core/Model/ModelMgr.ts:29-36 | `None` exactly for an unknown key |
| Models.ModelMgr.Clear | assets/Scripts/Framework/Core/Model/ModelMgr.ts:39-46 | `clear` runs once on each model that has it, then the registry is empty |

## Left out

- UnityLevelModel.LevelModel.ComputeStage: the wrap passes `level - StageEndLevel`
  through `Mathf.FloorToInt`, which converts it to a `float`. That is exact only
  for magnitudes up to 2^24; the model computes on exact integers. The running
  total `StageEndLevel += level_count` (unity-level/LevelModel.cs:43) is a
  32-bit C# `int` and can overflow; the model's `Prefix` sums are unbounded.
- UnityLevelMgr.BaseLevelMgr.Registered: the model enumerates groups in
  registration order, which is how .NET's `Dictionary` enumerates while nothing
  is removed. After an `Unregister`, .NET may enumerate a later registration in
  the freed slot, ahead of older groups; the model still enumerates it last.
- Unity: file reads, JSON parsing, asset loads and the download service
  become the `Package`, `Disk` and `Downloader` values. The asynchronous
  ordering of `async void` calls is not modelled: each call runs to its end
  before the next.
- UnityLevelMgr.BaseLevelMgr.Initialize: its contract describes the outcome
  only when the main track alone is registered. With both tracks, the loop
  runs both initialisations, but the contract does not relate the second
  track's state.
- Unity: `RemoteMapConfig`, `ConfigMgr`, `CdnLoaderMgr` and the logging calls
  are inputs (`RemoteConfig`, `cdnReady`) or left out.
- Cocos: `assets/Scripts/Game/Level/Handlers/MainLevelHandler.ts` is not part
  of this model, so the Cocos `initialize` registers only the special and
  daily handlers. `initHandlers` is modelled as running the handlers in
  turn, without its `await` interleaving.
- Cocos: `loadRemoteConfig`'s clock reading is a parameter. `save` is empty
  in the source and is not modelled.
- UnityLevelModel.PathCombine: '/' is the only separator and the only root.
  The Windows separator `\` and drive roots such as `C:` are not modelled.
- Timers.Advance: a time-based timer past its delay is left as it is. The
  model does not add the scaled frame time to `elapsed`, nor run its firing
  loop. Frame timers and all delays are modelled fully.
- Timers.TimerMgr.Update: inherits the above for time-based timers. A
  callback that schedules or removes timers during the update is not
  modelled.
- Timers: `_init`, `destroy` and the engine's frame event are left out.
  Numbers are exact reals, not IEEE doubles.
- Events: a target is an object identity, and `None` stands for every falsy
  JavaScript target (`null`, `undefined`, `0`, `""`). A `Some` target is
  always truthy, so the model cannot pass `0` or `""` as a target and have
  `off`'s `!target` test (assets/Scripts/Framework/Core/Event/EventMgr.ts:46)
  treat it as absent.
- Events: callbacks are opaque and never run, so a listener that changes the
  bus while it is being emitted is not modelled.
- Resources: the engine's release calls (`releaseAsset`, `removeBundle`,
  `releaseAll`, native garbage collection) have no visible state in the
  model. Loads are given as their outcomes.
- Logging: console output and `exportLogs` (file I/O) are left out, and the
  message text is given already joined.
- TimeFormat: `formatDate` is left out because it depends on the local time
  zone and on regular-expression globals. Negative inputs are modelled but
  no property is stated about them.
- Strings: `toUpperCase` is modelled for ASCII letters only; other code
  units are kept as they are.
- Strings: a Dafny `char` is a Unicode scalar value, so text outside the Basic
  Multilingual Plane is not represented as JavaScript holds it. JavaScript
  stores such a character (an emoji, say) as two UTF-16 code units:
  `str.length` counts it twice, and `getStringLength` weighs it 4. The model
  treats it as one `char` of weight 2.
- TimeFormat: `formatSeconds` and `formatLeftTime` take any JavaScript number;
  the model takes whole numbers only. For a non-negative input, the text is
  the same as for its floor.
- Models: an asynchronous `init` is modelled as completed by the time
  `register` returns.

## Findings

| source | as written | input that shows it | evidently intended | confidence | as-written member | corrected member |
|---|---|---|---|---|---|---|
| assets/Scripts/Framework/Core/Event/EventMgr.ts:70-72 | `emit` removes a fired `once` listener with `off(name, callback, target)`, and `off` ignores the target when it is falsy | listeners `[(cb 1, no target, once), (cb 1, target 7, persistent)]`: after `emit` both are gone and the event is forgotten | only the fired `once` listener leaves; the persistent one stays | not executed | Events.EmitRemovesTargetedListener | Events.EmitIntendedKeepsPersistent |
| assets/Scripts/Framework/Core/Utils/StringUtil.ts:20 | `truncate` returns early when the code-unit count is within `maxLength`, while the loop measures display width | two wide characters with `maxLength` 2 come back whole, at width 4 | the result never exceeds `maxLength` in width | not executed | Strings.TruncateKeepsWideString | Strings.TruncatedFits |
| assets/Scripts/Framework/Core/Res/ResourceMgr.ts:239 | `gc` rebuilds the key to release from `split(':')[0]` and `split(':')[1]` | the entry "b:x:y" (path "x:y") is examined, but "b:x" is released | the examined entry is released | not executed | Resources.GcReleasesWrongKey | Resources.ResourceMgr.Gc |
| assets/Scripts/Framework/Core/Timer/TimerMgr.ts:291-293 | `clear` empties the timers but not the tag map | a tagged timer, then `clear`: its tag still lists the removed id | tag groups are emptied along with the timers | not executed | Timers.TimerMgr.ClearAsWritten | Timers.TimerMgr.Clear |

=== FILE: cocos_level_handlers.dfy ===
/** The Cocos level handlers (assets/Scripts/Game/Level/Handlers/): the shared
    queries of `BaseLevelHandler` and the two `computeStage` variants shown,
    the special track's cumulative scan without wrap-around and the daily
    track's single stage. */
module CocosLevelHandlers {
  import opened Common
  import opened CocosLevelTypes

  /** The handler classes this model covers. */
  datatype HandlerKind = SpecialHandler | DailyHandler

  function Tag(kind: HandlerKind): string
  {
    match kind
    case SpecialHandler => "SpecialLevelHandler"
    case DailyHandler => "DailyLevelHandler"
  }

  function Prefix(kind: HandlerKind): string
  {
    match kind
    case SpecialHandler => "s_lv"
    case DailyHandler => "d_lv"
  }

  const FirstLevel := 1

  /** The stub `loadRemoteConfig` of each handler, with the clock reading `now`
      standing for `Date.now()`: no stages for the special track, one
      one-level stage for the daily track. */
  function LoadRemoteConfig(kind: HandlerKind, now: int): MapDesc
  {
    match kind
    case SpecialHandler => MapDesc(now, [])
    case DailyHandler => MapDesc(now, [StageDesc("daily", 1, "daily")])
  }

  /** `needUpdate` on a record value: the saved catalog's version, or 0
      without one, is older than the remote version. The bundled catalog
      plays no part. */
  predicate NeedUpdate(r: TypeRecord, remoteVersion: int)
  {
    (if r.saveMap.Some? then r.saveMap.value.updateAt else 0) < remoteVersion
  }

  /** Without a saved catalog, an update is needed exactly for a positive
      remote version, whatever the bundled catalog says. */
  lemma NeedUpdateWithoutSave(r: TypeRecord, remoteVersion: int)
    requires r.saveMap.None?
    ensures NeedUpdate(r, remoteVersion) <==> remoteVersion > 0
  {
  }

  /** `getCurrentStageId`: '' without a current stage. */
  function CurrentStageId(r: TypeRecord): (id: string)
    ensures r.currentStage.None? ==> id == ""
    ensures r.currentStage.Some? ==> id == r.currentStage.value.stageId
  {
    if r.currentStage.None? then "" else r.currentStage.value.stageId
  }

  /** `getLevelData`: the level at its offset from the page start; `None`
      without a current stage or outside the stage's levels. */
  function LevelDataOf(r: TypeRecord, level: int): (d: Option<LevelData>)
    ensures d.None? <==> r.currentStage.None? || !(0 <= level - r.stageStartLevel < |r.currentStage.value.levels|)
    ensures d.Some? ==> d.value == r.currentStage.value.levels[level - r.stageStartLevel]
    ensures d.Some? ==> d.value in r.currentStage.value.levels
  {
    if r.currentStage.None? then None
    else
      var rel := level - r.stageStartLevel;
      if rel < 0 || rel >= |r.currentStage.value.levels| then None
      else Some(r.currentStage.value.levels[rel])
  }

  /** Within the current page, consecutive levels read consecutive entries of
      the stage. */
  lemma LevelDataConsecutive(r: TypeRecord, level: int)
    requires LevelDataOf(r, level).Some? && LevelDataOf(r, level + 1).Some?
    ensures var levels := r.currentStage.value.levels; var i := level - r.stageStartLevel;
      i + 1 < |levels| && LevelDataOf(r, level) == Some(levels[i]) && LevelDataOf(r, level + 1) == Some(levels[i + 1])
  {
  }

  /** The catalog `computeStage` reads: the bundled one when `useDefault`,
      otherwise the saved one, falling back to the bundled one. */
  function SelectCatalog(r: TypeRecord, useDefault: bool): (m: Option<MapData>)
    ensures useDefault ==> m == r.defaultMap
    ensures !useDefault && r.saveMap.Some? ==> m == r.saveMap
    ensures !useDefault && r.saveMap.None? ==> m == r.defaultMap
  {
    if useDefault then r.defaultMap
    else if r.saveMap.Some? then r.saveMap else r.defaultMap
  }

  /** The number of levels in the first `n` stages. */
  function Cum(stages: seq<StageData>, n: nat): nat
    requires n <= |stages|
  {
    if n == 0 then 0 else Cum(stages, n - 1) + |stages[n - 1].levels|
  }

  lemma {:induction false} CumMonotone(stages: seq<StageData>, i: nat, j: nat)
    requires i <= j <= |stages|
    ensures Cum(stages, i) <= Cum(stages, j)
    decreases j - i
  {
    if i < j {
      CumMonotone(stages, i, j - 1);
    }
  }

  /** The first stage at or after `i` whose levels hold `level`, counting
      levels across stages from 1. */
  function FindFrom(stages: seq<StageData>, level: int, i: nat): (r: Option<nat>)
    requires i <= |stages|
    ensures r.Some? ==> i <= r.value < |stages| && Cum(stages, r.value) < level <= Cum(stages, r.value + 1)
    decreases |stages| - i
  {
    if i == |stages| then None
    else if level > Cum(stages, i) && level <= Cum(stages, i) + |stages[i].levels| then Some(i)
    else FindFrom(stages, level, i + 1)
  }

  /** From stage `i` on, a stage is found exactly for the levels after the
      first `i` stages and within the catalog. */
  lemma {:induction false} FindFromIff(stages: seq<StageData>, level: int, i: nat)
    requires i <= |stages|
    ensures FindFrom(stages, level, i).Some? <==> Cum(stages, i) < level <= Cum(stages, |stages|)
    decreases |stages| - i
  {
    if i < |stages| {
      FindFromIff(stages, level, i + 1);
      CumMonotone(stages, i + 1, |stages|);
    }
  }

  /** The special track's `computeStage` on a record value: only the page
      and the current stage can change. */
  function SpecialCompute(r: TypeRecord, level: int, useDefault: bool): (r': TypeRecord)
    ensures r'.defaultMap == r.defaultMap && r'.saveMap == r.saveMap && r'.currentLevel == r.currentLevel
    ensures SelectCatalog(r, useDefault).None? ==> r' == r
  {
    var m := SelectCatalog(r, useDefault);
    if m.None? then r
    else
      var stages := m.value.stages;
      match FindFrom(stages, level, 0)
      case None => r
      case Some(i) => r.(stageIndex := i, stageStartLevel := Cum(stages, i) + 1,
                         stageEndLevel := Cum(stages, i) + |stages[i].levels|, currentStage := Some(stages[i]))
  }

  /** Within the catalog, the special track's page holds the level, spans
      exactly the stage's levels, and only the page and the stage change. */
  lemma SpecialComputePlacement(r: TypeRecord, level: int, useDefault: bool)
    requires SelectCatalog(r, useDefault).Some?
    requires 1 <= level <= Cum(SelectCatalog(r, useDefault).value.stages, |SelectCatalog(r, useDefault).value.stages|)
    ensures var stages := SelectCatalog(r, useDefault).value.stages; var r' := SpecialCompute(r, level, useDefault);
      0 <= r'.stageIndex < |stages| && r'.currentStage == Some(stages[r'.stageIndex]) &&
      r'.stageStartLevel <= level <= r'.stageEndLevel &&
      r'.stageEndLevel - r'.stageStartLevel + 1 == |stages[r'.stageIndex].levels| &&
      r'.stageStartLevel == Cum(stages, r'.stageIndex) + 1 &&
      r'.defaultMap == r.defaultMap && r'.saveMap == r.saveMap && r'.currentLevel == r.currentLevel
  {
    FindFromIff(SelectCatalog(r, useDefault).value.stages, level, 0);
  }

  /** There is no wrap-around: outside the catalog's levels the record is left
      as it is. */
  lemma SpecialComputeNoWrap(r: TypeRecord, level: int, useDefault: bool)
    requires SelectCatalog(r, useDefault).Some?
    requires var stages := SelectCatalog(r, useDefault).value.stages; level <= 0 || level > Cum(stages, |stages|)
    ensures SpecialCompute(r, level, useDefault) == r
  {
    FindFromIff(SelectCatalog(r, useDefault).value.stages, level, 0);
  }

  /** After the special track's `computeStage` at a level within the
      catalog, `getLevelData` finds that level in the new page. */
  lemma SpecialComputeThenLookup(r: TypeRecord, level: int, useDefault: bool)
    requires SelectCatalog(r, useDefault).Some?
    requires 1 <= level <= Cum(SelectCatalog(r, useDefault).value.stages, |SelectCatalog(r, useDefault).value.stages|)
    ensures var r' := SpecialCompute(r, level, useDefault);
      r'.currentStage.Some? && 0 <= level - r'.stageStartLevel < |r'.currentStage.value.levels| &&
      LevelDataOf(r', level) == Some(r'.currentStage.value.levels[level - r'.stageStartLevel])
  {
    SpecialComputePlacement(r, level, useDefault);
  }

  /** The daily track's `computeStage` on a record value: the whole first
      stage, whatever the level. */
  function DailyCompute(r: TypeRecord, level: int, useDefault: bool): (r': TypeRecord)
    ensures var m := SelectCatalog(r, useDefault);
      if m.None? || |m.value.stages| == 0 then r' == r
      else (r'.stageIndex == 0 && r'.stageStartLevel == 1 && r'.currentStage == Some(m.value.stages[0]) &&
            r'.stageEndLevel - r'.stageStartLevel + 1 == |m.value.stages[0].levels| &&
            r'.defaultMap == r.defaultMap && r'.saveMap == r.saveMap && r'.currentLevel == r.currentLevel)
  {
    var m := SelectCatalog(r, useDefault);
    if m.None? || |m.value.stages| == 0 then r
    else r.(stageIndex := 0, stageStartLevel := 1, stageEndLevel := |m.value.stages[0].levels|,
            currentStage := Some(m.value.stages[0]))
  }

  /** The daily page does not depend on the level asked for. */
  lemma DailyIgnoresLevel(r: TypeRecord, l1: int, l2: int, useDefault: bool)
    ensures DailyCompute(r, l1, useDefault) == DailyCompute(r, l2, useDefault)
  {
  }

  /** A handler's `computeStage` on a record value: the catalogs and the
      current level are never touched, and without a catalog nothing is. */
  function Compute(kind: HandlerKind, r: TypeRecord, level: int, useDefault: bool): (r': TypeRecord)
    ensures r'.defaultMap == r.defaultMap && r'.saveMap == r.saveMap && r'.currentLevel == r.currentLevel
    ensures SelectCatalog(r, useDefault).None? ==> r' == r
  {
    match kind
    case SpecialHandler => SpecialCompute(r, level, useDefault)
    case DailyHandler => DailyCompute(r, level, useDefault)
  }

  /** `SpecialLevelHandler.computeStage`: scans the stages, adding up their
      level counts, and writes the page of the first stage holding `level`. */
  method SpecialComputeStage(data: LevelTypeData, level: int, useDefault: bool)
    modifies data
    ensures data.Value() == SpecialCompute(old(data.Value()), level, useDefault)
  {
    var mapData := if useDefault then data.defaultMap else (if data.saveMap.Some? then data.saveMap else data.defaultMap);
    if mapData.None? {
      return;
    }
    var stages := mapData.value.stages;
    var totalLevels := 0;
    var i := 0;
    while i < |stages|
      invariant 0 <= i <= |stages|
      invariant totalLevels == Cum(stages, i)
      invariant FindFrom(stages, level, 0) == FindFrom(stages, level, i)
      invariant data.Value() == old(data.Value())
    {
      var stage := stages[i];
      if level > totalLevels && level <= totalLevels + |stage.levels| {
        data.stageIndex := i;
        data.stageStartLevel := totalLevels + 1;
        data.stageEndLevel := totalLevels + |stage.levels|;
        data.currentStage := Some(stage);
        return;
      }
      totalLevels := totalLevels + |stage.levels|;
      i := i + 1;
    }
  }

  /** `DailyLevelHandler.computeStage`: the page of the first stage. */
  method DailyComputeStage(data: LevelTypeData, level: int, useDefault: bool)
    modifies data
    ensures data.Value() == DailyCompute(old(data.Value()), level, useDefault)
  {
    var mapData := if useDefault then data.defaultMap else (if data.saveMap.Some? then data.saveMap else data.defaultMap);
    if mapData.None? {
      return;
    }
    if |mapData.value.stages| > 0 {
      var stage := mapData.value.stages[0];
      data.stageIndex := 0;
      data.stageStartLevel := 1;
      data.stageEndLevel := |stage.levels|;
      data.currentStage := Some(stage);
    }
  }

  /** A level handler: its class, its remote catalog descriptor and whether
      `initialize` has succeeded. */
  class LevelHandler {
    const kind: HandlerKind
    var remoteMapConfig: Option<MapDesc>
    var isInited: bool

    constructor (kind: HandlerKind)
      ensures this.kind == kind && remoteMapConfig.None? && !isInited
    {
      this.kind := kind;
      remoteMapConfig := None;
      isInited := false;
    }

    /** `initialize`, with the outcome of `loadRemoteConfig` passed in (`None`
        when it fails): on success the descriptor is stored and the handler
        marked initialised; on failure nothing changes. */
    method Initialize(loaded: Option<MapDesc>)
      modifies this
      ensures loaded.Some? ==> remoteMapConfig == loaded && isInited
      ensures loaded.None? ==> remoteMapConfig == old(remoteMapConfig) && isInited == old(isInited)
    {
      if loaded.None? {
        return;
      }
      remoteMapConfig := loaded;
      isInited := true;
    }

    function GetCurrentStageId(data: LevelTypeData): string
      reads data
    {
      CurrentStageId(data.Value())
    }

    predicate NeedUpdateOf(data: LevelTypeData, remoteVersion: int)
      reads data
    {
      NeedUpdate(data.Value(), remoteVersion)
    }

    function GetLevelData(data: LevelTypeData, level: int): Option<LevelData>
      reads data
    {
      LevelDataOf(data.Value(), level)
    }

    /** `computeStage` of the handler's class. */
    method ComputeStage(data: LevelTypeData, level: int, useDefault: bool)
      modifies data
      ensures data.Value() == Compute(kind, old(data.Value()), level, useDefault)
    {
      match kind
      case SpecialHandler => SpecialComputeStage(data, level, useDefault);
      case DailyHandler => DailyComputeStage(data, level, useDefault);
    }
  }
}

=== FILE: cocos_level_mgr.dfy ===
/** The Cocos level manager (assets/Scripts/Game/Level/Core/LevelMgr.ts): a
    map of handlers by level track over one level model. Every query
    answers `None` or false, and every update does nothing, when the track
    has no handler or no record. */
module CocosLevelMgr {
  import opened Common
  import opened CocosLevelTypes
  import opened CocosLevelModel
  import opened CocosLevelHandlers

  /** What `initHandlers` leaves of one handler: an initialised handler is
      skipped; otherwise `initialize` runs, and succeeds unless the handler's
      `loadRemoteConfig` fails (its class is in `failing`). */
  twostate predicate InitOutcome(h: LevelHandler, now: int, failing: set<HandlerKind>)
    reads h
  {
    if old(h.isInited) then h.isInited && h.remoteMapConfig == old(h.remoteMapConfig)
    else if h.kind !in failing then h.isInited && h.remoteMapConfig == Some(LoadRemoteConfig(h.kind, now))
    else !h.isInited && h.remoteMapConfig == old(h.remoteMapConfig)
  }

  class LevelMgr {
    var handlers: map<LevelType, LevelHandler>
    const model: LevelModel

    /** The manager over the registered level model. */
    constructor (model: LevelModel)
      ensures handlers == map[] && this.model == model
    {
      handlers := map[];
      this.model := model;
    }

    /** `registerHandler`: a track keeps its first handler; a new one is stored
        and the track's record created. */
    method RegisterHandler(t: LevelType, handler: LevelHandler)
      requires model.Valid()
      modifies this`handlers, model`levelDataMap
      ensures model.Valid()
      ensures t in old(handlers) ==> handlers == old(handlers) && model.levelDataMap == old(model.levelDataMap)
      ensures t !in old(handlers) ==>
        (handlers == old(handlers)[t := handler] &&
         model.Snapshot() == (if t in old(model.levelDataMap) then old(model.Snapshot())
                              else old(model.Snapshot())[t := InitialRecord]))
    {
      if t in handlers {
        return;
      }
      handlers := handlers[t := handler];
      model.InitType(t);
    }

    /** `unregisterHandler`: forgets the track's handler and its record. */
    method UnregisterHandler(t: LevelType)
      requires model.Valid()
      modifies this`handlers, model`levelDataMap
      ensures model.Valid()
      ensures handlers == old(handlers) - {t}
      ensures model.levelDataMap == old(model.levelDataMap) - {t} && model.Snapshot() == old(model.Snapshot()) - {t}
    {
      handlers := handlers - {t};
      model.ClearByType(t);
    }

    /** `getHandler`: `None` for a track without a handler. */
    function GetHandler(t: LevelType): (r: Option<LevelHandler>)
      reads this
      ensures r.None? <==> t !in handlers
      ensures r.Some? ==> r.value == handlers[t]
    {
      if t in handlers then Some(handlers[t]) else None
    }

    /** The track has both a handler and a record. */
    predicate Ready(t: LevelType)
      reads this, model
    {
      t in handlers && t in model.levelDataMap
    }

    /** `computeStage`: the handler's resolution on the track's record;
        nothing without a handler or a record. */
    method ComputeStage(t: LevelType, level: int, useDefault: bool)
      requires model.Valid()
      modifies model.Owned(t)
      ensures model.Snapshot() == if Ready(t)
        then old(model.Snapshot())[t := Compute(handlers[t].kind, old(model.Snapshot())[t], level, useDefault)]
        else old(model.Snapshot())
    {
      var handler := GetHandler(t);
      var data := model.GetData(t);
      if handler.None? || data.None? {
        return;
      }
      handler.value.ComputeStage(data.value, level, useDefault);
    }

    /** `getCurrentStageId`: `None` without a handler or a record. */
    function GetCurrentStageId(t: LevelType): (r: Option<string>)
      reads this, model, model.levelDataMap.Values
      ensures r.None? <==> !Ready(t)
      ensures r.Some? ==> r.value == CurrentStageId(model.Snapshot()[t])
    {
      if !Ready(t) then None else Some(handlers[t].GetCurrentStageId(model.levelDataMap[t]))
    }

    /** `needUpdate`: false without a handler or a record. */
    predicate NeedUpdateOf(t: LevelType, remoteVersion: int)
      reads this, model, model.levelDataMap.Values
      ensures NeedUpdateOf(t, remoteVersion) <==> Ready(t) && NeedUpdate(model.Snapshot()[t], remoteVersion)
    {
      Ready(t) && handlers[t].NeedUpdateOf(model.levelDataMap[t], remoteVersion)
    }

    /** `getLevelData`: `None` without a handler or a record. */
    function GetLevelData(t: LevelType, level: int): (r: Option<LevelData>)
      reads this, model, model.levelDataMap.Values
      ensures !Ready(t) ==> r.None?
      ensures Ready(t) ==> r == LevelDataOf(model.Snapshot()[t], level)
    {
      if !Ready(t) then None else handlers[t].GetLevelData(model.levelDataMap[t], level)
    }

    /** `setMapData`: forwarded to the model. */
    method SetMapData(t: LevelType, isDefault: bool, data: MapData)
      requires model.Valid()
      modifies model.Owned(t)
      ensures model.Snapshot() == if t !in model.levelDataMap then old(model.Snapshot())
        else if isDefault then old(model.Snapshot())[t := old(model.Snapshot())[t].(defaultMap := Some(data))]
        else old(model.Snapshot())[t := old(model.Snapshot())[t].(saveMap := Some(data))]
    {
      model.SetMapData(t, isDefault, data);
    }

    /** `setCurrentLevel`: stores the level, then resolves its page on the
        saved catalog (falling back to the bundled one). */
    method SetCurrentLevel(t: LevelType, level: int)
      requires model.Valid()
      modifies model.Owned(t)
      ensures model.Snapshot() ==
        if !(t in model.levelDataMap) then old(model.Snapshot())
        else
          var stored := old(model.Snapshot())[t].(currentLevel := level);
          old(model.Snapshot())[t := if t in handlers then Compute(handlers[t].kind, stored, level, false) else stored]
    {
      model.SetCurrentLevel(t, level);
      ComputeStage(t, level, false);
    }

    /** `clear`: forgets every handler and every record. */
    method Clear()
      modifies this`handlers, model`levelDataMap
      ensures handlers == map[] && model.levelDataMap == map[] && model.Snapshot() == map[] && model.Valid()
    {
      handlers := map[];
      model.Clear();
    }

    /** `initHandlers`: runs `initialize` on every handler not yet initialised;
        a failing handler does not stop the others. */
    method InitHandlers(now: int, failing: set<HandlerKind>)
      modifies handlers.Values
      ensures forall h | h in handlers.Values :: InitOutcome(h, now, failing)
    {
      var types := [Main, Special, Daily];
      var i := 0;
      while i < |types|
        invariant 0 <= i <= |types|
        invariant forall h | h in handlers.Values ::
          if exists j :: 0 <= j < i && types[j] in handlers && handlers[types[j]] == h
          then InitOutcome(h, now, failing)
          else h.isInited == old(h.isInited) && h.remoteMapConfig == old(h.remoteMapConfig)
      {
        if types[i] in handlers {
          var h := handlers[types[i]];
          if !h.isInited {
            h.Initialize(if h.kind in failing then None else Some(LoadRemoteConfig(h.kind, now)));
          }
        }
        i := i + 1;
      }
      forall h | h in handlers.Values
        ensures InitOutcome(h, now, failing)
      {
        var t :| t in handlers && handlers[t] == h;
        assert t == types[0] || t == types[1] || t == types[2];
      }
    }

    /** `initialize` for the tracks whose handlers this model covers: registers
        a fresh special and a fresh daily handler, then initialises every
        handler. */
    method Initialize(now: int, failing: set<HandlerKind>)
      requires model.Valid()
      modifies this`handlers, model`levelDataMap, handlers.Values
      ensures model.Valid()
      ensures Special in handlers && Daily in handlers
      ensures forall t | t in old(handlers) :: t in handlers && handlers[t] == old(handlers[t])
      ensures forall h | h in old(handlers).Values :: InitOutcome(h, now, failing)
      ensures Special !in old(handlers) ==>
        (handlers[Special].kind == SpecialHandler && (handlers[Special].isInited <==> SpecialHandler !in failing))
      ensures Daily !in old(handlers) ==>
        (handlers[Daily].kind == DailyHandler && (handlers[Daily].isInited <==> DailyHandler !in failing))
    {
      RegisterDefaults();
      label registered:
      InitHandlers(now, failing);
      assert handlers[Special] in handlers.Values && handlers[Daily] in handlers.Values;
      assert forall h | h in old@registered(handlers).Values :: InitOutcome@registered(h, now, failing);
    }

    /** The registrations `initialize` makes: a fresh special and a fresh
        daily handler, each kept only when its type has no handler yet. */
    method RegisterDefaults()
      requires model.Valid()
      modifies this`handlers, model`levelDataMap
      ensures model.Valid()
      ensures Special in handlers && Daily in handlers
      ensures forall t | t in old(handlers) :: t in handlers && handlers[t] == old(handlers[t])
      ensures forall h | h in old(handlers).Values :: h in handlers.Values
      ensures forall h | h in handlers.Values :: h in old(handlers).Values || fresh(h)
      ensures Special !in old(handlers) ==>
        (fresh(handlers[Special]) && handlers[Special].kind == SpecialHandler && !handlers[Special].isInited)
      ensures Daily !in old(handlers) ==>
        (fresh(handlers[Daily]) && handlers[Daily].kind == DailyHandler && !handlers[Daily].isInited)
    {
      var special := new LevelHandler(SpecialHandler);
      RegisterHandler(Special, special);
      var daily := new LevelHandler(DailyHandler);
      RegisterHandler(Daily, daily);
      forall h | h in old(handlers).Values
        ensures h in handlers.Values
      {
        var t :| t in old(handlers) && old(handlers)[t] == h;
        assert handlers[t] == h;
      }
    }
  }
}

=== FILE: cocos_level_model.dfy ===
/** The Cocos level model (assets/Scripts/Game/Level/Core/LevelModel.ts): one
    state record per level track, kept in a map and updated in place. */
module CocosLevelModel {
  import opened Common
  import opened CocosLevelTypes

  class LevelModel {
    var levelDataMap: map<LevelType, LevelTypeData>

    constructor ()
      ensures levelDataMap == map[] && Valid()
    {
      levelDataMap := map[];
    }

    /** Every track has its own record: no two tracks share one. */
    predicate Valid()
      reads this
    {
      forall a, b :: a in levelDataMap && b in levelDataMap && a != b ==> levelDataMap[a] != levelDataMap[b]
    }

    /** The record of a track, as the set of objects a setter on it may change. */
    function Owned(t: LevelType): set<object>
      reads this
    {
      if t in levelDataMap then {levelDataMap[t]} else {}
    }

    /** The value of every track's record. */
    function Snapshot(): map<LevelType, TypeRecord>
      reads this, levelDataMap.Values
    {
      map t | t in levelDataMap :: levelDataMap[t].Value()
    }

    /** `initType`: creates the initial record of a track that has none; an
        existing record is left as it is. */
    method InitType(t: LevelType)
      requires Valid()
      modifies this`levelDataMap
      ensures Valid()
      ensures t in old(levelDataMap) ==> levelDataMap == old(levelDataMap)
      ensures t !in old(levelDataMap) ==>
        t in levelDataMap && fresh(levelDataMap[t]) && levelDataMap == old(levelDataMap)[t := levelDataMap[t]]
      ensures Snapshot() == if t in old(levelDataMap) then old(Snapshot()) else old(Snapshot())[t := InitialRecord]
    {
      if t !in levelDataMap {
        var data := new LevelTypeData();
        levelDataMap := levelDataMap[t := data];
      }
    }

    /** `getData`: the track's record, `None` for a track without one. */
    function GetData(t: LevelType): (r: Option<LevelTypeData>)
      reads this
      ensures r.None? <==> t !in levelDataMap
      ensures r.Some? ==> r.value == levelDataMap[t] && r.value in levelDataMap.Values
    {
      if t in levelDataMap then Some(levelDataMap[t]) else None
    }

    /** `setMapData`: sets the bundled catalog when `isDefault`, otherwise the
        saved one; nothing for a track without a record. */
    method SetMapData(t: LevelType, isDefault: bool, data: MapData)
      requires Valid()
      modifies Owned(t)
      ensures Snapshot() == if t !in levelDataMap then old(Snapshot())
        else if isDefault then old(Snapshot())[t := old(Snapshot())[t].(defaultMap := Some(data))]
        else old(Snapshot())[t := old(Snapshot())[t].(saveMap := Some(data))]
    {
      var typeData := GetData(t);
      if typeData.None? {
        return;
      }
      if isDefault {
        typeData.value.defaultMap := Some(data);
      } else {
        typeData.value.saveMap := Some(data);
      }
    }

    /** `setStageData`: sets the track's current stage. */
    method SetStageData(t: LevelType, data: StageData)
      requires Valid()
      modifies Owned(t)
      ensures Snapshot() == if t !in levelDataMap then old(Snapshot())
        else old(Snapshot())[t := old(Snapshot())[t].(currentStage := Some(data))]
    {
      var typeData := GetData(t);
      if typeData.None? {
        return;
      }
      typeData.value.currentStage := Some(data);
    }

    /** `setCurrentLevel`: sets the track's current level. */
    method SetCurrentLevel(t: LevelType, level: int)
      requires Valid()
      modifies Owned(t)
      ensures Snapshot() == if t !in levelDataMap then old(Snapshot())
        else old(Snapshot())[t := old(Snapshot())[t].(currentLevel := level)]
    {
      var typeData := GetData(t);
      if typeData.None? {
        return;
      }
      typeData.value.currentLevel := level;
    }

    /** `setStageInfo`: sets the track's page: stage index, first and last level. */
    method SetStageInfo(t: LevelType, index: int, start: int, end: int)
      requires Valid()
      modifies Owned(t)
      ensures Snapshot() == if t !in levelDataMap then old(Snapshot())
        else old(Snapshot())[t := old(Snapshot())[t].(stageIndex := index, stageStartLevel := start, stageEndLevel := end)]
    {
      var typeData := GetData(t);
      if typeData.None? {
        return;
      }
      typeData.value.stageIndex := index;
      typeData.value.stageStartLevel := start;
      typeData.value.stageEndLevel := end;
    }

    /** `clearByType`: forgets one track's record. */
    method ClearByType(t: LevelType)
      requires Valid()
      modifies this`levelDataMap
      ensures Valid()
      ensures levelDataMap == old(levelDataMap) - {t}
      ensures Snapshot() == old(Snapshot()) - {t}
    {
      levelDataMap := levelDataMap - {t};
    }

    /** `clear`: forgets every record. */
    method Clear()
      modifies this`levelDataMap
      ensures Valid() && levelDataMap == map[] && Snapshot() == map[]
    {
      levelDataMap := map[];
    }
  }
}

=== FILE: cocos_level_types.dfy ===
/** The records of the Cocos client's level system
    (assets/Scripts/Game/Level/Core/LevelTypes.ts). Unlike the Unity client,
    a catalog here holds the stages' level lists themselves, and a stage's
    size is the length of that list. */
module CocosLevelTypes {
  import opened Common

  /** The three level tracks. */
  datatype LevelType = Main | Special | Daily

  /** One entry of a remote catalog descriptor. */
  datatype StageDesc = StageDesc(stageId: string, levelCount: int, url: string)

  /** A remote catalog descriptor, as `loadRemoteConfig` yields it. */
  datatype MapDesc = MapDesc(updateAt: int, stages: seq<StageDesc>)

  /** One level; its contents are opaque to stage resolution. */
  datatype LevelData = LevelData(levelType: int, puzzleId: int, tubes: int, steps: int)

  /** A stage and its levels. */
  datatype StageData = StageData(stageId: string, levels: seq<LevelData>)

  /** A versioned catalog of stages. */
  datatype MapData = MapData(updateAt: int, stages: seq<StageData>)

  /** The value of a track's state record at one moment. */
  datatype TypeRecord = TypeRecord(
    defaultMap: Option<MapData>,
    saveMap: Option<MapData>,
    currentStage: Option<StageData>,
    currentLevel: int,
    stageIndex: int,
    stageStartLevel: int,
    stageEndLevel: int)

  /** The record `initType` creates: no catalogs, no stage, level 1 and the
      empty page [1, 0]. */
  const InitialRecord := TypeRecord(None, None, None, 1, 0, 1, 0)

  /** `LevelTypeData`: a track's state record, shared by reference between
      the level model and the handlers, which update it in place. */
  class LevelTypeData {
    var defaultMap: Option<MapData>
    var saveMap: Option<MapData>
    var currentStage: Option<StageData>
    var currentLevel: int
    var stageIndex: int
    var stageStartLevel: int
    var stageEndLevel: int

    constructor ()
      ensures Value() == InitialRecord
    {
      defaultMap := None;
      saveMap := None;
      currentStage := None;
      currentLevel := 1;
      stageIndex := 0;
      stageStartLevel := 1;
      stageEndLevel := 0;
    }

    function Value(): TypeRecord
      reads this
    {
      TypeRecord(defaultMap, saveMap, currentStage, currentLevel, stageIndex, stageStartLevel, stageEndLevel)
    }
  }
}

=== FILE: common.dfy ===
/** Small building blocks shared by every other module: an optional value, the
    integer division of C# and TypeScript (which truncates toward zero, unlike
    Dafny's Euclidean division), and the decimal text of an integer. */
module Common {

  /** A value that may be absent; stands for a nullable reference or an
      `undefined` result in the source. */
  datatype Option<+T> = None | Some(value: T) {
    function GetOr(default: T): T {
      match this
      case Some(v) => v
      case None => default
    }
  }

  function Abs(x: int): nat { if x < 0 then -x else x }

  /** Integer division as C# `/` and a truncated JavaScript quotient compute it:
      the quotient is rounded toward zero. */
  function TruncDiv(a: int, b: int): (q: int)
    requires b != 0
    ensures Abs(q * b) <= Abs(a) < Abs(q * b) + Abs(b)
    ensures a >= 0 && b > 0 ==> q == a / b
    ensures (q >= 0) == ((a >= 0) == (b > 0) || Abs(a) < Abs(b))
  {
    var n, d := Abs(a), Abs(b);
    DivBounds(n, d);
    if a >= 0 && b > 0 then TruncQuotient(a, b, n / d); n / d
    else if a >= 0 || b > 0 then TruncQuotient(a, b, -(n / d)); -(n / d)
    else TruncQuotient(a, b, n / d); n / d
  }

  /** What makes a quotient rounded toward zero: its size is the quotient of
      the sizes, and it is negative only when the signs differ. */
  lemma TruncQuotient(a: int, b: int, q: int)
    requires b != 0
    requires Abs(q) == Abs(a) / Abs(b)
    requires (a >= 0) == (b > 0) ==> q >= 0
    requires (a >= 0) != (b > 0) ==> q <= 0
    ensures Abs(q * b) <= Abs(a) < Abs(q * b) + Abs(b)
    ensures (q >= 0) == ((a >= 0) == (b > 0) || Abs(a) < Abs(b))
  {
    var n, d := Abs(a), Abs(b);
    DivBounds(n, d);
    MulAbs(q, b);
  }

  lemma MulAbs(x: int, y: int)
    ensures Abs(x * y) == Abs(x) * Abs(y)
  {
    if x < 0 && y < 0 {
      assert x * y == (-x) * (-y);
    } else if x < 0 {
      assert x * y == -((-x) * y);
    } else if y < 0 {
      assert x * y == -(x * (-y));
    }
  }

  /** Euclidean division of naturals brackets the dividend. */
  lemma DivBounds(n: nat, d: nat)
    requires d > 0
    ensures 0 <= n / d && (n / d) * d <= n < (n / d) * d + d
    ensures n / d == 0 <==> n < d
  {
  }

  /** The remainder of C# `%` and JavaScript `%`: what is left of the
      dividend after the quotient rounded toward zero. It takes the sign of
      the dividend and is smaller in size than the divisor. */
  function TruncRem(a: int, b: int): (r: int)
    requires b != 0
    ensures a == TruncDiv(a, b) * b + r
    ensures Abs(r) < Abs(b)
    ensures a >= 0 ==> 0 <= r
    ensures a <= 0 ==> r <= 0
    ensures a >= 0 && b > 0 ==> r == a % b
  {
    var q := TruncDiv(a, b);
    TruncRemSign(a, b, q);
    a - q * b
  }

  /** The product of a quotient rounded toward zero with the divisor has the
      dividend's sign and does not exceed it in size. */
  lemma TruncRemSign(a: int, b: int, q: int)
    requires b != 0 && q == TruncDiv(a, b)
    ensures a >= 0 ==> 0 <= q * b <= a
    ensures a <= 0 ==> a <= q * b <= 0
  {
    if q > 0 {
      assert (a >= 0) == (b > 0);
      if b > 0 { assert q * b > 0; } else { assert q * b < 0; }
    } else if q < 0 {
      assert (a >= 0) != (b > 0);
      if b > 0 { assert q * b < 0; } else { assert q * b > 0; }
    }
  }

  function DigitChar(d: nat): (c: char)
    requires d < 10
    ensures '0' <= c <= '9'
  {
    "0123456789"[d]
  }

  predicate IsDigit(c: char) { '0' <= c <= '9' }

  predicate AllDigits(s: string) { forall i :: 0 <= i < |s| ==> IsDigit(s[i]) }

  /** The shortest decimal text of `n`, as `n.toString()` gives it. */
  function NatToString(n: nat): (s: string)
    ensures |s| >= 1 && AllDigits(s)
    ensures n >= 10 ==> s[0] != '0'
  {
    if n < 10 then [DigitChar(n)] else NatToString(n / 10) + [DigitChar(n % 10)]
  }

  /** The decimal text of an integer, with a leading '-' for a negative value. */
  function IntToString(i: int): (s: string)
    ensures |s| >= 1
    ensures i >= 0 ==> AllDigits(s)
    ensures i < 0 ==> s[0] == '-' && AllDigits(s[1..])
  {
    if i < 0 then "-" + NatToString(-i) else NatToString(i)
  }

  /** The value a string of decimal digits denotes (leading zeros allowed). */
  function DigitsValue(s: string): nat
    requires AllDigits(s)
  {
    if s == [] then 0
    else DigitsValue(s[..|s| - 1]) * 10 + ((s[|s| - 1] as int) - ('0' as int))
  }

  /** Reading the decimal text back gives the number it was made from. */
  lemma {:induction false} NatToStringRoundTrip(n: nat)
    ensures DigitsValue(NatToString(n)) == n
  {
    if n >= 10 {
      NatToStringRoundTrip(n / 10);
      var s := NatToString(n);
      assert s[..|s| - 1] == NatToString(n / 10);
    }
  }

  /** Distinct numbers have distinct decimal texts. */
  lemma NatToStringInjective(m: nat, n: nat)
    requires NatToString(m) == NatToString(n)
    ensures m == n
  {
    NatToStringRoundTrip(m);
    NatToStringRoundTrip(n);
  }

  /** Distinct integers have distinct decimal texts. */
  lemma IntToStringInjective(a: int, b: int)
    requires IntToString(a) == IntToString(b)
    ensures a == b
  {
    var s := IntToString(a);
    if a < 0 {
      assert s[0] == '-' && !IsDigit(s[0]);
      assert b < 0;
      assert s[1..] == NatToString(-a) && s[1..] == NatToString(-b);
      NatToStringInjective(-a, -b);
    } else {
      assert IsDigit(s[0]) && s[0] != '-';
      assert b >= 0;
      NatToStringInjective(a, b);
    }
  }

  /** Appending in two steps or at once gives the same sequence. */
  lemma AppendAssoc<T>(a: seq<T>, b: seq<T>, c: seq<T>)
    ensures a + b + c == a + (b + c)
  {
  }

  /** A string of `n` copies of the character `c`. */
  function Repeat(c: char, n: nat): (s: string)
    ensures |s| == n && forall i :: 0 <= i < n ==> s[i] == c
  {
    if n == 0 then [] else Repeat(c, n - 1) + [c]
  }

  /** Leading zeros do not change the value of a digit string. */
  lemma {:induction false} LeadingZerosValue(z: nat, s: string)
    requires AllDigits(s)
    ensures AllDigits(Repeat('0', z) + s)
    ensures DigitsValue(Repeat('0', z) + s) == DigitsValue(s)
  {
    if s == [] {
      assert Repeat('0', z) + s == Repeat('0', z);
      ZerosValue(z);
    } else {
      var t := s[..|s| - 1];
      LeadingZerosValue(z, t);
      assert (Repeat('0', z) + s)[..|Repeat('0', z) + s| - 1] == Repeat('0', z) + t;
    }
  }

  lemma {:induction false} ZerosValue(z: nat)
    ensures AllDigits(Repeat('0', z)) && DigitsValue(Repeat('0', z)) == 0
  {
    if z > 0 {
      ZerosValue(z - 1);
      assert Repeat('0', z)[..z - 1] == Repeat('0', z - 1);
    }
  }
}

=== FILE: events.dfy ===
/** The event bus (assets/Scripts/Framework/Core/Event/EventMgr.ts): for each
    event name, the ordered list of its listeners. Callbacks and targets are
    identities; a target of `None` stands for a missing or falsy target. */
module Events {
  import opened Common

  datatype Listener = Listener(callback: nat, target: Option<nat>, once: bool)

  /** No two listeners of a list share both callback and target. */
  predicate NoDup(ls: seq<Listener>)
  {
    forall i, j :: 0 <= i < j < |ls| ==> ls[i].callback != ls[j].callback || ls[i].target != ls[j].target
  }

  /** Some listener of the list has this callback and target. */
  predicate Registered(ls: seq<Listener>, callback: nat, target: Option<nat>)
  {
    exists i :: 0 <= i < |ls| && ls[i].callback == callback && ls[i].target == target
  }

  /** `off`'s test: the callback matches, and so does the target unless none
      is given. */
  predicate Matches(l: Listener, callback: nat, target: Option<nat>)
  {
    l.callback == callback && (target.None? || l.target == target)
  }

  /** The listeners `off` keeps, in their order. */
  function Remove(ls: seq<Listener>, callback: nat, target: Option<nat>): (r: seq<Listener>)
    ensures |r| <= |ls|
  {
    if ls == [] then []
    else (if Matches(ls[0], callback, target) then [] else [ls[0]]) + Remove(ls[1..], callback, target)
  }

  /** `off` with a callback keeps exactly the listeners it does not match. */
  lemma {:induction false} RemoveKeeps(ls: seq<Listener>, callback: nat, target: Option<nat>, l: Listener)
    ensures l in Remove(ls, callback, target) <==> l in ls && !Matches(l, callback, target)
  {
    if ls != [] {
      RemoveKeeps(ls[1..], callback, target, l);
      assert ls == [ls[0]] + ls[1..];
    }
  }

  /** What `off` keeps is a list without duplicates when the list was. */
  lemma {:induction false} RemoveNoDup(ls: seq<Listener>, callback: nat, target: Option<nat>)
    requires NoDup(ls)
    ensures NoDup(Remove(ls, callback, target))
  {
    if ls != [] {
      RemoveNoDup(ls[1..], callback, target);
      var rest := Remove(ls[1..], callback, target);
      if !Matches(ls[0], callback, target) {
        forall j | 0 <= j < |rest|
          ensures ls[0].callback != rest[j].callback || ls[0].target != rest[j].target
        {
          RemoveKeeps(ls[1..], callback, target, rest[j]);
          var k :| 0 <= k < |ls[1..]| && ls[1..][k] == rest[j];
          assert ls[k + 1] == rest[j];
        }
      }
    }
  }

  /** The order of the kept listeners is that of the list: `Remove` keeps a
      front part of it and drops the rest one listener at a time. */
  lemma {:induction false} RemoveSplits(a: seq<Listener>, b: seq<Listener>, callback: nat, target: Option<nat>)
    ensures Remove(a + b, callback, target) == Remove(a, callback, target) + Remove(b, callback, target)
  {
    if a != [] {
      RemoveSplits(a[1..], b, callback, target);
      assert (a + b)[0] == a[0] && (a + b)[1..] == a[1..] + b;
      var head := if Matches(a[0], callback, target) then [] else [a[0]];
      AppendAssoc(head, Remove(a[1..], callback, target), Remove(b, callback, target));
    } else {
      assert a + b == b;
    }
  }

  /** An event's entry after `off`: the entry goes away when no listener is left. */
  function OffEntry(e: Option<seq<Listener>>, callback: nat, target: Option<nat>): (r: Option<seq<Listener>>)
    ensures r.Some? ==> e.Some? && r.value != [] && r.value == Remove(e.value, callback, target)
    ensures e.Some? && r.None? ==> Remove(e.value, callback, target) == []
  {
    if e.None? then None
    else
      var rest := Remove(e.value, callback, target);
      if rest == [] then None else Some(rest)
  }

  /** Every stored list is non-empty and free of duplicates. */
  predicate ValidMap(m: map<string, seq<Listener>>)
  {
    forall name | name in m :: m[name] != [] && NoDup(m[name])
  }

  function Entry(m: map<string, seq<Listener>>, name: string): Option<seq<Listener>>
  {
    if name in m then Some(m[name]) else None
  }

  function SetEntry(m: map<string, seq<Listener>>, name: string, e: Option<seq<Listener>>): map<string, seq<Listener>>
  {
    if e.Some? then m[name := e.value] else m - {name}
  }

  /** `emit`'s removal of each `once` listener, as the source does it: `off`
      with the listener's callback and target, which with no target removes
      every listener of that callback. */
  function EmitEntry(e: Option<seq<Listener>>, fired: seq<Listener>): Option<seq<Listener>>
    decreases |fired|
  {
    if fired == [] then e
    else
      var l := fired[0];
      EmitEntry(if l.once then OffEntry(e, l.callback, l.target) else e, fired[1..])
  }

  /** `emit` as written keeps only listeners that were already there, and
      none of the fired `once` listeners is left afterwards. */
  lemma {:induction false} EmitEntryDropsFiredOnce(e: Option<seq<Listener>>, fired: seq<Listener>)
    ensures EmitEntry(e, fired).Some? ==> e.Some?
    ensures EmitEntry(e, fired).Some? ==>
      forall l | l in EmitEntry(e, fired).value :: l in e.value && (l in fired ==> !l.once)
    decreases |fired|
  {
    if fired != [] {
      var f := fired[0];
      var e1 := if f.once then OffEntry(e, f.callback, f.target) else e;
      EmitEntryDropsFiredOnce(e1, fired[1..]);
      var r := EmitEntry(e, fired);
      assert r == EmitEntry(e1, fired[1..]);
      if r.Some? {
        forall l | l in r.value ensures l in e.value && (l in fired ==> !l.once) {
          if f.once {
            RemoveKeeps(e.value, f.callback, f.target, l);
          }
          assert fired == [f] + fired[1..];
        }
      }
    }
  }

  /** Removing one exact listener: the intended effect of a `once` listener
      having fired. */
  function RemoveExact(ls: seq<Listener>, callback: nat, target: Option<nat>): (r: seq<Listener>)
  {
    if ls == [] then []
    else (if ls[0].callback == callback && ls[0].target == target then [] else [ls[0]]) + RemoveExact(ls[1..], callback, target)
  }

  function Wrap(ls: seq<Listener>): Option<seq<Listener>>
  {
    if ls == [] then None else Some(ls)
  }

  /** `emit` with each fired `once` listener removed exactly. */
  function EmitEntryIntended(e: Option<seq<Listener>>, fired: seq<Listener>): Option<seq<Listener>>
    decreases |fired|
  {
    if fired == [] then e
    else
      var l := fired[0];
      var e' := if l.once && e.Some? then Wrap(RemoveExact(e.value, l.callback, l.target)) else e;
      EmitEntryIntended(e', fired[1..])
  }

  /** The listeners that are not `once`, in order. */
  function Persistent(ls: seq<Listener>): (r: seq<Listener>)
    ensures forall l | l in r :: l in ls && !l.once
  {
    if ls == [] then [] else (if ls[0].once then [] else [ls[0]]) + Persistent(ls[1..])
  }

  lemma {:induction false} RemoveExactAbsent(ls: seq<Listener>, callback: nat, target: Option<nat>)
    requires !Registered(ls, callback, target)
    ensures RemoveExact(ls, callback, target) == ls
  {
    if ls != [] {
      RemoveExactAbsent(ls[1..], callback, target);
      assert ls == [ls[0]] + ls[1..];
    }
  }

  lemma {:induction false} RemoveExactSplits(a: seq<Listener>, b: seq<Listener>, callback: nat, target: Option<nat>)
    ensures RemoveExact(a + b, callback, target) == RemoveExact(a, callback, target) + RemoveExact(b, callback, target)
  {
    if a != [] {
      RemoveExactSplits(a[1..], b, callback, target);
      assert (a + b)[0] == a[0] && (a + b)[1..] == a[1..] + b;
      var head := if a[0].callback == callback && a[0].target == target then [] else [a[0]];
      AppendAssoc(head, RemoveExact(a[1..], callback, target), RemoveExact(b, callback, target));
    } else {
      assert a + b == b;
    }
  }

  /** Removing a listener exactly from a duplicate-free list drops just it. */
  lemma RemoveExactOne(a: seq<Listener>, x: Listener, r: seq<Listener>)
    requires NoDup(a + [x] + r)
    ensures RemoveExact(a + [x] + r, x.callback, x.target) == a + r
  {
    var s := a + [x] + r;
    assert !Registered(a, x.callback, x.target) by {
      forall i | 0 <= i < |a|
        ensures a[i].callback != x.callback || a[i].target != x.target
      {
        assert s[i] == a[i] && s[|a|] == x;
      }
    }
    assert !Registered(r, x.callback, x.target) by {
      forall i | 0 <= i < |r|
        ensures r[i].callback != x.callback || r[i].target != x.target
      {
        assert s[|a| + 1 + i] == r[i] && s[|a|] == x;
      }
    }
    RemoveExactAbsent(a, x.callback, x.target);
    RemoveExactAbsent(r, x.callback, x.target);
    RemoveExactSplits(a + [x], r, x.callback, x.target);
    RemoveExactSplits(a, [x], x.callback, x.target);
    assert RemoveExact([x], x.callback, x.target) == [];
  }

  lemma NoDupDrop(a: seq<Listener>, x: Listener, r: seq<Listener>)
    requires NoDup(a + [x] + r)
    ensures NoDup(a + r)
  {
    var s := a + [x] + r;
    var t := a + r;
    forall i, j | 0 <= i < j < |t|
      ensures t[i].callback != t[j].callback || t[i].target != t[j].target
    {
      var i' := if i < |a| then i else i + 1;
      var j' := if j < |a| then j else j + 1;
      assert t[i] == s[i'] && t[j] == s[j'];
    }
  }

  /** One `once` listener handled: it alone leaves the list. */
  lemma OnceStep(a: seq<Listener>, x: Listener, r: seq<Listener>)
    requires NoDup(a + [x] + r) && x.once
    ensures EmitEntryIntended(Wrap(a + [x] + r), [x] + r) == EmitEntryIntended(Wrap(a + r), r)
    ensures Persistent([x] + r) == Persistent(r)
  {
    RemoveExactOne(a, x, r);
    assert ([x] + r)[1..] == r;
  }

  /** One listener that is not `once` handled: the list stays. */
  lemma KeepStep(a: seq<Listener>, x: Listener, r: seq<Listener>)
    requires !x.once
    ensures EmitEntryIntended(Wrap(a + [x] + r), [x] + r) == EmitEntryIntended(Wrap((a + [x]) + r), r)
    ensures Persistent([x] + r) == [x] + Persistent(r)
  {
    assert ([x] + r)[1..] == r;
    assert a + [x] + r == (a + [x]) + r;
  }

  /** The core of `EmitIntendedKeepsPersistent`: with the listeners before
      `rest` already handled (none of them `once`), handling `rest` leaves
      them followed by the persistent listeners of `rest`. */
  lemma {:induction false} EmitIntendedFrom(a: seq<Listener>, rest: seq<Listener>)
    requires NoDup(a + rest)
    requires forall l | l in a :: !l.once
    ensures EmitEntryIntended(Wrap(a + rest), rest) == Wrap(a + Persistent(rest))
    decreases |rest|
  {
    if rest == [] {
      assert a + rest == a;
    } else {
      var x := rest[0];
      var r := rest[1..];
      assert a + rest == a + [x] + r;
      if x.once {
        OnceStep(a, x, r);
        NoDupDrop(a, x, r);
        EmitIntendedFrom(a, r);
      } else {
        KeepStep(a, x, r);
        EmitIntendedFrom(a + [x], r);
        assert a + [x] + Persistent(r) == a + Persistent(rest);
      }
    }
  }

  /** With the removal intended, `emit` leaves exactly the listeners that are
      not `once`, in order, and drops the event when none is left. */
  lemma EmitIntendedKeepsPersistent(ls: seq<Listener>)
    requires ls != [] && NoDup(ls)
    ensures EmitEntryIntended(Some(ls), ls) == Wrap(Persistent(ls))
  {
    var none: seq<Listener> := [];
    assert none + ls == ls && Wrap(ls) == Some(ls);
    EmitIntendedFrom(none, ls);
    assert none + Persistent(ls) == Persistent(ls);
  }

  /** As written, a `once` listener without a target also removes a listener
      of the same callback that has a target and is not `once`. */
  lemma EmitRemovesTargetedListener()
    ensures var ls := [Listener(1, None, true), Listener(1, Some(7), false)];
      NoDup(ls) && EmitEntry(Some(ls), ls) == None && Persistent(ls) == [Listener(1, Some(7), false)] &&
      EmitEntryIntended(Some(ls), ls) == Some([Listener(1, Some(7), false)])
  {
    var ls := [Listener(1, None, true), Listener(1, Some(7), false)];
    assert Remove(ls, 1, None) == [];
    assert RemoveExact(ls, 1, None) == [Listener(1, Some(7), false)];
  }

  lemma {:induction false} EmitEntryValid(e: Option<seq<Listener>>, fired: seq<Listener>)
    requires e.Some? ==> e.value != [] && NoDup(e.value)
    ensures var r := EmitEntry(e, fired); r.Some? ==> r.value != [] && NoDup(r.value)
    decreases |fired|
  {
    if fired != [] {
      var l := fired[0];
      if l.once && e.Some? {
        RemoveNoDup(e.value, l.callback, l.target);
      }
      EmitEntryValid(if l.once then OffEntry(e, l.callback, l.target) else e, fired[1..]);
    }
  }

  /** `off`'s backward loop: splices out, from the last listener to the
      first, every listener the callback and target match. */
  method SpliceMatching(ls: seq<Listener>, callback: nat, target: Option<nat>) returns (listeners: seq<Listener>)
    ensures listeners == Remove(ls, callback, target)
  {
    listeners := ls;
    var i := |ls|;
    while i > 0
      invariant 0 <= i <= |ls|
      invariant listeners == ls[..i] + Remove(ls[i..], callback, target)
    {
      i := i - 1;
      var rest := Remove(ls[i + 1..], callback, target);
      SpliceStep(ls, i, callback, target);
      assert listeners == ls[..i] + [ls[i]] + rest;
      assert listeners[i] == ls[i];
      if Matches(listeners[i], callback, target) {
        assert listeners[..i] == ls[..i] && listeners[i + 1..] == rest;
        listeners := listeners[..i] + listeners[i + 1..];
        assert [] + rest == rest;
      } else {
        AppendAssoc(ls[..i], [ls[i]], rest);
      }
    }
    assert ls[0..] == ls && ls[..0] == [];
  }

  /** One step of the backward loop: the listener at `i` is dropped or kept
      in front of what remains of the listeners after it. */
  lemma SpliceStep(ls: seq<Listener>, i: nat, callback: nat, target: Option<nat>)
    requires i < |ls|
    ensures ls[..i + 1] == ls[..i] + [ls[i]]
    ensures Remove(ls[i..], callback, target) ==
      (if Matches(ls[i], callback, target) then [] else [ls[i]]) + Remove(ls[i + 1..], callback, target)
  {
    assert ls[i..][0] == ls[i] && ls[i..][1..] == ls[i + 1..];
  }

  class EventMgr {
    var eventMap: map<string, seq<Listener>>

    constructor ()
      ensures eventMap == map[]
    {
      eventMap := map[];
    }

    predicate Valid()
      reads this
    {
      ValidMap(eventMap)
    }

    /** `on`: appends a listener unless one with the same callback and target
        is already there, in which case nothing changes (its `once` flag
        included). */
    method On(name: string, callback: nat, target: Option<nat>, once: bool)
      requires Valid()
      modifies this
      ensures Valid()
      ensures var old_ls := if name in old(eventMap) then old(eventMap)[name] else [];
        if Registered(old_ls, callback, target) then eventMap == old(eventMap)
        else eventMap == old(eventMap)[name := old_ls + [Listener(callback, target, once)]]
      ensures name in eventMap && Registered(eventMap[name], callback, target)
    {
      var listeners := if name in eventMap then eventMap[name] else [];
      var i := 0;
      while i < |listeners|
        invariant 0 <= i <= |listeners|
        invariant !Registered(listeners[..i], callback, target)
      {
        if listeners[i].callback == callback && listeners[i].target == target {
          assert Registered(listeners, callback, target);
          return;
        }
        i := i + 1;
      }
      assert listeners[..i] == listeners;
      var ls := listeners + [Listener(callback, target, once)];
      assert NoDup(ls) by {
        forall a, b | 0 <= a < b < |ls|
          ensures ls[a].callback != ls[b].callback || ls[a].target != ls[b].target
        {
          if b == |listeners| {
            assert ls[a] == listeners[a];
          }
        }
      }
      eventMap := eventMap[name := ls];
      assert ls[|ls| - 1].callback == callback && ls[|ls| - 1].target == target;
    }

    /** `once`: `on` with the `once` flag. */
    method Once(name: string, callback: nat, target: Option<nat>)
      requires Valid()
      modifies this
      ensures Valid()
      ensures var old_ls := if name in old(eventMap) then old(eventMap)[name] else [];
        if Registered(old_ls, callback, target) then eventMap == old(eventMap)
        else eventMap == old(eventMap)[name := old_ls + [Listener(callback, target, true)]]
    {
      On(name, callback, target, true);
    }

    /** `off`: without a callback, forgets the event; with one, removes the
        matching listeners, keeping the others in order, and forgets the
        event once no listener is left. */
    method Off(name: string, callback: Option<nat>, target: Option<nat>)
      requires Valid()
      modifies this
      ensures Valid()
      ensures name !in old(eventMap) ==> eventMap == old(eventMap)
      ensures name in old(eventMap) && callback.None? ==> eventMap == old(eventMap) - {name}
      ensures name in old(eventMap) && callback.Some? ==>
        eventMap == SetEntry(old(eventMap), name, OffEntry(Some(old(eventMap)[name]), callback.value, target))
    {
      if name !in eventMap {
        return;
      }
      if callback.None? {
        eventMap := eventMap - {name};
        return;
      }
      var ls := eventMap[name];
      var listeners := SpliceMatching(ls, callback.value, target);
      RemoveNoDup(ls, callback.value, target);
      if |listeners| == 0 {
        eventMap := eventMap - {name};
      } else {
        eventMap := eventMap[name := listeners];
      }
    }

    /** `emit`: calls every listener of a copy of the event's list, in order
        (`fired`), removing each `once` listener after its call through `off`.
        Nothing happens for an unknown event. */
    method Emit(name: string) returns (fired: seq<Listener>)
      requires Valid()
      modifies this
      ensures Valid()
      ensures name !in old(eventMap) ==> fired == [] && eventMap == old(eventMap)
      ensures name in old(eventMap) ==>
        (fired == old(eventMap)[name] && eventMap == SetEntry(old(eventMap), name, EmitEntry(Some(fired), fired)))
    {
      if name !in eventMap {
        return [];
      }
      fired := eventMap[name];
      var i := 0;
      while i < |fired|
        invariant 0 <= i <= |fired|
        invariant Valid()
        invariant forall n | n != name :: (n in eventMap <==> n in old(eventMap)) && (n in eventMap ==> eventMap[n] == old(eventMap)[n])
        invariant EmitEntry(Entry(eventMap, name), fired[i..]) == EmitEntry(Some(fired), fired)
      {
        var l := fired[i];
        assert fired[i..][1..] == fired[i + 1..];
        if l.once {
          Off(name, Some(l.callback), l.target);
        }
        i := i + 1;
      }
      var e := Entry(eventMap, name);
      assert EmitEntry(e, fired[i..]) == e;
      assert eventMap == SetEntry(old(eventMap), name, e);
    }

    /** `clear`: forgets every event. */
    method Clear()
      modifies this
      ensures eventMap == map[] && Valid()
    {
      eventMap := map[];
    }
  }
}

=== FILE: logging.dfy ===
/** The log manager (assets/Scripts/Framework/Core/Log/LogMgr.ts): a level
    gate and a bounded in-memory buffer of formatted entries. The console,
    the clock and the conversion of arbitrary arguments to text are outside
    the model: the clock reading and the message text are parameters. */
module Logging {
  import opened Common

  datatype LogLevel = Debug | Info | Warn | Error

  /** The enum's numeric value. */
  function Rank(l: LogLevel): nat
  {
    match l
    case Debug => 0
    case Info => 1
    case Warn => 2
    case Error => 3
  }

  /** The tag written into an entry. */
  function Name(l: LogLevel): string
  {
    match l
    case Debug => "DEBUG"
    case Info => "INFO"
    case Warn => "WARN"
    case Error => "ERROR"
  }

  /** The most entries the buffer keeps. */
  const MaxLogs := 1000

  /** `s` with '0's in front up to `width` characters. */
  function PadStart(s: string, width: nat): (r: string)
    ensures |r| == if |s| < width then width else |s|
    ensures r[|r| - |s|..] == s
    ensures forall i :: 0 <= i < |r| - |s| ==> r[i] == '0'
  {
    if |s| < width then Repeat('0', width - |s|) + s else s
  }

  /** A padded non-negative number still reads as that number. */
  lemma PadStartValue(num: nat, width: nat)
    ensures AllDigits(PadStart(IntToString(num), width))
    ensures DigitsValue(PadStart(IntToString(num), width)) == num
  {
    var s := IntToString(num);
    assert s == NatToString(num);
    NatToStringRoundTrip(num);
    if |s| < width {
      LeadingZerosValue(width - |s|, s);
    }
  }

  /** A reading of the clock. */
  datatype Clock = Clock(hours: int, minutes: int, seconds: int, millis: int)

  /** `_getTime`'s text: "HH:MM:SS.mmm". */
  function TimeStamp(c: Clock): string
  {
    PadStart(IntToString(c.hours), 2) + ":" + PadStart(IntToString(c.minutes), 2) + ":" +
    PadStart(IntToString(c.seconds), 2) + "." + PadStart(IntToString(c.millis), 3)
  }

  /** A clock reading in range gives twelve characters, from which each
      field reads back. */
  lemma TimeStampFields(c: Clock)
    requires 0 <= c.hours < 24 && 0 <= c.minutes < 60 && 0 <= c.seconds < 60 && 0 <= c.millis < 1000
    ensures var t := TimeStamp(c);
      |t| == 12 && t[2] == ':' && t[5] == ':' && t[8] == '.' &&
      AllDigits(t[0..2]) && AllDigits(t[3..5]) && AllDigits(t[6..8]) && AllDigits(t[9..12]) &&
      DigitsValue(t[0..2]) == c.hours && DigitsValue(t[3..5]) == c.minutes &&
      DigitsValue(t[6..8]) == c.seconds && DigitsValue(t[9..12]) == c.millis
  {
    var h, m, s, ms := PadStart(IntToString(c.hours), 2), PadStart(IntToString(c.minutes), 2),
                       PadStart(IntToString(c.seconds), 2), PadStart(IntToString(c.millis), 3);
    PadStartValue(c.hours, 2);
    PadStartValue(c.minutes, 2);
    PadStartValue(c.seconds, 2);
    PadStartValue(c.millis, 3);
    DigitsBound(h, c.hours, 100);
    DigitsBound(m, c.minutes, 100);
    DigitsBound(s, c.seconds, 100);
    DigitsBound(ms, c.millis, 1000);
    assert TimeStamp(c) == h + ":" + m + ":" + s + "." + ms;
    Layout(h, m, s, ms);
  }

  /** Where the four fields of a time stamp sit. */
  lemma Layout(h: string, m: string, s: string, ms: string)
    requires |h| == 2 && |m| == 2 && |s| == 2 && |ms| == 3
    ensures var t := h + ":" + m + ":" + s + "." + ms;
      |t| == 12 && t[2] == ':' && t[5] == ':' && t[8] == '.' &&
      t[0..2] == h && t[3..5] == m && t[6..8] == s && t[9..12] == ms
  {
  }

  /** The decimal text of a number below 10^k, padded to k places, has k
      characters. */
  lemma DigitsBound(p: string, num: nat, bound: nat)
    requires bound == 100 || bound == 1000
    requires num < bound
    requires p == PadStart(IntToString(num), if bound == 100 then 2 else 3)
    ensures |p| == if bound == 100 then 2 else 3
  {
    assert IntToString(num) == NatToString(num);
    NatToStringShort(num);
  }

  lemma NatToStringShort(num: nat)
    ensures num < 10 ==> |NatToString(num)| == 1
    ensures num < 100 ==> |NatToString(num)| <= 2
    ensures num < 1000 ==> |NatToString(num)| <= 3
  {
    if num >= 10 {
      NatToStringShort(num / 10);
    }
  }

  /** The text of one saved entry. */
  function Entry(level: LogLevel, time: string, text: string): string
  {
    "[" + Name(level) + "] " + time + " " + text
  }

  /** `_saveLogs`' buffer update: the entry goes last, and the oldest
      entry goes when the buffer would grow past `MaxLogs`. */
  function Push(logs: seq<string>, entry: string): (r: seq<string>)
    ensures |logs| <= MaxLogs ==> |r| <= MaxLogs
    ensures |r| >= 1 && r[|r| - 1] == entry
  {
    var l := logs + [entry];
    if |l| > MaxLogs then l[1..] else l
  }

  /** Entries saved one after another. */
  function PushAll(logs: seq<string>, entries: seq<string>): seq<string>
    decreases |entries|
  {
    if entries == [] then logs else PushAll(Push(logs, entries[0]), entries[1..])
  }

  /** The last `n` elements of `s` (all of them when there are fewer). */
  function LastN(s: seq<string>, n: nat): (r: seq<string>)
    ensures |r| <= n && |r| <= |s| && r == s[|s| - |r|..]
  {
    if |s| <= n then s else s[|s| - n..]
  }

  /** However many entries are saved, the buffer holds the newest
      `MaxLogs` of everything logged, in order. */
  lemma {:induction false} PushAllKeepsNewest(logs: seq<string>, entries: seq<string>)
    requires |logs| <= MaxLogs
    ensures PushAll(logs, entries) == LastN(logs + entries, MaxLogs)
    decreases |entries|
  {
    if entries != [] {
      var next := Push(logs, entries[0]);
      assert next == LastN(logs + [entries[0]], MaxLogs);
      PushAllKeepsNewest(next, entries[1..]);
      assert [entries[0]] + entries[1..] == entries;
      AppendAssoc(logs, [entries[0]], entries[1..]);
      LastNAppend(logs + [entries[0]], entries[1..]);
    }
  }

  /** Trimming before appending does not change the newest `MaxLogs`. */
  lemma LastNAppend(s: seq<string>, t: seq<string>)
    ensures LastN(LastN(s, MaxLogs) + t, MaxLogs) == LastN(s + t, MaxLogs)
  {
    if |s| > MaxLogs {
      var d := |s| - MaxLogs;
      assert s[d..] + t == (s + t)[d..];
    }
  }

  class LogMgr {
    var level: LogLevel
    var logs: seq<string>

    /** The initial level: everything in a debug build, from `Info` up
        otherwise; the buffer starts empty. */
    constructor (debugBuild: bool)
      ensures level == (if debugBuild then Debug else Info) && logs == [] && Valid()
    {
      level := if debugBuild then Debug else Info;
      logs := [];
    }

    predicate Valid()
      reads this
    {
      |logs| <= MaxLogs
    }

    /** `setLevel`. */
    method SetLevel(l: LogLevel)
      modifies this`level
      ensures level == l
    {
      level := l;
    }

    /** `_formatNumber`: the decimal text of `num`, with '0's in front up to
        `width` characters. */
    static method FormatNumber(num: int, width: nat) returns (result: string)
      ensures result == PadStart(IntToString(num), width)
    {
      var s := IntToString(num);
      result := s;
      while |result| < width
        invariant |s| <= |result| && result == Repeat('0', |result| - |s|) + s
        invariant |s| < width ==> |result| <= width
        invariant |s| >= width ==> result == s
        decreases width - |result|
      {
        result := "0" + result;
        assert result == Repeat('0', |result| - |s|) + s;
      }
    }

    /** `_getTime` on a clock reading. */
    static method GetTime(c: Clock) returns (t: string)
      ensures t == TimeStamp(c)
    {
      var h := FormatNumber(c.hours, 2);
      var m := FormatNumber(c.minutes, 2);
      var s := FormatNumber(c.seconds, 2);
      var ms := FormatNumber(c.millis, 3);
      t := h + ":" + m + ":" + s + "." + ms;
    }

    /** `_saveLogs`: the entry becomes the newest, and the buffer keeps at
        most `MaxLogs` entries. */
    method SaveLogs(l: LogLevel, c: Clock, text: string)
      requires Valid()
      modifies this`logs
      ensures Valid()
      ensures logs == Push(old(logs), Entry(l, TimeStamp(c), text))
    {
      var time := GetTime(c);
      var entry := Entry(l, time, text);
      var pushed := logs + [entry];
      if |pushed| > MaxLogs {
        pushed := pushed[1..];
      }
      logs := pushed;
    }

    /** `debug`, `info`, `warn` and `error`: a message is kept only when the
        current level is at or below its severity. */
    method Log(severity: LogLevel, c: Clock, text: string)
      requires Valid()
      modifies this`logs
      ensures Valid()
      ensures Rank(level) <= Rank(severity) ==> logs == Push(old(logs), Entry(severity, TimeStamp(c), text))
      ensures Rank(level) > Rank(severity) ==> logs == old(logs)
    {
      if Rank(level) <= Rank(severity) {
        SaveLogs(severity, c, text);
      }
    }

    /** `getLogs`: a copy of the buffer, oldest first. */
    function GetLogs(): (r: seq<string>)
      requires Valid()
      reads this
      ensures |r| <= MaxLogs && r == logs
    {
      logs
    }

    /** `clear`. */
    method Clear()
      modifies this`logs
      ensures logs == [] && Valid()
    {
      logs := [];
    }
  }
}

=== FILE: models.dfy ===
/** The model registry (assets/Scripts/Framework/Core/Model/ModelMgr.ts): models
    by key, created and initialised on registration and cleared together. */
module Models {
  import opened Common

  /** A registered model. Which of the optional `init` and `clear` hooks it
      has is fixed by its class; `initialized` and `clears` record what the
      registry has done to it. */
  class Model {
    const hasInit: bool
    const hasClear: bool
    var initialized: bool
    var clears: nat

    constructor (hasInit: bool, hasClear: bool)
      ensures this.hasInit == hasInit && this.hasClear == hasClear && !initialized && clears == 0
    {
      this.hasInit := hasInit;
      this.hasClear := hasClear;
      initialized := false;
      clears := 0;
    }

    /** The model's own `init`; `ok` is false when it throws. */
    method Init(ok: bool)
      modifies this`initialized
      ensures initialized == (ok || old(initialized))
    {
      if ok {
        initialized := true;
      }
    }

    /** The model's own `clear`. */
    method Clear()
      modifies this`clears
      ensures clears == old(clears) + 1
    {
      clears := clears + 1;
    }
  }

  class ModelMgr {
    var models: map<string, Model>

    constructor ()
      ensures models == map[] && Valid()
    {
      models := map[];
    }

    /** Each key holds its own model. */
    predicate Valid()
      reads this
    {
      forall a, b :: a in models && b in models && a != b ==> models[a] != models[b]
    }

    /** `register`: a key keeps its first model; otherwise a new model of the
        class is stored first and then initialised when it has `init`, and it
        stays registered when `init` throws (`initOk` false). */
    method Register(key: string, hasInit: bool, hasClear: bool, initOk: bool) returns (m: Model)
      requires Valid()
      modifies this`models
      ensures Valid()
      ensures key in old(models) ==> models == old(models) && m == models[key]
      ensures key !in old(models) ==>
        (fresh(m) && models == old(models)[key := m] && m.hasInit == hasInit && m.hasClear == hasClear &&
         m.initialized == (hasInit && initOk) && m.clears == 0)
    {
      if key in models {
        return models[key];
      }
      m := new Model(hasInit, hasClear);
      models := models[key := m];
      if m.hasInit {
        m.Init(initOk);
      }
    }

    /** `get`: `None` for an unknown key. */
    function Get(key: string): (r: Option<Model>)
      reads this
      ensures r.None? <==> key !in models
      ensures r.Some? ==> r.value == models[key]
    {
      if key in models then Some(models[key]) else None
    }

    /** `clear`: calls `clear` once on every model that has it, then empties the
        registry. */
    method Clear()
      requires Valid()
      modifies this`models, models.Values
      ensures models == map[] && Valid()
      ensures forall m | m in old(models).Values ::
        m.clears == old(m.clears) + (if m.hasClear then 1 else 0) && m.initialized == old(m.initialized)
    {
      var keys := models.Keys;
      while keys != {}
        invariant keys <= models.Keys && models == old(models)
        invariant forall k | k in models ::
          models[k].initialized == old(models[k].initialized) &&
          models[k].clears == old(models[k].clears) + (if k !in keys && models[k].hasClear then 1 else 0)
        decreases keys
      {
        var k :| k in keys;
        var m := models[k];
        if m.hasClear {
          m.Clear();
        }
        keys := keys - {k};
      }
      forall m | m in old(models).Values
        ensures m.clears == old(m.clears) + (if m.hasClear then 1 else 0) && m.initialized == old(m.initialized)
      {
        var k :| k in models && models[k] == m;
      }
      models := map[];
    }
  }
}

=== FILE: resources.dfy ===
/** The reference-counted asset cache (assets/Scripts/Framework/Core/Res/ResourceMgr.ts).
    Assets and bundles are opaque handles; the engine's loads are passed in
    as their outcomes (`None` when the load fails) and the clock as `now`. */
module Resources {
  import opened Common

  /** A cache entry: the asset, how many holders it has, when it was last used. */
  datatype CacheItem = CacheItem(asset: nat, refCount: int, lastUseTime: int)

  /** The default idle time after which `gc` drops an unshared entry. */
  const DefaultGcTimeout := 300000

  /** `_getCacheKey`: the bundle name and the path joined by ':'. */
  function CacheKey(bundleName: string, path: string): (k: string)
    ensures |k| == |bundleName| + 1 + |path| && k[|bundleName|] == ':'
  {
    bundleName + ":" + path
  }

  predicate NoColon(s: string) { forall i :: 0 <= i < |s| ==> s[i] != ':' }

  /** The position of the first ':' in `s`. */
  function ColonIndex(s: string): (r: Option<nat>)
    ensures r.Some? ==> r.value < |s| && s[r.value] == ':' && NoColon(s[..r.value])
    ensures r.None? ==> NoColon(s)
  {
    if s == [] then None
    else if s[0] == ':' then Some(0)
    else match ColonIndex(s[1..])
      case None => None
      case Some(i) => assert s[..i + 1] == [s[0]] + s[1..][..i]; Some(i + 1)
  }

  lemma {:induction false} ColonIndexOfKey(bundleName: string, path: string)
    requires NoColon(bundleName)
    ensures ColonIndex(CacheKey(bundleName, path)) == Some(|bundleName|)
  {
    if bundleName != [] {
      assert CacheKey(bundleName, path)[1..] == CacheKey(bundleName[1..], path);
      ColonIndexOfKey(bundleName[1..], path);
    }
  }

  /** A key names one bundle and path when the bundle name has no ':'. */
  lemma CacheKeyInjective(b1: string, p1: string, b2: string, p2: string)
    requires NoColon(b1) && NoColon(b2) && CacheKey(b1, p1) == CacheKey(b2, p2)
    ensures b1 == b2 && p1 == p2
  {
    ColonIndexOfKey(b1, p1);
    ColonIndexOfKey(b2, p2);
    var k := CacheKey(b1, p1);
    assert b1 == k[..|b1|] && b2 == k[..|b2|];
    assert p1 == k[|b1| + 1..] && p2 == k[|b2| + 1..];
  }

  /** The key's prefix for a bundle, as `releaseBundle` tests it. */
  predicate HasPrefix(key: string, prefix: string)
  {
    |prefix| <= |key| && key[..|prefix|] == prefix
  }

  /** `releaseBundle` rebuilds each key of the bundle from the rest of it. */
  lemma SliceRoundTrip(bundleName: string, key: string)
    requires HasPrefix(key, bundleName + ":")
    ensures CacheKey(bundleName, key[|bundleName + ":"|..]) == key
  {
    assert key == key[..|bundleName + ":"|] + key[|bundleName + ":"|..];
  }

  /** Every stored entry has at least one holder. */
  predicate ValidCache(cache: map<string, CacheItem>)
  {
    forall k | k in cache :: cache[k].refCount >= 1
  }

  /** `_addToCache`: a new key starts with one holder; an existing one gains a
      holder and is marked used (its asset stays). */
  function AddToCache(cache: map<string, CacheItem>, key: string, asset: nat, now: int): (r: map<string, CacheItem>)
    ensures r.Keys == cache.Keys + {key}
    ensures key !in cache ==> r[key] == CacheItem(asset, 1, now)
    ensures key in cache ==> r[key] == cache[key].(refCount := cache[key].refCount + 1, lastUseTime := now)
    ensures forall k | k in cache && k != key :: r[k] == cache[k]
    ensures ValidCache(cache) ==> ValidCache(r)
  {
    if key !in cache then cache[key := CacheItem(asset, 1, now)]
    else cache[key := cache[key].(refCount := cache[key].refCount + 1, lastUseTime := now)]
  }

  /** `_releaseFromCache`: nothing for an absent key; otherwise one holder
      less, and the entry goes once no holder is left. */
  function ReleaseFromCache(cache: map<string, CacheItem>, key: string): (r: map<string, CacheItem>)
    ensures key !in cache ==> r == cache
    ensures key in cache && cache[key].refCount <= 1 ==> r == cache - {key}
    ensures key in cache && cache[key].refCount > 1 ==> r == cache[key := cache[key].(refCount := cache[key].refCount - 1)]
    ensures ValidCache(cache) ==> ValidCache(r)
  {
    if key !in cache then cache
    else if cache[key].refCount - 1 <= 0 then cache - {key}
    else cache[key := cache[key].(refCount := cache[key].refCount - 1)]
  }

  /** Adding a holder and releasing it again restores an existing entry's count. */
  lemma AddThenRelease(cache: map<string, CacheItem>, key: string, asset: nat, now: int)
    requires ValidCache(cache)
    ensures key !in cache ==> ReleaseFromCache(AddToCache(cache, key, asset, now), key) == cache
    ensures key in cache ==>
      ReleaseFromCache(AddToCache(cache, key, asset, now), key) == cache[key := cache[key].(lastUseTime := now)]
  {
    if key !in cache {
      assert AddToCache(cache, key, asset, now) - {key} == cache;
    }
  }

  /** `releaseBundle`'s effect on the cache once the keys in `done` are
      handled: each key of the bundle has lost one holder. */
  function DropRefs(cache: map<string, CacheItem>, prefix: string, done: set<string>): (r: map<string, CacheItem>)
    ensures forall k | k in r :: k in cache
  {
    map k | k in cache && !(k in done && HasPrefix(k, prefix) && cache[k].refCount <= 1) ::
      if k in done && HasPrefix(k, prefix) then cache[k].(refCount := cache[k].refCount - 1) else cache[k]
  }

  /** Handling one more key of `releaseBundle`'s loop: a key of the bundle
      loses one holder, any other key is left alone. */
  lemma DropRefsStep(cache: map<string, CacheItem>, prefix: string, done: set<string>, key: string)
    requires key in cache && key !in done
    ensures DropRefs(cache, prefix, done + {key}) ==
      if HasPrefix(key, prefix) then ReleaseFromCache(DropRefs(cache, prefix, done), key)
      else DropRefs(cache, prefix, done)
  {
  }

  /** An entry `gc` drops: idle for longer than `timeout` and held at most once. */
  predicate Idle(item: CacheItem, now: int, timeout: int)
  {
    now - item.lastUseTime > timeout && item.refCount <= 1
  }

  /** `gc`'s effect on a cache once the keys in `done` are handled. */
  function DropIdle(cache: map<string, CacheItem>, now: int, timeout: int, done: set<string>): (r: map<string, CacheItem>)
    ensures forall k | k in r :: k in cache && r[k] == cache[k]
    ensures forall k | k in cache && !(k in done && Idle(cache[k], now, timeout)) :: k in r
    ensures done == cache.Keys ==> forall k | k in r :: !Idle(r[k], now, timeout)
  {
    map k | k in cache && !(k in done && Idle(cache[k], now, timeout)) :: cache[k]
  }

  /** Handling one more key in `gc`. */
  lemma DropIdleStep(cache: map<string, CacheItem>, now: int, timeout: int, done: set<string>, key: string)
    requires ValidCache(cache) && key in cache && key !in done
    ensures var before := DropIdle(cache, now, timeout, done);
      key in before && before[key] == cache[key] &&
      DropIdle(cache, now, timeout, done + {key}) ==
        if Idle(cache[key], now, timeout) then ReleaseFromCache(before, key) else before
  {
    var before := DropIdle(cache, now, timeout, done);
    if Idle(cache[key], now, timeout) {
      assert DropIdle(cache, now, timeout, done + {key}) == before - {key};
    } else {
      assert DropIdle(cache, now, timeout, done + {key}) == before;
    }
  }

  /** JavaScript's `split(':')`. */
  function SplitColon(s: string): (parts: seq<string>)
    ensures |parts| >= 1
    decreases |s|
  {
    match ColonIndex(s)
    case None => [s]
    case Some(i) => [s[..i]] + SplitColon(s[i + 1..])
  }

  /** The key `gc` releases for a cached key, as written: the first two
      ':'-separated fields joined again (JavaScript gives "undefined" for a
      missing field). */
  function GcReleaseKeyAsWritten(key: string): string
  {
    var parts := SplitColon(key);
    CacheKey(parts[0], if |parts| >= 2 then parts[1] else "undefined")
  }

  lemma SplitKey(bundleName: string, path: string)
    requires NoColon(bundleName) && NoColon(path)
    ensures SplitColon(CacheKey(bundleName, path)) == [bundleName, path]
  {
    var k := CacheKey(bundleName, path);
    ColonIndexOfKey(bundleName, path);
    assert k[..|bundleName|] == bundleName;
    assert k[|bundleName| + 1..] == path;
  }

  /** Without ':' inside bundle names and paths, `gc` releases the key it
      examined. */
  lemma GcReleaseKeyPlain(bundleName: string, path: string)
    requires NoColon(bundleName) && NoColon(path)
    ensures GcReleaseKeyAsWritten(CacheKey(bundleName, path)) == CacheKey(bundleName, path)
  {
    SplitKey(bundleName, path);
  }

  /** With a ':' inside the path, `gc` as written releases a different key:
      the entry "b:x:y" is examined but "b:x" released. */
  lemma GcReleasesWrongKey()
    ensures CacheKey("b", "x:y") == "b:x:y" && GcReleaseKeyAsWritten("b:x:y") == "b:x"
  {
    assert ColonIndex("b:x:y") == Some(1) by {
      assert "b:x:y"[1..] == ":x:y";
    }
    assert "b:x:y"[2..] == "x:y";
    assert ColonIndex("x:y") == Some(1) by {
      assert "x:y"[1..] == ":y";
    }
    assert "x:y"[2..] == "y" && "x:y"[..1] == "x" && "b:x:y"[..1] == "b";
    assert ColonIndex("y") == None by {
      assert "y"[1..] == "";
    }
    assert SplitColon("y") == ["y"];
    assert SplitColon("x:y") == ["x", "y"];
    assert SplitColon("b:x:y") == ["b", "x", "y"];
  }

  class ResourceMgr {
    var bundleMap: map<string, nat>
    var assetCache: map<string, CacheItem>
    var remoteCache: map<string, CacheItem>

    constructor ()
      ensures bundleMap == map[] && assetCache == map[] && remoteCache == map[] && Valid()
    {
      bundleMap := map[];
      assetCache := map[];
      remoteCache := map[];
    }

    predicate Valid()
      reads this
    {
      ValidCache(assetCache) && ValidCache(remoteCache)
    }

    /** `loadBundle`: a known bundle is returned as it is; otherwise the
        engine's load, remembered when it succeeds. */
    method LoadBundle(bundleName: string, loaded: Option<nat>) returns (bundle: Option<nat>)
      modifies this`bundleMap
      ensures bundleName in old(bundleMap) ==> bundle == Some(old(bundleMap)[bundleName]) && bundleMap == old(bundleMap)
      ensures bundleName !in old(bundleMap) ==>
        (bundle == loaded &&
         bundleMap == (if loaded.Some? then old(bundleMap)[bundleName := loaded.value] else old(bundleMap)))
    {
      if bundleName in bundleMap {
        return Some(bundleMap[bundleName]);
      }
      if loaded.None? {
        return None;
      }
      bundleMap := bundleMap[bundleName := loaded.value];
      bundle := loaded;
    }

    /** The shared cache lookup of the three loaders: a hit gains a holder and
        returns the cached asset without loading; a miss takes the load's
        outcome and caches a loaded asset. */
    method LoadInto(key: string, remote: bool, now: int, loaded: Option<nat>) returns (asset: Option<nat>)
      requires Valid()
      modifies this`assetCache, this`remoteCache
      ensures Valid()
      ensures var cache := if remote then old(remoteCache) else old(assetCache);
        var r := if key in cache then AddToCache(cache, key, cache[key].asset, now)
                 else if loaded.Some? then AddToCache(cache, key, loaded.value, now) else cache;
        asset == (if key in cache then Some(cache[key].asset) else loaded) &&
        (if remote then remoteCache == r && assetCache == old(assetCache)
         else assetCache == r && remoteCache == old(remoteCache))
    {
      var cache := if remote then remoteCache else assetCache;
      if key in cache {
        var item := cache[key];
        cache := cache[key := item.(refCount := item.refCount + 1, lastUseTime := now)];
        asset := Some(item.asset);
      } else if loaded.None? {
        return None;
      } else {
        cache := AddToCache(cache, key, loaded.value, now);
        asset := loaded;
      }
      if remote {
        remoteCache := cache;
      } else {
        assetCache := cache;
      }
    }

    /** `loadRes`: the resources bundle's asset at `path`. */
    method LoadRes(path: string, now: int, loaded: Option<nat>) returns (asset: Option<nat>)
      requires Valid()
      modifies this`assetCache, this`remoteCache
      ensures Valid() && remoteCache == old(remoteCache)
      ensures var key := CacheKey("resources", path);
        if key in old(assetCache) then
          (asset == Some(old(assetCache)[key].asset) &&
           assetCache == AddToCache(old(assetCache), key, old(assetCache)[key].asset, now))
        else
          (asset == loaded &&
           assetCache == (if loaded.Some? then AddToCache(old(assetCache), key, loaded.value, now) else old(assetCache)))
    {
      asset := LoadInto(CacheKey("resources", path), false, now, loaded);
    }

    /** `loadAsset`: the bundle first (`None` when it cannot be had), then
        the asset by bundle and path. */
    method LoadAsset(bundleName: string, path: string, now: int, bundleLoaded: Option<nat>, loaded: Option<nat>)
      returns (asset: Option<nat>)
      requires Valid()
      modifies this`bundleMap, this`assetCache, this`remoteCache
      ensures Valid() && remoteCache == old(remoteCache)
      ensures bundleMap == if bundleName in old(bundleMap) || bundleLoaded.None? then old(bundleMap)
                           else old(bundleMap)[bundleName := bundleLoaded.value]
      ensures bundleName !in old(bundleMap) && bundleLoaded.None? ==> asset.None? && assetCache == old(assetCache)
      ensures bundleName in old(bundleMap) || bundleLoaded.Some? ==>
        var key := CacheKey(bundleName, path);
        if key in old(assetCache) then
          (asset == Some(old(assetCache)[key].asset) &&
           assetCache == AddToCache(old(assetCache), key, old(assetCache)[key].asset, now))
        else
          (asset == loaded &&
           assetCache == (if loaded.Some? then AddToCache(old(assetCache), key, loaded.value, now) else old(assetCache)))
    {
      var bundle := LoadBundle(bundleName, bundleLoaded);
      if bundle.None? {
        return None;
      }
      asset := LoadInto(CacheKey(bundleName, path), false, now, loaded);
    }

    /** `loadRemote`: the asset at `url`, cached by the url itself. */
    method LoadRemote(url: string, now: int, loaded: Option<nat>) returns (asset: Option<nat>)
      requires Valid()
      modifies this`assetCache, this`remoteCache
      ensures Valid() && assetCache == old(assetCache)
      ensures if url in old(remoteCache) then
          (asset == Some(old(remoteCache)[url].asset) &&
           remoteCache == AddToCache(old(remoteCache), url, old(remoteCache)[url].asset, now))
        else
          (asset == loaded &&
           remoteCache == (if loaded.Some? then AddToCache(old(remoteCache), url, loaded.value, now) else old(remoteCache)))
    {
      asset := LoadInto(url, true, now, loaded);
    }

    /** `release`: one holder less for the asset of a bundle and path. */
    method Release(bundleName: string, path: string)
      requires Valid()
      modifies this`assetCache
      ensures Valid()
      ensures assetCache == ReleaseFromCache(old(assetCache), CacheKey(bundleName, path))
    {
      assetCache := ReleaseFromCache(assetCache, CacheKey(bundleName, path));
    }

    /** `releaseRemote`: one holder less for a remote asset. */
    method ReleaseRemote(url: string)
      requires Valid()
      modifies this`remoteCache
      ensures Valid()
      ensures remoteCache == ReleaseFromCache(old(remoteCache), url)
    {
      remoteCache := ReleaseFromCache(remoteCache, url);
    }

    /** `releaseBundle`: nothing for an unknown bundle; otherwise one holder
        less for every cached asset of the bundle, and the bundle forgotten. */
    method ReleaseBundle(bundleName: string)
      requires Valid()
      modifies this`assetCache, this`bundleMap
      ensures Valid()
      ensures bundleName !in old(bundleMap) ==> assetCache == old(assetCache) && bundleMap == old(bundleMap)
      ensures bundleName in old(bundleMap) ==>
        assetCache == DropRefs(old(assetCache), bundleName + ":", old(assetCache).Keys) &&
        bundleMap == old(bundleMap) - {bundleName}
    {
      if bundleName !in bundleMap {
        return;
      }
      var prefix := bundleName + ":";
      var keys := assetCache.Keys;
      ghost var done: set<string> := {};
      while keys != {}
        invariant Valid()
        invariant keys !! done && keys + done == old(assetCache).Keys
        invariant assetCache == DropRefs(old(assetCache), prefix, done) && bundleMap == old(bundleMap)
        decreases keys
      {
        var key :| key in keys;
        DropRefsStep(old(assetCache), prefix, done, key);
        if HasPrefix(key, prefix) {
          SliceRoundTrip(bundleName, key);
          Release(bundleName, key[|prefix|..]);
        }
        keys := keys - {key};
        done := done + {key};
      }
      bundleMap := bundleMap - {bundleName};
    }

    /** `releaseAll`: every cache and every bundle forgotten. */
    method ReleaseAll()
      modifies this
      ensures assetCache == map[] && remoteCache == map[] && bundleMap == map[] && Valid()
    {
      assetCache := map[];
      remoteCache := map[];
      bundleMap := map[];
    }

    /** `gc`: releases every entry idle for longer than `timeout` and held at
        most once, in both caches, so exactly those entries go. Each entry is
        released under its own key (see `GcReleasesWrongKey` for the key the
        source rebuilds). */
    method Gc(now: int, timeout: int)
      requires Valid()
      modifies this`assetCache, this`remoteCache
      ensures Valid()
      ensures assetCache == DropIdle(old(assetCache), now, timeout, old(assetCache).Keys)
      ensures remoteCache == DropIdle(old(remoteCache), now, timeout, old(remoteCache).Keys)
    {
      var keys := assetCache.Keys;
      ghost var done: set<string> := {};
      while keys != {}
        invariant Valid() && remoteCache == old(remoteCache)
        invariant keys !! done && keys + done == old(assetCache).Keys
        invariant assetCache == DropIdle(old(assetCache), now, timeout, done)
        decreases keys
      {
        var key :| key in keys;
        DropIdleStep(old(assetCache), now, timeout, done, key);
        var item := assetCache[key];
        if now - item.lastUseTime > timeout && item.refCount <= 1 {
          assetCache := ReleaseFromCache(assetCache, key);
        }
        keys := keys - {key};
        done := done + {key};
      }
      var urls := remoteCache.Keys;
      done := {};
      while urls != {}
        invariant Valid() && assetCache == DropIdle(old(assetCache), now, timeout, old(assetCache).Keys)
        invariant urls !! done && urls + done == old(remoteCache).Keys
        invariant remoteCache == DropIdle(old(remoteCache), now, timeout, done)
        decreases urls
      {
        var url :| url in urls;
        DropIdleStep(old(remoteCache), now, timeout, done, url);
        var item := remoteCache[url];
        if now - item.lastUseTime > timeout && item.refCount <= 1 {
          ReleaseRemote(url);
        }
        urls := urls - {url};
        done := done + {url};
      }
    }
  }
}

=== FILE: strings.dfy ===
/** String helpers (assets/Scripts/Framework/Core/Utils/StringUtil.ts). A
    string is a sequence of `char`s, which stand for the UTF-16 code units of
    the Basic Multilingual Plane; a wide character (code above 127) and '^'
    count twice in a display width. */
module Strings {
  import opened Common

  /** The display width of one code unit. */
  function Weight(c: char): nat
  {
    if c as int > 127 || c == '^' then 2 else 1
  }

  /** The display width of a string. */
  function Width(s: string): (w: nat)
    ensures |s| <= w <= 2 * |s|
  {
    if s == [] then 0 else Width(s[..|s| - 1]) + Weight(s[|s| - 1])
  }

  /** Widths add up over a split. */
  lemma {:induction false} WidthAppend(s: string, t: string)
    ensures Width(s + t) == Width(s) + Width(t)
    decreases |t|
  {
    if t != [] {
      assert (s + t)[..|s + t| - 1] == s + t[..|t| - 1];
      assert (s + t)[|s + t| - 1] == t[|t| - 1];
      WidthAppend(s, t[..|t| - 1]);
    } else {
      assert s + t == s;
    }
  }

  /** A longer prefix is strictly wider. */
  lemma PrefixWidthGrows(s: string, i: nat, j: nat)
    requires i < j <= |s|
    ensures Width(s[..i]) < Width(s[..j])
  {
    assert s[..j] == s[..i] + s[i..j];
    WidthAppend(s[..i], s[i..j]);
  }

  /** `getStringLength`. */
  method GetStringLength(s: string) returns (len: nat)
    ensures len == Width(s)
  {
    len := 0;
    for i := 0 to |s|
      invariant len == Width(s[..i])
    {
      assert s[..i + 1][..i] == s[..i];
      len := len + Weight(s[i]);
    }
    assert s[..|s|] == s;
  }

  /** The longest prefix of `s` no wider than `maxWidth`, as a length. */
  function FitLength(s: string, maxWidth: int): (k: nat)
    ensures k <= |s|
    ensures Width(s[..k]) <= maxWidth || k == 0
    ensures k < |s| ==> Width(s[..k + 1]) > maxWidth
    decreases |s|
  {
    if s == [] || Width(s) <= maxWidth then assert s[..|s|] == s; |s|
    else
      var k := FitLength(s[..|s| - 1], maxWidth);
      assert s[..|s| - 1][..k] == s[..k];
      if k < |s| - 1 then (assert s[..|s| - 1][..k + 1] == s[..k + 1]; k)
      else k
  }

  /** No prefix longer than `FitLength` fits. */
  lemma FitLengthLongest(s: string, maxWidth: int, j: nat)
    requires FitLength(s, maxWidth) < j <= |s|
    ensures Width(s[..j]) > maxWidth
  {
    var k := FitLength(s, maxWidth);
    if j > k + 1 {
      PrefixWidthGrows(s, k + 1, j);
    }
  }

  /** The loop of `truncate`: the code units are taken while the running
      width stays within `maxWidth`; at the first one that overflows, the
      kept prefix is returned with `suffix`; when none overflows, the whole
      string. */
  method CutToWidth(s: string, maxWidth: int, suffix: string) returns (r: string)
    ensures Width(s) <= maxWidth || s == [] ==> r == s
    ensures Width(s) > maxWidth && s != [] ==> r == s[..FitLength(s, maxWidth)] + suffix
  {
    var len := 0;
    var truncated := "";
    for i := 0 to |s|
      invariant truncated == s[..i] && len == Width(s[..i]) && (i == 0 || len <= maxWidth)
    {
      assert s[..i + 1][..i] == s[..i];
      len := len + Weight(s[i]);
      if len <= maxWidth {
        truncated := truncated + [s[i]];
      } else {
        FitAt(s, maxWidth, i);
        return truncated + suffix;
      }
    }
    assert s[..|s|] == s;
    r := truncated;
  }

  /** Where the loop of `truncate` stops. */
  lemma FitAt(s: string, maxWidth: int, i: nat)
    requires i < |s| && Width(s[..i + 1]) > maxWidth
    requires i == 0 || Width(s[..i]) <= maxWidth
    ensures FitLength(s, maxWidth) == i && Width(s) > maxWidth
  {
    var k := FitLength(s, maxWidth);
    assert s[..|s|] == s;
    PrefixWidthMono(s, i + 1, |s|);
    if k > i {
      PrefixWidthMono(s, i + 1, k);
    } else if k < i {
      PrefixWidthMono(s, k + 1, i);
    }
  }

  /** A longer prefix is at least as wide. */
  lemma PrefixWidthMono(s: string, i: nat, j: nat)
    requires i <= j <= |s|
    ensures Width(s[..i]) <= Width(s[..j])
  {
    if i < j {
      PrefixWidthGrows(s, i, j);
    }
  }

  /** `truncate` as written: '' for '', the string itself when it has at
      most `maxLength` code units, and otherwise cut by width. */
  function TruncatedAsWritten(s: string, maxLength: int, suffix: string): string
  {
    if s == "" then ""
    else if |s| <= maxLength then s
    else if Width(s) <= maxLength then s
    else s[..FitLength(s, maxLength)] + suffix
  }

  method TruncateAsWritten(s: string, maxLength: int, suffix: string) returns (r: string)
    ensures r == TruncatedAsWritten(s, maxLength, suffix)
  {
    if s == "" {
      return "";
    }
    if |s| <= maxLength {
      return s;
    }
    r := CutToWidth(s, maxLength, suffix);
  }

  /** The early return counts code units, not width: two wide characters
      with a limit of 2 come back whole, four wide, while three of them are
      cut to one and the suffix. */
  lemma TruncateKeepsWideString()
    ensures var wide := "\U{4E2D}\U{4E2D}";
      TruncatedAsWritten(wide, 2, "...") == wide && Width(wide) == 4
    ensures TruncatedAsWritten("\U{4E2D}\U{4E2D}\U{4E2D}", 2, "...") == "\U{4E2D}..."
  {
    var three := "\U{4E2D}\U{4E2D}\U{4E2D}";
    assert three[..2] == "\U{4E2D}\U{4E2D}" && three[..1] == "\U{4E2D}";
    assert three[..1][..0] == "";
    assert "\U{4E2D}\U{4E2D}"[..1] == "\U{4E2D}";
    FitAt(three, 2, 1);
  }

  /** `truncate` measuring the early return by width. */
  function Truncated(s: string, maxLength: int, suffix: string): string
  {
    if s == "" then ""
    else if Width(s) <= maxLength then s
    else s[..FitLength(s, maxLength)] + suffix
  }

  method Truncate(s: string, maxLength: int, suffix: string) returns (r: string)
    ensures r == Truncated(s, maxLength, suffix)
  {
    if s == "" {
      return "";
    }
    r := CutToWidth(s, maxLength, suffix);
  }

  /** A string that fits comes back whole; a non-empty one that does not
      keeps its longest prefix that fits, followed by the suffix. */
  lemma TruncatedFits(s: string, maxLength: int, suffix: string)
    ensures Width(s) <= maxLength ==> Truncated(s, maxLength, suffix) == s
    ensures s != "" && Width(s) > maxLength ==>
      exists k :: 0 <= k < |s| && Truncated(s, maxLength, suffix) == s[..k] + suffix &&
        (k == 0 || Width(s[..k]) <= maxLength) && Width(s[..k + 1]) > maxLength
  {
    if s != "" && Width(s) > maxLength {
      var k := FitLength(s, maxLength);
      assert k < |s|;
    }
  }

  /** The length of the run of decimal digits at the start of `s`. */
  function DigitRun(s: string): (n: nat)
    ensures n <= |s| && AllDigits(s[..n]) && (n < |s| ==> !IsDigit(s[n]))
  {
    if s == [] || !IsDigit(s[0]) then 0
    else
      var n := DigitRun(s[1..]) + 1;
      assert s[..n] == [s[0]] + s[1..][..n - 1];
      n
  }

  /** The argument a placeholder's digits name: JavaScript looks `args[d]`
      up by the digits as a property name, so only the canonical decimal of
      an index (no leading zeros) finds an argument. */
  function Lookup(args: seq<string>, digits: string): Option<string>
    requires AllDigits(digits)
  {
    var i := DigitsValue(digits);
    if i < |args| && digits == NatToString(i) then Some(args[i]) else None
  }

  /** `format`: every "{digits}" naming an argument becomes that argument;
      the others stay as they are. */
  function Format(s: string, args: seq<string>): string
    decreases |s|
  {
    if s == [] then []
    else if s[0] == '{' && 0 < DigitRun(s[1..]) && 1 + DigitRun(s[1..]) < |s| && s[1 + DigitRun(s[1..])] == '}' then
      var n := DigitRun(s[1..]);
      match Lookup(args, s[1..][..n])
      case Some(a) => a + Format(s[n + 2..], args)
      case None => s[..n + 2] + Format(s[n + 2..], args)
    else [s[0]] + Format(s[1..], args)
  }

  /** With no arguments, every placeholder stays. */
  lemma {:induction false} FormatWithoutArgs(s: string)
    ensures Format(s, []) == s
    decreases |s|
  {
    if s != [] {
      var n := DigitRun(s[1..]);
      if s[0] == '{' && 0 < n && 1 + n < |s| && s[1 + n] == '}' {
        assert Lookup([], s[1..][..n]) == None;
        FormatWithoutArgs(s[n + 2..]);
        assert s[..n + 2] + s[n + 2..] == s;
      } else {
        FormatWithoutArgs(s[1..]);
        assert [s[0]] + s[1..] == s;
      }
    }
  }

  /** A string without '{' has nothing to replace. */
  lemma {:induction false} FormatWithoutBraces(s: string, args: seq<string>)
    requires forall i :: 0 <= i < |s| ==> s[i] != '{'
    ensures Format(s, args) == s
    decreases |s|
  {
    if s != [] {
      FormatWithoutBraces(s[1..], args);
      assert [s[0]] + s[1..] == s;
    }
  }

  /** A code unit other than '{' is copied. */
  lemma FormatCopies(c: char, rest: string, args: seq<string>)
    requires c != '{'
    ensures Format([c] + rest, args) == [c] + Format(rest, args)
  {
    assert ([c] + rest)[1..] == rest;
  }

  lemma FormatPlaceholder(args: seq<string>)
    requires args == ["World"]
    ensures Format("{0}!", args) == "World!"
  {
    var s := "{0}!";
    assert s[1..] == "0}!" && s[1..][1..] == "}!";
    assert DigitRun("}!") == 0;
    assert DigitRun(s[1..]) == 1;
    assert s[1..][..1] == "0";
    assert NatToString(0) == "0";
    assert DigitsValue("0") == 0 by { assert "0"[1..] == ""; }
    assert Lookup(args, "0") == Some("World");
    assert s[3..] == "!";
    assert Format("!", args) == "!" by { FormatCopies('!', "", args); }
  }

  /** A prefix without '{' is copied. */
  lemma {:induction false} FormatCopiesPrefix(prefix: string, tail: string, args: seq<string>)
    requires forall i :: 0 <= i < |prefix| ==> prefix[i] != '{'
    ensures Format(prefix + tail, args) == prefix + Format(tail, args)
    decreases |prefix|
  {
    if prefix != [] {
      FormatCopiesPrefix(prefix[1..], tail, args);
      FormatCopies(prefix[0], prefix[1..] + tail, args);
      assert [prefix[0]] + (prefix[1..] + tail) == prefix + tail;
      assert [prefix[0]] + (prefix[1..] + Format(tail, args)) == prefix + Format(tail, args);
    } else {
      assert prefix + tail == tail;
    }
  }

  /** The digits of a number followed by a non-digit form a run of exactly
      their length. */
  lemma {:induction false} DigitRunOfDigits(d: string, rest: string)
    requires AllDigits(d) && (rest == [] || !IsDigit(rest[0]))
    ensures DigitRun(d + rest) == |d|
    decreases |d|
  {
    if d == [] {
      assert d + rest == rest;
    } else {
      DigitRunOfDigits(d[1..], rest);
      assert (d + rest)[1..] == d[1..] + rest;
    }
  }

  /** Every placeholder "{i}" becomes the argument `i` when there is one and
      stays as it is otherwise; the text after it is formatted in turn. */
  lemma FormatPlaceholderAny(i: nat, rest: string, args: seq<string>)
    ensures Format(['{'] + (NatToString(i) + (['}'] + rest)), args) ==
      (if i < |args| then args[i] else ['{'] + NatToString(i) + ['}']) + Format(rest, args)
  {
    var d := NatToString(i);
    var s := ['{'] + (d + (['}'] + rest));
    var n := |d|;
    assert s[1..] == d + (['}'] + rest);
    DigitRunOfDigits(d, ['}'] + rest);
    assert s[1 + n] == '}';
    assert s[1..][..n] == d;
    NatToStringRoundTrip(i);
    assert s[n + 2..] == rest;
    assert s[..n + 2] == ['{'] + d + ['}'];
  }

  lemma FormatExample()
    ensures Format("Hello {0}!", ["World"]) == "Hello World!"
  {
    FormatPlaceholder(["World"]);
    FormatCopiesPrefix("Hello ", "{0}!", ["World"]);
    assert "Hello " + "{0}!" == "Hello {0}!";
    assert "Hello " + "World!" == "Hello World!";
  }

  /** A word character of a regular expression's `\w`. */
  predicate IsWord(c: char)
  {
    'a' <= c <= 'z' || 'A' <= c <= 'Z' || '0' <= c <= '9' || c == '_'
  }

  /** `toUpperCase` on one code unit, for the ASCII letters. */
  function Upper(c: char): (u: char)
    ensures 'a' <= c <= 'z' ==> 'A' <= u <= 'Z' && u as int == c as int - 32
    ensures !('a' <= c <= 'z') ==> u == c
  {
    if 'a' <= c <= 'z' then (c as int - 32) as char else c
  }

  /** `toCamelCase`: each '-' or '_' followed by a word character is
      replaced by that character in upper case. */
  function ToCamelCase(s: string): (r: string)
    ensures |r| <= |s|
    decreases |s|
  {
    if |s| >= 2 && (s[0] == '-' || s[0] == '_') && IsWord(s[1]) then [Upper(s[1])] + ToCamelCase(s[2..])
    else if s == [] then []
    else [s[0]] + ToCamelCase(s[1..])
  }

  /** Without separators a name is already in camel case. */
  lemma {:induction false} ToCamelCaseWithoutSeparators(s: string)
    requires forall i :: 0 <= i < |s| ==> s[i] != '-' && s[i] != '_'
    ensures ToCamelCase(s) == s
    decreases |s|
  {
    if s != [] {
      ToCamelCaseWithoutSeparators(s[1..]);
      assert [s[0]] + s[1..] == s;
    }
  }

  /** The output loses exactly one code unit for each separator replaced,
      so it is as long as the input only when nothing was replaced. */
  lemma {:induction false} ToCamelCaseIdentity(s: string)
    ensures ToCamelCase(s) == s <==> |ToCamelCase(s)| == |s|
    ensures |ToCamelCase(s)| == |s| ==>
      forall i :: 0 <= i < |s| - 1 ==> !((s[i] == '-' || s[i] == '_') && IsWord(s[i + 1]))
    decreases |s|
  {
    if |s| >= 2 && (s[0] == '-' || s[0] == '_') && IsWord(s[1]) {
      assert |ToCamelCase(s)| < |s|;
    } else if s != [] {
      ToCamelCaseIdentity(s[1..]);
      assert [s[0]] + s[1..] == s;
      if |ToCamelCase(s)| == |s| {
        forall i | 0 <= i < |s| - 1
          ensures !((s[i] == '-' || s[i] == '_') && IsWord(s[i + 1]))
        {
          if i > 0 {
            assert s[i] == s[1..][i - 1] && s[i + 1] == s[1..][i];
          }
        }
      }
    }
  }

  lemma ToCamelCaseExample()
    ensures ToCamelCase("to-do_it") == "toDoIt"
  {
    assert ToCamelCase("t") == "t" by { assert "t"[1..] == ""; }
    assert ToCamelCase("_it") == "It" by { assert "_it"[2..] == "t"; }
    assert ToCamelCase("o_it") == "o_it"[..1] + "It" by { assert "o_it"[1..] == "_it"; }
    assert ToCamelCase("-do_it") == "Do_It"[..1] + "o" + "It" by { assert "-do_it"[2..] == "o_it"; }
    assert ToCamelCase("o-do_it") == "oDoIt" by { assert "o-do_it"[1..] == "-do_it"; }
    assert "to-do_it"[1..] == "o-do_it";
  }

  /** `toPascalCase`: the camel-case form with its first code unit in upper
      case. */
  function ToPascalCase(s: string): (r: string)
    ensures var camel := ToCamelCase(s);
      |r| == |camel| && (camel != [] ==> r[0] == Upper(camel[0]) && r[1..] == camel[1..])
  {
    var camel := ToCamelCase(s);
    if camel == [] then [] else [Upper(camel[0])] + camel[1..]
  }

  /** What `trim` removes: JavaScript's white space and line terminators. */
  predicate IsWhite(c: char)
  {
    c == ' ' || c == '\t' || c == '\n' || c == '\r' || c == '\U{000B}' || c == '\U{000C}' ||
    c == '\U{00A0}' || c == '\U{1680}' || ('\U{2000}' <= c <= '\U{200A}') || c == '\U{2028}' ||
    c == '\U{2029}' || c == '\U{202F}' || c == '\U{205F}' || c == '\U{3000}' || c == '\U{FEFF}'
  }

  predicate AllWhite(s: string) { forall i :: 0 <= i < |s| ==> IsWhite(s[i]) }

  /** `r` is `s` with a run of white space cut from each end. */
  predicate CutFromEnds(s: string, r: string)
  {
    exists i, j :: 0 <= i <= j <= |s| && r == s[i..j] && AllWhite(s[..i]) && AllWhite(s[j..])
  }

  /** `trim`: white space removed from both ends. */
  function Trim(s: string): (r: string)
    ensures |r| <= |s|
    ensures r != [] ==> !IsWhite(r[0]) && !IsWhite(r[|r| - 1])
    ensures CutFromEnds(s, r)
    decreases |s|
  {
    if s == [] then
      assert s[0..0] == [] && s[..0] == [] && s[0..] == [];
      []
    else if IsWhite(s[0]) then
      var r := Trim(s[1..]);
      CutFromFront(s, r);
      r
    else if IsWhite(s[|s| - 1]) then
      var r := Trim(s[..|s| - 1]);
      CutFromBack(s, r);
      r
    else
      assert s[0..|s|] == s && s[..0] == [] && s[|s|..] == [];
      s
  }

  /** A white first code unit joins the run cut from the front. */
  lemma CutFromFront(s: string, r: string)
    requires s != [] && IsWhite(s[0]) && CutFromEnds(s[1..], r)
    ensures CutFromEnds(s, r)
  {
    var i, j :| 0 <= i <= j <= |s| - 1 && r == s[1..][i..j] && AllWhite(s[1..][..i]) && AllWhite(s[1..][j..]);
    assert r == s[i + 1..j + 1];
    assert s[j + 1..] == s[1..][j..];
    var front := s[..i + 1];
    forall k | 0 <= k < |front| ensures IsWhite(front[k]) {
      if k > 0 { assert front[k] == s[1..][..i][k - 1]; }
    }
  }

  /** A white last code unit joins the run cut from the back. */
  lemma CutFromBack(s: string, r: string)
    requires s != [] && IsWhite(s[|s| - 1]) && CutFromEnds(s[..|s| - 1], r)
    ensures CutFromEnds(s, r)
  {
    var t := s[..|s| - 1];
    var i, j :| 0 <= i <= j <= |t| && r == t[i..j] && AllWhite(t[..i]) && AllWhite(t[j..]);
    assert r == s[i..j];
    assert s[..i] == t[..i];
    var back := s[j..];
    forall k | 0 <= k < |back| ensures IsWhite(back[k]) {
      if k < |t| - j { assert back[k] == t[j..][k]; }
    }
  }

  lemma {:induction false} TrimEmpty(s: string)
    ensures Trim(s) == [] <==> AllWhite(s)
    decreases |s|
  {
    if s != [] {
      if IsWhite(s[0]) {
        TrimEmpty(s[1..]);
        if AllWhite(s[1..]) {
          forall i | 0 <= i < |s| ensures IsWhite(s[i]) {
            if i > 0 { assert s[i] == s[1..][i - 1]; }
          }
        }
      } else if IsWhite(s[|s| - 1]) {
        TrimEmpty(s[..|s| - 1]);
      }
    }
  }

  /** `isNullOrWhiteSpace`: a missing string counts as blank. */
  function IsNullOrWhiteSpace(s: Option<string>): (r: bool)
    ensures r <==> s.None? || AllWhite(s.value)
  {
    if s.Some? then TrimEmpty(s.value); s.value == "" || |Trim(s.value)| == 0 else true
  }
}

=== FILE: time_format.dfy ===
/** Duration formatting (assets/Scripts/Framework/Core/Utils/TimeUtil.ts) on
    whole numbers: `Math.floor` of a quotient by a positive constant is
    Euclidean division, and JavaScript's `%` keeps the dividend's sign
    (`TruncRem`). */
module TimeFormat {
  import opened Common

  const Hour := "小时"
  const Minute := "分"
  const Second := "秒"
  const Day := "天"

  /** `formatSeconds`' split into hours, minutes and seconds. */
  function SplitSeconds(seconds: int): (hms: (int, int, int))
    ensures seconds >= 0 ==>
      hms.0 >= 0 && 0 <= hms.1 < 60 && 0 <= hms.2 < 60 && hms.0 * 3600 + hms.1 * 60 + hms.2 == seconds
  {
    HoursMinutesSeconds(seconds);
    (seconds / 3600, TruncRem(seconds, 3600) / 60, TruncRem(seconds, 60))
  }

  /** For a non-negative count the three parts are Euclidean and add back
      up to it. */
  lemma HoursMinutesSeconds(n: int)
    ensures n >= 0 ==>
      TruncRem(n, 3600) == n % 3600 && TruncRem(n, 60) == n % 60 &&
      n / 3600 * 3600 + n % 3600 / 60 * 60 + n % 60 == n
  {
    if n >= 0 {
      var q, r := n / 3600, n % 3600;
      var m, s := r / 60, r % 60;
      assert r == m * 60 + s;
      assert n == (q * 60 + m) * 60 + s;
      assert n % 60 == s;
    }
  }

  /** One unit of `formatSeconds`: shown when positive or when zeros are
      wanted. */
  function Part(v: int, unit: string, showZero: bool): string
  {
    if v > 0 || showZero then IntToString(v) + unit else ""
  }

  /** `formatSeconds`: the text is empty exactly when zeros are hidden and no
      unit has a positive count. */
  function FormatSeconds(seconds: int, showZero: bool): (r: string)
    ensures var (h, m, s) := SplitSeconds(seconds);
      r == "" <==> !showZero && h <= 0 && m <= 0 && s <= 0
  {
    var (h, m, s) := SplitSeconds(seconds);
    Part(h, Hour, showZero) + Part(m, Minute, showZero) + Part(s, Second, showZero)
  }

  /** Nothing is shown for no time without zeros, and under a minute only
      the seconds are. */
  lemma FormatSecondsUnderAMinute(seconds: int)
    requires 0 <= seconds < 60
    ensures FormatSeconds(seconds, false) == if seconds == 0 then "" else IntToString(seconds) + Second
  {
    TruncRemSmall(seconds, 3600);
    TruncRemSmall(seconds, 60);
    assert SplitSeconds(seconds) == (0, 0, seconds);
    assert Part(0, Hour, false) == "" && Part(0, Minute, false) == "";
  }

  /** A non-negative dividend below the divisor is its own remainder. */
  lemma TruncRemSmall(a: int, b: int)
    requires 0 <= a < b
    ensures TruncRem(a, b) == a
  {
    assert TruncDiv(a, b) == a / b == 0;
  }

  /** The text with every unit shown. */
  function AllUnits(h: nat, m: nat, s: nat): string
  {
    NatToString(h) + (Hour + (NatToString(m) + (Minute + (NatToString(s) + Second))))
  }

  /** With zeros shown, all three units appear. */
  lemma FormatSecondsShowsAll(seconds: nat)
    ensures var (h, m, s) := SplitSeconds(seconds);
      FormatSeconds(seconds, true) == AllUnits(h, m, s)
  {
    var (h, m, s) := SplitSeconds(seconds);
    assert IntToString(h) == NatToString(h) && IntToString(m) == NatToString(m) && IntToString(s) == NatToString(s);
  }

  /** Digits followed by a non-digit split in one way only. */
  lemma DigitsThenMark(a: string, x: string, b: string, y: string)
    requires AllDigits(a) && AllDigits(b) && x != [] && y != [] && !IsDigit(x[0]) && !IsDigit(y[0])
    requires a + x == b + y
    ensures a == b && x == y
  {
    assert (a + x)[|a|] == x[0] && (b + y)[|b|] == y[0];
    assert |a| == |b|;
    assert a == (a + x)[..|a|] && b == (b + y)[..|b|];
    assert x == (a + x)[|a|..] && y == (b + y)[|b|..];
  }

  /** A number, then a unit, then the rest: read back one way only. */
  lemma NumberThenUnit(n1: nat, rest1: string, n2: nat, rest2: string, unit: string)
    requires unit != [] && !IsDigit(unit[0])
    requires NatToString(n1) + (unit + rest1) == NatToString(n2) + (unit + rest2)
    ensures n1 == n2 && rest1 == rest2
  {
    DigitsThenMark(NatToString(n1), unit + rest1, NatToString(n2), unit + rest2);
    NatToStringInjective(n1, n2);
    assert rest1 == (unit + rest1)[|unit|..] && rest2 == (unit + rest2)[|unit|..];
  }

  /** The text with every unit shown is read back one way only. */
  lemma AllUnitsInjective(h1: nat, m1: nat, s1: nat, h2: nat, m2: nat, s2: nat)
    requires AllUnits(h1, m1, s1) == AllUnits(h2, m2, s2)
    ensures h1 == h2 && m1 == m2 && s1 == s2
  {
    NumberThenUnit(h1, NatToString(m1) + (Minute + (NatToString(s1) + Second)),
                   h2, NatToString(m2) + (Minute + (NatToString(s2) + Second)), Hour);
    NumberThenUnit(m1, NatToString(s1) + Second, m2, NatToString(s2) + Second, Minute);
    NumberThenUnit(s1, [], s2, [], Second) by {
      assert Second + [] == Second;
    }
  }

  /** With every unit shown, different non-negative durations read
      differently. */
  lemma FormatSecondsInjective(a: nat, b: nat)
    requires FormatSeconds(a, true) == FormatSeconds(b, true)
    ensures a == b
  {
    FormatSecondsShowsAll(a);
    FormatSecondsShowsAll(b);
    var (h1, m1, s1) := SplitSeconds(a);
    var (h2, m2, s2) := SplitSeconds(b);
    AllUnitsInjective(h1, m1, s1, h2, m2, s2);
  }

  const MsPerDay := 86400000
  const MsPerHour := 3600000
  const MsPerMinute := 60000

  /** `formatLeftTime`'s split of milliseconds into days, hours, minutes and
      seconds. */
  function SplitMillis(leftTime: int): (int, int, int, int)
  {
    (leftTime / MsPerDay, TruncRem(leftTime, MsPerDay) / MsPerHour,
     TruncRem(leftTime, MsPerHour) / MsPerMinute, TruncRem(leftTime, MsPerMinute) / 1000)
  }

  /** For a non-negative time the parts are in range and add up to it, to
      the second. */
  lemma SplitMillisSum(leftTime: nat)
    ensures var (d, h, m, s) := SplitMillis(leftTime);
      d >= 0 && 0 <= h < 24 && 0 <= m < 60 && 0 <= s < 60 &&
      d * MsPerDay + h * MsPerHour + m * MsPerMinute + s * 1000 <= leftTime <
      d * MsPerDay + h * MsPerHour + m * MsPerMinute + s * 1000 + 1000
  {
    var a := leftTime;
    var rd, rh, rm := a % MsPerDay, a % MsPerHour, a % MsPerMinute;
    assert a == MsPerDay * (a / MsPerDay) + rd;
    assert rd == MsPerHour * (rd / MsPerHour) + rd % MsPerHour;
    assert rd % MsPerHour == rh;
    assert rh == MsPerMinute * (rh / MsPerMinute) + rh % MsPerMinute;
    assert rh % MsPerMinute == rm;
    assert rm == 1000 * (rm / 1000) + rm % 1000;
  }

  /** `formatLeftTime`: the largest unit that is not zero and the one below
      it, or the seconds alone under a minute. */
  function FormatLeftTime(leftTime: int): string
  {
    var (days, hours, minutes, seconds) := SplitMillis(leftTime);
    if days > 0 then IntToString(days) + Day + IntToString(hours) + Hour
    else if hours > 0 then IntToString(hours) + Hour + IntToString(minutes) + Minute
    else if minutes > 0 then IntToString(minutes) + Minute + IntToString(seconds) + Second
    else IntToString(seconds) + Second
  }

  /** Which units `formatLeftTime` shows depends on how much time is left:
      days from a whole day on, hours from a whole hour, minutes from a
      whole minute, and otherwise seconds. */
  lemma FormatLeftTimeUnits(leftTime: nat)
    ensures var (d, h, m, s) := SplitMillis(leftTime);
      FormatLeftTime(leftTime) ==
        if leftTime >= MsPerDay then IntToString(d) + Day + IntToString(h) + Hour
        else if leftTime >= MsPerHour then IntToString(h) + Hour + IntToString(m) + Minute
        else if leftTime >= MsPerMinute then IntToString(m) + Minute + IntToString(s) + Second
        else IntToString(s) + Second
  {
    var (d, h, m, s) := SplitMillis(leftTime);
    assert d == leftTime / MsPerDay;
    if leftTime < MsPerDay {
      assert TruncRem(leftTime, MsPerDay) == leftTime;
      if leftTime < MsPerHour {
        assert TruncRem(leftTime, MsPerHour) == leftTime;
        if leftTime < MsPerMinute {
          assert TruncRem(leftTime, MsPerMinute) == leftTime;
        }
      }
    }
  }
}

=== FILE: timers.dfy ===
/** The timer manager (assets/Scripts/Framework/Core/Timer/TimerMgr.ts):
    timers by id, groups of timers by tag, and the per-frame update that
    advances them. Callbacks are opaque handles; a missing callback is
    `None`. Numbers are modelled as exact reals. */
module Timers {
  import opened Common

  datatype TimerKind = Time | Frame
  datatype TimerState = Idle | Running | Paused

  /** A timer. `times` <= 0 repeats forever; `elapsed` and `delay` count
      seconds for a time timer and frames for a frame timer. */
  datatype TimerItem = TimerItem(
    id: nat, kind: TimerKind, interval: real, times: int, elapsed: real, executed: nat,
    callback: nat, state: TimerState, delay: real, scale: real, tag: Option<string>)

  /** The smallest interval a time timer gets. */
  const MinInterval: real := 0.0001

  /** JavaScript truthiness of an optional tag: no tag and "" are both falsy. */
  predicate Tagged(tag: Option<string>) { tag.Some? && tag.value != "" }

  /** One frame timer firing: one more execution, one interval consumed. */
  function Fired(t: TimerItem): TimerItem
  {
    t.(executed := t.executed + 1, elapsed := t.elapsed - t.interval)
  }

  /** The timer has run all of its (finitely many) executions. */
  predicate Finished(t: TimerItem) { t.times > 0 && t.executed >= t.times }

  /** A frame timer between frames: a whole interval of at least one frame,
      and less than one interval accumulated. */
  predicate FrameShape(t: TimerItem)
  {
    t.kind == Frame ==> t.interval >= 1.0 && 0.0 <= t.elapsed < t.interval
  }

  /** The scaled frame time of `_update`: the timer moves only when it is
      positive. */
  function ScaledDt(t: TimerItem, dt: real, timeScale: real): real
  {
    dt * t.scale * timeScale
  }

  /** What one `_update(dt)` does to one timer of a running manager; `None`
      when the timer is removed. A paused timer, or one whose scaled time is
      not positive, stays as it is; a pending delay only shrinks; a frame
      timer then counts the frame and fires when a whole interval has
      accumulated. A time timer past its delay is left as it is (see the
      model's notes). */
  function Advance(t: TimerItem, dt: real, timeScale: real): (r: Option<TimerItem>)
    ensures r.Some? ==>
      (r.value.id == t.id && r.value.tag == t.tag && r.value.kind == t.kind &&
       r.value.interval == t.interval && r.value.state == t.state)
    ensures FrameShape(t) && r.Some? ==> FrameShape(r.value)
    ensures r.Some? ==> r.value.executed <= t.executed + 1
    ensures t.state != Running || ScaledDt(t, dt, timeScale) <= 0.0 ==> r == Some(t)
    ensures t.state == Running && ScaledDt(t, dt, timeScale) > 0.0 && t.delay > 0.0 ==>
      r == Some(t.(delay := t.delay - (if t.kind == Time then ScaledDt(t, dt, timeScale) else 1.0)))
    ensures r.None? <==>
      (t.kind.Frame? && t.state == Running && ScaledDt(t, dt, timeScale) > 0.0 && t.delay <= 0.0 &&
       t.elapsed + 1.0 >= t.interval && Finished(Fired(t.(elapsed := t.elapsed + 1.0))))
  {
    if t.state != Running || ScaledDt(t, dt, timeScale) <= 0.0 then Some(t)
    else if t.delay > 0.0 then
      Some(t.(delay := t.delay - (if t.kind == Time then ScaledDt(t, dt, timeScale) else 1.0)))
    else if t.kind.Time? then Some(t)
    else
      var e := t.(elapsed := t.elapsed + 1.0);
      if e.elapsed < e.interval then Some(e)
      else if Finished(Fired(e)) then None
      else Some(Fired(e))
  }

  /** The timers once `_update` has handled the ids in `done`. */
  function AdvanceAll(timers: map<nat, TimerItem>, dt: real, timeScale: real, done: set<nat>): (r: map<nat, TimerItem>)
    ensures forall id | id in r :: id in timers
    ensures forall id | id in timers && id !in done :: id in r && r[id] == timers[id]
    ensures forall id | id in timers && id in done :: (id in r <==> Advance(timers[id], dt, timeScale).Some?)
  {
    map id | id in timers && !(id in done && Advance(timers[id], dt, timeScale).None?) ::
      if id in done then Advance(timers[id], dt, timeScale).value else timers[id]
  }

  /** `k` frames of `_update(dt)` on one timer; `None` once it is removed. */
  function Ticks(t: TimerItem, dt: real, timeScale: real, k: nat): Option<TimerItem>
  {
    if k == 0 then Some(t)
    else match Ticks(t, dt, timeScale, k - 1)
      case None => None
      case Some(u) => Advance(u, dt, timeScale)
  }

  /** A repeating frame timer with an interval of `n` frames, no delay left
      and nothing accumulated fires once every `n` frames: after `q * n + m`
      frames (`m < n`), counted by `k`, it has fired `q` more times and
      holds `m` frames. */
  lemma {:induction false} FrameTimerPeriod(t: TimerItem, dt: real, timeScale: real, n: nat, q: nat, m: nat, k: nat)
    requires t.kind == Frame && t.state == Running && t.scale == 1.0 && t.delay <= 0.0 && t.times <= 0
    requires n >= 1 && t.interval == n as real && t.elapsed == 0.0
    requires dt > 0.0 && timeScale > 0.0 && m < n && k == q * n + m
    ensures Ticks(t, dt, timeScale, k) == Some(t.(executed := t.executed + q, elapsed := m as real))
    decreases k
  {
    if m > 0 {
      FrameTimerPeriod(t, dt, timeScale, n, q, m - 1, k - 1);
      var prev := t.(executed := t.executed + q, elapsed := (m - 1) as real);
      FrameStep(prev, dt, timeScale);
      assert prev.elapsed + 1.0 == m as real;
    } else if q > 0 {
      assert k - 1 == (q - 1) * n + (n - 1);
      FrameTimerPeriod(t, dt, timeScale, n, q - 1, n - 1, k - 1);
      var prev := t.(executed := t.executed + (q - 1), elapsed := (n - 1) as real);
      FrameStep(prev, dt, timeScale);
      assert prev.elapsed + 1.0 == prev.interval;
    }
  }

  /** One frame of a running, undelayed frame timer that repeats forever:
      the frame is counted, and the timer fires once a whole interval has
      accumulated. */
  lemma FrameStep(u: TimerItem, dt: real, timeScale: real)
    requires u.kind == Frame && u.state == Running && u.scale == 1.0 && u.delay <= 0.0 && u.times <= 0
    requires dt > 0.0 && timeScale > 0.0
    ensures var e := u.(elapsed := u.elapsed + 1.0);
      Advance(u, dt, timeScale) == Some(if e.elapsed < e.interval then e else Fired(e))
  {
    assert ScaledDt(u, dt, timeScale) > 0.0 by {
      assert dt * timeScale > 0.0;
    }
  }

  class TimerMgr {
    var timers: map<nat, TimerItem>
    var nextId: nat
    var timeScale: real
    var isPaused: bool
    var tagMap: map<string, set<nat>>

    constructor ()
      ensures timers == map[] && tagMap == map[] && nextId == 1 && timeScale == 1.0 && !isPaused
      ensures Valid()
    {
      timers := map[];
      tagMap := map[];
      nextId := 1;
      timeScale := 1.0;
      isPaused := false;
    }

    /** Ids are below `nextId`; frame timers are between frames; the tag map
        holds, for each non-empty tag, exactly the ids of the live timers
        with that tag, and no empty group. */
    predicate Valid()
      reads this
    {
      nextId >= 1 && timeScale >= 0.0 &&
      (forall id | id in timers :: timers[id].id == id && 1 <= id < nextId && FrameShape(timers[id])) &&
      (forall tag | tag in tagMap :: tag != "" && tagMap[tag] != {} &&
        forall id | id in tagMap[tag] :: id in timers && timers[id].tag == Some(tag)) &&
      (forall id | id in timers && Tagged(timers[id].tag) ::
        timers[id].tag.value in tagMap && id in tagMap[timers[id].tag.value])
    }

    /** The tag map is fixed by the timers. */
    static lemma TagMapDetermined(m1: TimerMgr, m2: TimerMgr)
      requires m1.Valid() && m2.Valid() && m1.timers == m2.timers
      ensures m1.tagMap == m2.tagMap
    {
      forall tag | tag in m1.tagMap
        ensures tag in m2.tagMap && m1.tagMap[tag] == m2.tagMap[tag]
      {
        var id :| id in m1.tagMap[tag];
        assert m1.timers[id].tag == Some(tag);
      }
      forall tag | tag in m2.tagMap
        ensures tag in m1.tagMap
      {
        var id :| id in m2.tagMap[tag];
        assert m2.timers[id].tag == Some(tag);
      }
    }

    /** `_addToTagMap`: a fresh id joins its tag's group. */
    method AddToTagMap(id: nat, tag: Option<string>)
      modifies this`tagMap
      ensures !Tagged(tag) ==> tagMap == old(tagMap)
      ensures Tagged(tag) ==>
        tagMap == old(tagMap)[tag.value := (if tag.value in old(tagMap) then old(tagMap)[tag.value] else {}) + {id}]
    {
      if !Tagged(tag) {
        return;
      }
      var group := if tag.value in tagMap then tagMap[tag.value] else {};
      tagMap := tagMap[tag.value := group + {id}];
    }

    /** The shared body of `schedule` and `scheduleByFrame` once the
        arguments are accepted. */
    method Add(t: TimerItem) returns (id: nat)
      requires Valid() && t.id == nextId && FrameShape(t)
      modifies this`timers, this`nextId, this`tagMap
      ensures Valid()
      ensures id == old(nextId) && nextId == old(nextId) + 1 && id !in old(timers)
      ensures timers == old(timers)[id := t]
    {
      id := nextId;
      nextId := nextId + 1;
      timers := timers[id := t];
      AddToTagMap(id, t.tag);
      forall tag | tag in tagMap
        ensures tag != "" && tagMap[tag] != {}
        ensures forall i | i in tagMap[tag] :: i in timers && timers[i].tag == Some(tag)
      {
        if Tagged(t.tag) && tag == t.tag.value {
          assert tag != "";
        } else {
          assert tagMap[tag] == old(tagMap)[tag];
        }
      }
    }

    /** `schedule`: 0 and nothing added for a negative interval or no
        callback; otherwise the next id, for a running time timer with
        nothing elapsed and an interval of at least `MinInterval`. */
    method Schedule(interval: real, callback: Option<nat>, times: int, delay: real, scale: real, tag: Option<string>)
      returns (id: nat)
      requires Valid()
      modifies this`timers, this`nextId, this`tagMap
      ensures Valid()
      ensures interval < 0.0 || callback.None? ==>
        id == 0 && timers == old(timers) && nextId == old(nextId) && tagMap == old(tagMap)
      ensures interval >= 0.0 && callback.Some? ==>
        (id == old(nextId) && id >= 1 && nextId == id + 1 && id !in old(timers) &&
         timers == old(timers)[id := TimerItem(id, Time, if interval > MinInterval then interval else MinInterval,
                                               times, 0.0, 0, callback.value, Running, delay, scale, tag)])
    {
      if interval < 0.0 || callback.None? {
        return 0;
      }
      var t := TimerItem(nextId, Time, if interval > MinInterval then interval else MinInterval,
                         times, 0.0, 0, callback.value, Running, delay, scale, tag);
      id := Add(t);
    }

    /** `scheduleByFrame`: 0 and nothing added for an interval below one
        frame or no callback; otherwise the next id, for a running frame
        timer of the whole number of frames in `interval`. */
    method ScheduleByFrame(interval: real, callback: Option<nat>, times: int, delay: real, tag: Option<string>)
      returns (id: nat)
      requires Valid()
      modifies this`timers, this`nextId, this`tagMap
      ensures Valid()
      ensures interval < 1.0 || callback.None? ==>
        id == 0 && timers == old(timers) && nextId == old(nextId) && tagMap == old(tagMap)
      ensures interval >= 1.0 && callback.Some? ==>
        (id == old(nextId) && id >= 1 && nextId == id + 1 && id !in old(timers) &&
         timers == old(timers)[id := TimerItem(id, Frame, interval.Floor as real, times, 0.0, 0,
                                               callback.value, Running, delay, 1.0, tag)] &&
         timers[id].interval <= interval < timers[id].interval + 1.0)
    {
      if interval < 1.0 || callback.None? {
        return 0;
      }
      var t := TimerItem(nextId, Frame, interval.Floor as real, times, 0.0, 0, callback.value, Running, delay, 1.0, tag);
      id := Add(t);
    }

    /** `scheduleOnce`: a single run after `delay` seconds. */
    method ScheduleOnce(delay: real, callback: Option<nat>) returns (id: nat)
      requires Valid()
      modifies this`timers, this`nextId, this`tagMap
      ensures Valid()
      ensures callback.None? ==> id == 0 && timers == old(timers) && nextId == old(nextId)
      ensures callback.Some? ==>
        (id == old(nextId) && nextId == id + 1 &&
         timers == old(timers)[id := TimerItem(id, Time, MinInterval, 1, 0.0, 0, callback.value, Running, delay, 1.0, None)])
    {
      id := Schedule(MinInterval, callback, 1, delay, 1.0, None);
    }

    /** `remove`: the timer leaves the timers and its tag's group, and the
        group goes once empty; nothing for an unknown id. */
    method Remove(id: nat)
      requires Valid()
      modifies this`timers, this`tagMap
      ensures Valid()
      ensures timers == old(timers) - {id}
      ensures id !in old(timers) || !Tagged(old(timers)[id].tag) ==> tagMap == old(tagMap)
      ensures id in old(timers) && Tagged(old(timers)[id].tag) ==>
        var tag := old(timers)[id].tag.value;
        tagMap == if old(tagMap)[tag] == {id} then old(tagMap) - {tag} else old(tagMap)[tag := old(tagMap)[tag] - {id}]
    {
      if id !in timers {
        return;
      }
      var tag := timers[id].tag;
      if Tagged(tag) && tag.value in tagMap {
        var group := tagMap[tag.value] - {id};
        if group == {} {
          tagMap := tagMap - {tag.value};
        } else {
          tagMap := tagMap[tag.value := group];
        }
      }
      timers := timers - {id};
    }

    /** `removeByTag`: every timer of the tag goes, and the tag with them;
        nothing for an unknown tag (and so for the empty tag, which no group
        has). */
    method RemoveByTag(tag: string)
      requires Valid()
      modifies this`timers, this`tagMap
      ensures Valid()
      ensures tag !in old(tagMap) ==> timers == old(timers) && tagMap == old(tagMap)
      ensures tag in old(tagMap) ==> timers == old(timers) - old(tagMap)[tag] && tag !in tagMap
      ensures forall id | id in old(timers) :: (id in timers <==> tag == "" || old(timers)[id].tag != Some(tag))
    {
      if tag !in tagMap {
        forall id | id in old(timers)
          ensures tag == "" || old(timers)[id].tag != Some(tag)
        {
          if tag != "" && old(timers)[id].tag == Some(tag) {
            assert Tagged(old(timers)[id].tag);
          }
        }
        return;
      }
      RemoveGroup(tag);
      tagMap := tagMap - {tag};
      forall id | id in old(timers)
        ensures id in timers <==> tag == "" || old(timers)[id].tag != Some(tag)
      {
        if old(timers)[id].tag == Some(tag) {
          assert Tagged(old(timers)[id].tag);
        }
      }
    }

    /** `removeByTag`'s loop: removes the timers of a known tag one by one,
        which drops the tag once its last timer goes. */
    method RemoveGroup(tag: string)
      requires Valid() && tag in tagMap
      modifies this`timers, this`tagMap
      ensures Valid()
      ensures timers == old(timers) - old(tagMap)[tag] && tag !in tagMap
    {
      var ids := tagMap[tag];
      ghost var done: set<nat> := {};
      while ids != {}
        invariant Valid() && ids !! done && ids + done == old(tagMap)[tag]
        invariant timers == old(timers) - done
        invariant ids != {} ==> tag in tagMap && tagMap[tag] == ids
        invariant ids == {} ==> tag !in tagMap
        decreases ids
      {
        var id :| id in ids;
        assert timers[id].tag == Some(tag);
        Remove(id);
        assert old(timers) - done - {id} == old(timers) - (done + {id});
        ids := ids - {id};
        done := done + {id};
      }
    }

    /** `pause`: only the timer's state changes. */
    method Pause(id: nat)
      requires Valid()
      modifies this`timers
      ensures Valid()
      ensures timers == if id in old(timers) then old(timers)[id := old(timers)[id].(state := Paused)] else old(timers)
    {
      if id in timers {
        timers := timers[id := timers[id].(state := Paused)];
      }
    }

    /** `resume`: only the timer's state changes. */
    method Resume(id: nat)
      requires Valid()
      modifies this`timers
      ensures Valid()
      ensures timers == if id in old(timers) then old(timers)[id := old(timers)[id].(state := Running)] else old(timers)
    {
      if id in timers {
        timers := timers[id := timers[id].(state := Running)];
      }
    }

    /** `pauseAll` and `resumeAll`: the manager-wide switch. */
    method SetPaused(paused: bool)
      modifies this`isPaused
      ensures isPaused == paused
    {
      isPaused := paused;
    }

    /** `setTimeScale`: negative scales become 0. */
    method SetTimeScale(scale: real)
      requires Valid()
      modifies this`timeScale
      ensures Valid()
      ensures timeScale >= 0.0 && (scale >= 0.0 ==> timeScale == scale) && (scale < 0.0 ==> timeScale == 0.0)
    {
      timeScale := if scale > 0.0 then scale else 0.0;
    }

    function GetTimeScale(): (r: real)
      requires Valid()
      reads this
      ensures r >= 0.0 && r == timeScale
    {
      timeScale
    }

    /** `getTimerInfo`: `None` for an unknown id. */
    function GetTimerInfo(id: nat): (r: Option<TimerItem>)
      requires Valid()
      reads this
      ensures r.None? <==> id !in timers
      ensures r.Some? ==> r.value == timers[id] && r.value.id == id
    {
      if id in timers then Some(timers[id]) else None
    }

    /** `getActiveTimerCount`. */
    function GetActiveTimerCount(): (r: nat)
      reads this
      ensures r == |timers.Keys|
    {
      |timers|
    }

    /** `clear` as written: the timers go but the tag map keeps its groups,
        so a manager with a tagged timer no longer keeps its invariant. */
    method ClearAsWritten()
      requires Valid()
      modifies this`timers
      ensures timers == map[] && tagMap == old(tagMap)
      ensures old(tagMap) != map[] ==> !Valid()
    {
      timers := map[];
      if tagMap != map[] {
        var tag :| tag in tagMap;
        var id :| id in tagMap[tag];
        assert id !in timers;
      }
    }

    /** `clear` with its tag groups forgotten as well. */
    method Clear()
      requires Valid()
      modifies this`timers, this`tagMap
      ensures timers == map[] && tagMap == map[] && Valid()
    {
      timers := map[];
      tagMap := map[];
    }

    /** The firing loop of `_update` for a frame timer that has just counted
        a frame: it fires when a whole interval has accumulated, and stops
        after one firing because less than an interval is then left. */
    static method FireFrame(e: TimerItem) returns (r: TimerItem, removed: bool)
      requires e.kind == Frame && e.interval >= 1.0 && 0.0 <= e.elapsed < e.interval + 1.0
      ensures removed <==> (e.elapsed >= e.interval && Finished(Fired(e)))
      ensures !removed ==> r == if e.elapsed >= e.interval then Fired(e) else e
    {
      r := e;
      removed := false;
      while r.elapsed >= r.interval
        invariant r == e || (r == Fired(e) && e.elapsed >= e.interval)
        invariant r == e ==> !removed
        invariant r == Fired(e) ==> (removed <==> Finished(r))
        decreases e.executed + 1 - r.executed
      {
        r := Fired(r);
        if Finished(r) {
          removed := true;
          break;
        }
        if r.times == 1 {
          break;
        }
      }
    }

    /** One timer's turn in `_update(dt)`. */
    method Tick(id: nat, dt: real)
      requires Valid() && id in timers
      modifies this`timers, this`tagMap
      ensures Valid()
      ensures match Advance(old(timers)[id], dt, timeScale)
        case None => timers == old(timers) - {id}
        case Some(u) => timers == old(timers)[id := u]
    {
      var timer := timers[id];
      if timer.state == Running && ScaledDt(timer, dt, timeScale) > 0.0 {
        if timer.delay > 0.0 {
          timer := timer.(delay := timer.delay - (if timer.kind == Time then ScaledDt(timer, dt, timeScale) else 1.0));
          timers := timers[id := timer];
        } else if timer.kind == Frame {
          var r, removed := FireFrame(timer.(elapsed := timer.elapsed + 1.0));
          if removed {
            Remove(id);
          } else {
            timers := timers[id := r];
          }
        }
      }
    }

    /** `_update(dt)`: nothing while paused or for a frame time that is not
        positive; otherwise every timer advances by `Advance`, and the ones
        that finish leave the timers and their tag groups. */
    method Update(dt: real)
      requires Valid()
      modifies this`timers, this`tagMap
      ensures Valid()
      ensures isPaused || dt <= 0.0 ==> timers == old(timers) && tagMap == old(tagMap)
      ensures !isPaused && dt > 0.0 ==> timers == AdvanceAll(old(timers), dt, timeScale, old(timers).Keys)
    {
      if isPaused || dt <= 0.0 {
        return;
      }
      var ids := timers.Keys;
      ghost var done: set<nat> := {};
      while ids != {}
        invariant Valid() && ids !! done && ids + done == old(timers).Keys
        invariant timers == AdvanceAll(old(timers), dt, timeScale, done)
        decreases ids
      {
        var id :| id in ids;
        AdvanceAllStep(old(timers), dt, timeScale, done, id);
        Tick(id, dt);
        ids := ids - {id};
        done := done + {id};
      }
    }
  }

  /** Handling one more id in `_update`. */
  lemma AdvanceAllStep(timers: map<nat, TimerItem>, dt: real, timeScale: real, done: set<nat>, id: nat)
    requires id in timers && id !in done
    ensures var before := AdvanceAll(timers, dt, timeScale, done);
      id in before && before[id] == timers[id] &&
      match Advance(timers[id], dt, timeScale)
        case None => AdvanceAll(timers, dt, timeScale, done + {id}) == before - {id}
        case Some(u) => AdvanceAll(timers, dt, timeScale, done + {id}) == before[id := u]
  {
  }
}

=== FILE: unity_level_datas.dfy ===
/** The records of the Unity client's level catalogs (unity-level/LevelDatas.cs):
    a catalog (`MapData`) lists stage descriptors, a stage file (`StageData`)
    holds the level records of one stage, and a level record (`LevelData`) is
    opaque to stage resolution except for its tube count. */
module UnityLevelDatas {
  import opened Common

  /** One entry of a catalog: the stage's id, how many levels it holds and
      where its stage file can be downloaded. */
  datatype StageDesc = StageDesc(stageId: string, levelCount: int, url: string)

  /** A versioned catalog of stages. */
  datatype MapData = MapData(updateAt: int, stages: seq<StageDesc>)

  /** The remote-config entry that names the newest catalog of a track. */
  datatype MapDesc = MapDesc(updateAt: int, url: string, startLevel: int)

  /** One level: its puzzle, its tube layout and solution steps (each a list of
      integer arrays, possibly missing), and its kind (0 normal, 1 question mark,
      2 hard, 3 special). */
  datatype LevelData = LevelData(
    puzzleId: string,
    tubes: Option<seq<seq<int>>>,
    steps: Option<seq<seq<int>>>,
    levelType: int)

  /** The contents of one stage file. */
  datatype StageData = StageData(stageId: string, levels: seq<LevelData>)

  /** The remote rule that places special levels along the main track: when
      enabled, one special level every `offset` main levels after `start`. */
  datatype SpecialLevelRuleConfig = SpecialLevelRuleConfig(enable: bool, start: int, offset: int)

  /** `StageData.GetData`: the level at `index`, falling back to the first level
      when the index is out of range; `None` when the stage has no level at all
      (the source's list access then throws). */
  function GetData(stage: StageData, index: int): (r: Option<LevelData>)
    ensures r.None? <==> |stage.levels| == 0
    ensures 0 <= index < |stage.levels| ==> r == Some(stage.levels[index])
    ensures (index < 0 || index >= |stage.levels|) && |stage.levels| > 0 ==> r == Some(stage.levels[0])
    ensures r.Some? ==> r.value in stage.levels
  {
    if |stage.levels| == 0 then None
    else if |stage.levels| <= index || index < 0 then Some(stage.levels[0])
    else Some(stage.levels[index])
  }

  /** A tube array is counted when its first cell is non-zero. */
  predicate Counted(tube: seq<int>) { |tube| > 0 && tube[0] != 0 }

  /** The total length of the counted tube arrays. */
  function TubeTotal(tubes: seq<seq<int>>): int
  {
    if tubes == [] then 0
    else TubeTotal(tubes[..|tubes| - 1]) + (if Counted(tubes[|tubes| - 1]) then |tubes[|tubes| - 1]| else 0)
  }

  /** The total length of all tube arrays. */
  function AllCells(tubes: seq<seq<int>>): nat
  {
    if tubes == [] then 0 else AllCells(tubes[..|tubes| - 1]) + |tubes[|tubes| - 1]|
  }

  /** The tube count lies between zero and the number of cells of all arrays. */
  lemma {:induction false} TubeTotalBounds(tubes: seq<seq<int>>)
    ensures 0 <= TubeTotal(tubes) <= AllCells(tubes)
  {
    if tubes != [] {
      TubeTotalBounds(tubes[..|tubes| - 1]);
    }
  }

  /** Arrays that all start with a non-zero cell are counted in full. */
  lemma {:induction false} TubeTotalAllCounted(tubes: seq<seq<int>>)
    requires forall i :: 0 <= i < |tubes| ==> Counted(tubes[i])
    ensures TubeTotal(tubes) == AllCells(tubes)
  {
    if tubes != [] {
      TubeTotalAllCounted(tubes[..|tubes| - 1]);
    }
  }

  /** Arrays that start with a zero add nothing. */
  lemma {:induction false} TubeTotalSkipsZeroHeads(tubes: seq<seq<int>>)
    requires forall i :: 0 <= i < |tubes| ==> |tubes[i]| > 0 && tubes[i][0] == 0
    ensures TubeTotal(tubes) == 0
  {
    if tubes != [] {
      TubeTotalSkipsZeroHeads(tubes[..|tubes| - 1]);
    }
  }

  /** `LevelData.GetTubeCount`: 0 without tubes, otherwise the running total
      over the tube arrays; `None` when it meets an empty array (the source's
      `tubeArr[0]` then throws). */
  method GetTubeCount(level: LevelData) returns (r: Option<int>)
    ensures level.tubes.None? ==> r == Some(0)
    ensures level.tubes.Some? ==>
      (r.None? <==> exists i :: 0 <= i < |level.tubes.value| && |level.tubes.value[i]| == 0)
    ensures level.tubes.Some? && r.Some? ==> r.value == TubeTotal(level.tubes.value)
    ensures r.Some? ==> r.value >= 0
  {
    if level.tubes.None? {
      return Some(0);
    }
    var tubes := level.tubes.value;
    var total := 0;
    var i := 0;
    while i < |tubes|
      invariant 0 <= i <= |tubes|
      invariant total == TubeTotal(tubes[..i])
      invariant forall j :: 0 <= j < i ==> |tubes[j]| > 0
    {
      if |tubes[i]| == 0 {
        return None;
      }
      assert tubes[..i + 1][..i] == tubes[..i];
      if tubes[i][0] != 0 {
        total := total + |tubes[i]|;
      }
      i := i + 1;
    }
    assert tubes[..i] == tubes;
    TubeTotalBounds(tubes);
    r := Some(total);
  }
}

=== FILE: unity_level_handlers.dfy ===
/** The two level tracks of the Unity client (unity-level/MainLevelHandler.cs,
    unity-level/SpecialLevelHandler.cs) and the part of the level manager
    (unity-level/BaseLevelMgr.cs) that loads a track's current stage: choosing
    the active catalog, resolving the page, loading the stage file from the
    bundle or from disk and requesting downloads.

    Files bundled with the game are a `Package`, the device's persistent files
    a `Disk`, and a download is a request recorded by a `Downloader`; its
    completion is a separate call made later with the updated `Disk`. */
module UnityLevelHandlers {
  import opened Common
  import opened UnityLevelDatas
  import opened UnityLevelModel

  const ConfigPath: string := "Assets/NSGame/Bundles/Configs/Level/"
  const SaveDicName: string := "cache"
  const MapDataName: string := "mapdata"

  /** How far behind the player's level the main track keeps levels cached. */
  const LevelDistance: int := 5

  const MainTag: string := "MainLevel"
  const MainPrefix: string := ""
  const SpecialTag: string := "SpecialLevel"
  const SpecialPrefix: string := "s_"

  /** The configuration files bundled with the game, by asset path. */
  datatype Package = Package(maps: map<string, MapData>, stages: map<string, StageData>)

  /** The files under the device's persistent directory `root`, by path. */
  datatype Disk = Disk(root: string, maps: map<string, MapData>, stages: map<string, StageData>)

  datatype DownloadKind = MapFile | StageFile

  /** A download of `url` into `path`, whose completion is handled for the track `tag`. */
  datatype DownloadRequest = DownloadRequest(kind: DownloadKind, tag: string, url: string, path: string)

  /** The download service: it records what it was asked to fetch. */
  class Downloader {
    var requests: seq<DownloadRequest>

    constructor ()
      ensures requests == []
    {
      requests := [];
    }

    method DownloadFile(request: DownloadRequest)
      modifies this
      ensures requests == old(requests) + [request]
    {
      requests := requests + [request];
    }
  }

  function AsSeq<T>(o: Option<T>): (s: seq<T>)
    ensures o.None? ==> s == []
    ensures o.Some? ==> s == [o.value]
  {
    if o.Some? then [o.value] else []
  }

  /** The bundled file holding the catalog or stage `name` of the track with `prefix`. */
  function BundledAssetPath(prefix: string, name: string): string
  {
    PathCombine(ConfigPath, prefix + name) + ".json"
  }

  /** The directory the downloaded files of every track are saved under. */
  function SaveDirectory(root: string): string
  {
    PathCombine(root, SaveDicName)
  }

  /** The saved catalog file of the track with `prefix`. */
  function SavedMapPath(savePath: string, prefix: string): string
  {
    PathCombine(savePath, prefix + MapDataName)
  }

  /** The stage a load from the bundle leaves current: the bundled file of the
      current stage of the default catalog, or the previous stage when that
      stage or its file does not exist (the failed load is dropped). */
  function BundledStage(st: ModelState, prefix: string, pkg: Package): (r: Option<StageData>)
    ensures r == st.curStage || (r.Some? && r.value in pkg.stages.Values)
  {
    if st.defaultMap.Some? && 0 <= st.placed.index < |st.defaultMap.value.stages| then
      var path := BundledAssetPath(prefix, st.defaultMap.value.stages[st.placed.index].stageId);
      if path in pkg.stages then Some(pkg.stages[path]) else st.curStage
    else st.curStage
  }

  /** The saved file of the current stage of the saved catalog. */
  function SavedStageFile(st: ModelState): string
    requires st.saveMap.Some? && 0 <= st.placed.index < |st.saveMap.value.stages|
  {
    SaveStagePath(st.savePath, st.saveMap.value.updateAt, st.saveMap.value.stages[st.placed.index].stageId)
  }

  /** What `InitStage` does to a track's level state: the new state, the
      download it requests, and whether it goes on to `InitLevels` (it stops
      where the source throws). */
  datatype StageLoad = StageLoad(state: ModelState, download: Option<DownloadRequest>, initLevels: bool)

  /** `BaseLevelMgr.InitStage` on a snapshot: without a saved catalog, or with
      one older than the bundled catalog, the page is resolved on the bundled
      catalog and its stage loaded from the bundle; otherwise the page is
      resolved on the saved catalog and its stage read from disk, or, when the
      file is missing, downloaded while the bundled catalog is used meanwhile. */
  function InitStagePlan(st: ModelState, level: int, tag: string, prefix: string, pkg: Package, disk: Disk): (r: StageLoad)
    ensures r.state.defaultMap == st.defaultMap && r.state.saveMap == st.saveMap && r.state.savePath == st.savePath
  {
    if st.defaultMap.None? then StageLoad(st, None, false)
    else if UsesDefaultCatalog(st.saveMap, st.defaultMap.value) then
      var st1 := st.(placed := AfterCompute(st.defaultMap, level, st.placed));
      if Resolve(st.defaultMap.value.stages, level).None? then StageLoad(st1, None, false)
      else StageLoad(st1.(curStage := BundledStage(st1, prefix, pkg)), None, true)
    else
      var st1 := st.(placed := AfterCompute(st.saveMap, level, st.placed));
      if Resolve(st.saveMap.value.stages, level).None? then StageLoad(st1, None, false)
      else
        var path := SavedStageFile(st1);
        if path in disk.stages then StageLoad(st1.(curStage := Some(disk.stages[path])), None, true)
        else
          var request := DownloadRequest(StageFile, tag, st.saveMap.value.stages[st1.placed.index].url, path);
          var st2 := st1.(placed := AfterCompute(st.defaultMap, level, st1.placed));
          if Resolve(st.defaultMap.value.stages, level).None? then StageLoad(st2, Some(request), false)
          else StageLoad(st2.(curStage := BundledStage(st2, prefix, pkg)), Some(request), true)
  }

  /** With no saved catalog or an older one, `InitStage` resolves on the
      bundled catalog, loads the bundled stage and requests nothing. */
  lemma InitStageUsesBundle(st: ModelState, level: int, tag: string, prefix: string, pkg: Package, disk: Disk)
    requires st.defaultMap.Some? && UsesDefaultCatalog(st.saveMap, st.defaultMap.value)
    requires Resolve(st.defaultMap.value.stages, level).Some?
    ensures var r := InitStagePlan(st, level, tag, prefix, pkg, disk);
      r.state.placed == Resolve(st.defaultMap.value.stages, level).value &&
      r.state.curStage == BundledStage(r.state, prefix, pkg) &&
      r.download.None? && r.initLevels
  {
  }

  /** With a saved catalog at least as new as the bundled one whose stage file is
      on disk, `InitStage` resolves on the saved catalog and loads that file. */
  lemma InitStageUsesSavedFile(st: ModelState, level: int, tag: string, prefix: string, pkg: Package, disk: Disk)
    requires st.defaultMap.Some? && !UsesDefaultCatalog(st.saveMap, st.defaultMap.value)
    requires Resolve(st.saveMap.value.stages, level).Some?
    requires SavedStageFile(st.(placed := Resolve(st.saveMap.value.stages, level).value)) in disk.stages
    ensures var r := InitStagePlan(st, level, tag, prefix, pkg, disk);
      r.state.placed == Resolve(st.saveMap.value.stages, level).value &&
      r.state.curStage == Some(disk.stages[SavedStageFile(r.state)]) &&
      r.download.None? && r.initLevels
  {
  }

  /** When the saved stage file is missing, `InitStage` requests exactly that
      file from the saved catalog's url and falls back to the bundled catalog. */
  lemma InitStageDownloadsMissingFile(st: ModelState, level: int, tag: string, prefix: string, pkg: Package, disk: Disk)
    requires st.defaultMap.Some? && !UsesDefaultCatalog(st.saveMap, st.defaultMap.value)
    requires Resolve(st.saveMap.value.stages, level).Some?
    requires SavedStageFile(st.(placed := Resolve(st.saveMap.value.stages, level).value)) !in disk.stages
    ensures var saved := Resolve(st.saveMap.value.stages, level).value;
      var r := InitStagePlan(st, level, tag, prefix, pkg, disk);
      r.download == Some(DownloadRequest(StageFile, tag, st.saveMap.value.stages[saved.index].url,
                                         SavedStageFile(st.(placed := saved)))) &&
      r.state.placed == AfterCompute(st.defaultMap, level, saved) &&
      (r.initLevels <==> Resolve(st.defaultMap.value.stages, level).Some?)
  {
  }

  /** `InitStage` never touches the catalogs or the save directory, and a
      download is only ever requested for a stage while the page in use comes
      from the bundled catalog. */
  lemma InitStageDownloadImpliesBundle(st: ModelState, level: int, tag: string, prefix: string, pkg: Package, disk: Disk)
    requires InitStagePlan(st, level, tag, prefix, pkg, disk).download.Some?
    ensures var r := InitStagePlan(st, level, tag, prefix, pkg, disk);
      st.defaultMap.Some? && st.saveMap.Some? &&
      r.download.value.kind == StageFile && r.download.value.tag == tag &&
      exists prev :: r.state.placed == AfterCompute(st.defaultMap, level, prev)
  {
    var r := InitStagePlan(st, level, tag, prefix, pkg, disk);
    var st1 := st.(placed := AfterCompute(st.saveMap, level, st.placed));
    assert r.state.placed == AfterCompute(st.defaultMap, level, st1.placed);
  }

  /** A step of a track: its new snapshot and the downloads it requested. */
  datatype Step<S> = Step(state: S, requests: seq<DownloadRequest>)

  /** The lowest level the main track keeps cached: `LevelDistance` below the
      player's level, but never below 1. */
  function FirstLevelOf(level: int): (r: int)
    ensures r >= 1 && r >= level - LevelDistance
    ensures r == 1 || r == level - LevelDistance
  {
    if level - LevelDistance < 1 then 1 else level - LevelDistance
  }

  /** A level lies in the window `InitLevels` fills: on the page starting at
      `start` and holding `count` levels, and not below `first`. */
  predicate InWindow(k: int, count: int, start: int, first: int)
  {
    first <= k && start <= k < start + count
  }

  /** The integers from `lo` up to, not including, `hi`. */
  function IntRange(lo: int, hi: int): (r: set<int>)
    ensures forall k :: k in r <==> lo <= k < hi
    decreases hi - lo
  {
    if lo >= hi then {} else {lo} + IntRange(lo + 1, hi)
  }

  /** The main track's cache after `InitLevels`: every level of the loaded
      stage from `first` on, under its level number, added to what was cached. */
  function Windowed(cache: map<int, LevelData>, levels: seq<LevelData>, start: int, first: int): map<int, LevelData>
  {
    map k | k in cache.Keys + IntRange(if start < first then first else start, start + |levels|) ::
      if InWindow(k, |levels|, start, first) then levels[k - start] else cache[k]
  }

  /** `InitLevels` adds the window and keeps every other cached level. */
  lemma WindowedContents(cache: map<int, LevelData>, levels: seq<LevelData>, start: int, first: int, k: int)
    ensures k in Windowed(cache, levels, start, first) <==> k in cache || InWindow(k, |levels|, start, first)
    ensures InWindow(k, |levels|, start, first) ==> Windowed(cache, levels, start, first)[k] == levels[k - start]
    ensures k in cache && !InWindow(k, |levels|, start, first) ==> Windowed(cache, levels, start, first)[k] == cache[k]
  {
  }

  /** A snapshot of the main track: its level state, cache, initialisation flag
      and the persisted player level. */
  datatype MainState = MainState(model: ModelState, cache: map<int, LevelData>, isInited: bool, stored: Option<int>)

  /** `InitStage` on the main track, followed by its `InitLevels`. */
  function MainInitStage(s: MainState, level: int, pkg: Package, disk: Disk): (r: Step<MainState>)
    ensures r.state.model == InitStagePlan(s.model, level, MainTag, MainPrefix, pkg, disk).state
    ensures r.state.stored == s.stored
    ensures s.cache.Keys <= r.state.cache.Keys
  {
    var plan := InitStagePlan(s.model, level, MainTag, MainPrefix, pkg, disk);
    var s1 := s.(model := plan.state);
    if plan.initLevels && plan.state.curStage.Some? then
      var cache := Windowed(s.cache, plan.state.curStage.value.levels, plan.state.placed.start, FirstLevelOf(s.stored.GetOr(1)));
      Step(s1.(cache := cache, isInited := true), AsSeq(plan.download))
    else Step(s1, AsSeq(plan.download))
  }

  /** `MainLevelHandler.UpdateLevels`: the level `LevelDistance` behind is
      dropped, and the next page is loaded once the look-ahead passes the
      current page's end. */
  function MainUpdateLevels(s: MainState, level: int, pkg: Package, disk: Disk): (r: Step<MainState>)
    ensures s.cache.Keys - {level - LevelDistance} <= r.state.cache.Keys
    ensures level + LevelDistance <= s.model.placed.end ==> r.state.model == s.model && r.requests == []
    ensures level + LevelDistance > s.model.placed.end ==>
      r.state.model == InitStagePlan(s.model, s.model.placed.end + 1, MainTag, MainPrefix, pkg, disk).state
  {
    var s1 := s.(cache := s.cache - {level - LevelDistance});
    if level + LevelDistance > s.model.placed.end then MainInitStage(s1, s.model.placed.end + 1, pkg, disk)
    else Step(s1, [])
  }

  /** `MainLevelHandler.GetLevelData`: on a cache miss the stage holding the
      level is loaded first; then the cache is updated for the level and the
      cached record returned (`None` where the source's lookup throws). */
  function MainGetLevelData(s: MainState, level: int, pkg: Package, disk: Disk): (r: (Step<MainState>, Option<LevelData>))
    ensures r.1.Some? <==> level in r.0.state.cache
    ensures r.1.Some? ==> r.1.value == r.0.state.cache[level]
    ensures level in s.cache ==>
      r.1.Some? && (r.0.state.model.placed == s.model.placed || level + LevelDistance > s.model.placed.end)
  {
    var first := if level in s.cache then Step(s, []) else MainInitStage(s, level, pkg, disk);
    var second := MainUpdateLevels(first.state, level, pkg, disk);
    var cache := second.state.cache;
    (Step(second.state, first.requests + second.requests), if level in cache then Some(cache[level]) else None)
  }

  /** On a miss the stage holding the level is loaded: when the load reaches
      `InitLevels` with a stage whose cached window covers the level, the
      level is found, and without a look-ahead page it is the stage's record
      at the level's offset. */
  lemma GetLevelDataMissFindsLevel(s: MainState, level: int, pkg: Package, disk: Disk)
    requires level !in s.cache
    requires var plan := InitStagePlan(s.model, level, MainTag, MainPrefix, pkg, disk);
      plan.initLevels && plan.state.curStage.Some? &&
      InWindow(level, |plan.state.curStage.value.levels|, plan.state.placed.start, FirstLevelOf(s.stored.GetOr(1)))
    ensures MainGetLevelData(s, level, pkg, disk).1.Some?
    ensures var plan := InitStagePlan(s.model, level, MainTag, MainPrefix, pkg, disk);
      level + LevelDistance <= plan.state.placed.end ==>
        MainGetLevelData(s, level, pkg, disk).1 == Some(plan.state.curStage.value.levels[level - plan.state.placed.start])
  {
    var plan := InitStagePlan(s.model, level, MainTag, MainPrefix, pkg, disk);
    var levels := plan.state.curStage.value.levels;
    WindowedContents(s.cache, levels, plan.state.placed.start, FirstLevelOf(s.stored.GetOr(1)), level);
    assert level != level - LevelDistance;
  }

  /** A snapshot of the special track: its level state, the loaded stage's
      level count, the initialisation flag and the persisted high-water mark. */
  datatype SpecialState = SpecialState(model: ModelState, levelCount: int, isInited: bool, passed: Option<int>)

  /** `InitStage` on the special track, followed by its `InitLevels` (which
      fails without a loaded stage). */
  function SpecialInitStage(s: SpecialState, level: int, pkg: Package, disk: Disk): (r: Step<SpecialState>)
    ensures r.state.passed == s.passed
  {
    var plan := InitStagePlan(s.model, level, SpecialTag, SpecialPrefix, pkg, disk);
    var s1 := s.(model := plan.state);
    if plan.initLevels && plan.state.curStage.Some? then
      Step(s1.(levelCount := |plan.state.curStage.value.levels|, isInited := true), AsSeq(plan.download))
    else Step(s1, AsSeq(plan.download))
  }

  /** `SpecialLevelHandler.Level`: the special level unlocked at `mainLevel`,
      one every `offset` main levels after `start` (C# truncating division).
      `None` when the offset is 0, where the division throws. */
  function SpecialLevel(rule: SpecialLevelRuleConfig, mainLevel: int): (r: Option<int>)
    ensures r.None? <==> rule.offset == 0
  {
    if rule.offset == 0 then None
    else Some(TruncDiv(mainLevel - 1 - rule.start, rule.offset) + 1)
  }

  /** The outcome of `IsEnterSpecifiedLevel`. The special level is read
      before the rule's switch is tested, so an offset of 0 throws (`None`)
      even when the rule is off. Otherwise the player may enter when the rule
      is on, the main level is past the start and exactly on an unlock step,
      and the special level is both new and available in the loaded stage. */
  function Enter(rule: SpecialLevelRuleConfig, mainLevel: int, passed: int, levelCount: int): (r: Option<bool>)
    ensures r.None? <==> rule.offset == 0
    ensures r == Some(true) ==>
      rule.enable && mainLevel > rule.start && passed < SpecialLevel(rule, mainLevel).value <= levelCount
  {
    match SpecialLevel(rule, mainLevel)
    case None => None
    case Some(specified) =>
      Some(rule.enable && mainLevel > rule.start && passed < specified &&
           TruncRem(mainLevel - 1 - rule.start, rule.offset) == 0 && specified <= levelCount)
  }

  /** A switched-off rule whose offset is 0 still throws. */
  lemma DisabledRuleWithoutOffsetThrows(start: int, mainLevel: int, passed: int, levelCount: int)
    ensures Enter(SpecialLevelRuleConfig(false, start, 0), mainLevel, passed, levelCount).None?
    ensures SpecialLevel(SpecialLevelRuleConfig(false, start, 0), mainLevel).None?
  {
  }

  /** With a positive offset, the special level counts the unlock steps
      passed, and a hit happens exactly on the main level of its step. */
  lemma SpecialLevelSchedule(rule: SpecialLevelRuleConfig, mainLevel: int, passed: int, levelCount: int)
    requires rule.offset > 0 && mainLevel > rule.start
    ensures SpecialLevel(rule, mainLevel) == Some((mainLevel - 1 - rule.start) / rule.offset + 1)
    ensures SpecialLevel(rule, mainLevel).value >= 1
    ensures Enter(rule, mainLevel, passed, levelCount) == Some(true) ==>
      mainLevel == rule.start + 1 + (SpecialLevel(rule, mainLevel).value - 1) * rule.offset
  {
    var a := mainLevel - 1 - rule.start;
    assert a == rule.offset * (a / rule.offset) + a % rule.offset;
  }

  /** A granted special level is above the previous high-water mark. */
  lemma EnterRaisesMark(rule: SpecialLevelRuleConfig, mainLevel: int, passed: int, levelCount: int)
    requires Enter(rule, mainLevel, passed, levelCount) == Some(true)
    ensures SpecialLevel(rule, mainLevel).Some? && SpecialLevel(rule, mainLevel).value > passed
  {
  }

  /** Once a special level is granted (the mark set to it), no later call that
      computes the same special level is granted again. */
  lemma EnterNeverTwiceForSameLevel(rule: SpecialLevelRuleConfig, m1: int, m2: int, passed: int, c1: int, c2: int)
    requires Enter(rule, m1, passed, c1) == Some(true)
    requires SpecialLevel(rule, m2) == SpecialLevel(rule, m1)
    ensures Enter(rule, m2, SpecialLevel(rule, m1).value, c2) == Some(false)
  {
  }

  /** The main track (`MainLevelHandler`). The player's level is persisted
      under the key "MainLevel"; `stored` is that persisted value. */
  class MainLevelHandler {
    const model: LevelModel
    var isInited: bool
    var cache: map<int, LevelData>
    var stored: Option<int>

    constructor (stored: Option<int>)
      ensures fresh(model)
      ensures model.State() == ModelState(None, None, "", None, Placement(0, 0, 0)) && model.levelCount == 0
      ensures !isInited && cache == map[] && this.stored == stored
    {
      model := new LevelModel();
      isInited := false;
      cache := map[];
      this.stored := stored;
    }

    function Snapshot(): MainState
      reads this, model
    {
      MainState(model.State(), cache, isInited, stored)
    }

    /** `Level`: the persisted player level, 1 when none was saved. */
    function Level(): (r: int)
      reads this
      ensures stored.None? ==> r == 1
      ensures stored.Some? ==> r == stored.value
    {
      stored.GetOr(1)
    }

    /** The `Level` setter persists the new level. */
    method SetLevel(value: int)
      modifies this`stored
      ensures stored == Some(value) && Level() == value
    {
      stored := Some(value);
    }

    /** `FirstLevel`: `LevelDistance` below the player's level, at least 1. */
    function FirstLevel(): (r: int)
      reads this
      ensures r >= 1 && r >= Level() - LevelDistance && (r == 1 || r == Level() - LevelDistance)
    {
      FirstLevelOf(Level())
    }

    /** `InitLevels`: caches every level of the loaded stage from `FirstLevel`
        on under its level number, never removing a cached level; nothing
        happens without a loaded stage. */
    method InitLevels()
      modifies this`cache, this`isInited
      ensures !model.HasSetLevels() ==> cache == old(cache) && isInited == old(isInited)
      ensures model.HasSetLevels() ==>
        cache == Windowed(old(cache), model.curStage.value.levels, model.stageStartLevel, FirstLevel()) && isInited
    {
      if !model.HasSetLevels() {
        return;
      }
      var levels := model.curStage.value.levels;
      var start := model.stageStartLevel;
      var first := FirstLevel();
      var i := 0;
      while i < |levels|
        invariant 0 <= i <= |levels|
        invariant cache == Windowed(old(cache), levels[..i], start, first)
      {
        WindowedStep(old(cache), levels, start, first, i);
        if start + i >= first {
          cache := cache[start + i := levels[i]];
        }
        i := i + 1;
      }
      assert levels[..i] == levels;
      isInited := true;
    }

    /** `UpdateLevels`: told the player reached `level`, drops the level
        `LevelDistance` behind and, once the look-ahead passes the page's
        end, loads the next page. */
    method UpdateLevels(level: int, pkg: Package, disk: Disk, dl: Downloader)
      modifies this, model, dl
      ensures var r := MainUpdateLevels(old(Snapshot()), level, pkg, disk);
        Snapshot() == r.state && dl.requests == old(dl.requests) + r.requests
      ensures model.levelCount == old(model.levelCount)
    {
      ghost var s0 := Snapshot();
      var delKey := level - LevelDistance;
      ghost var s1 := s0.(cache := s0.cache - {delKey});
      ghost var r := MainUpdateLevels(s0, level, pkg, disk);
      if delKey in cache {
        cache := cache - {delKey};
      } else {
        assert cache - {delKey} == cache;
      }
      assert Snapshot() == s1;
      if level + LevelDistance > model.stageEndLevel {
        assert r == MainInitStage(s1, model.stageEndLevel + 1, pkg, disk);
        InitStage(MainRef(this), model.stageEndLevel + 1, pkg, disk, dl);
      } else {
        assert r == Step(s1, []);
      }
    }

    /** `GetLevelData`: on a cache miss loads the stage holding `level`, then
        updates the cache for `level` and returns its cached record; `None`
        where the source's dictionary lookup throws. */
    method GetLevelData(level: int, pkg: Package, disk: Disk, dl: Downloader) returns (r: Option<LevelData>)
      modifies this, model, dl
      ensures var res := MainGetLevelData(old(Snapshot()), level, pkg, disk);
        Snapshot() == res.0.state && dl.requests == old(dl.requests) + res.0.requests && r == res.1
      ensures r.Some? <==> level in cache
      ensures r.Some? ==> r.value == cache[level]
      ensures model.levelCount == old(model.levelCount)
    {
      ghost var s0 := Snapshot();
      ghost var req0 := dl.requests;
      ghost var first := if level in s0.cache then Step(s0, []) else MainInitStage(s0, level, pkg, disk);
      if level !in cache {
        InitStage(MainRef(this), level, pkg, disk, dl);
      }
      assert Snapshot() == first.state && dl.requests == req0 + first.requests;
      ghost var second := MainUpdateLevels(first.state, level, pkg, disk);
      UpdateLevels(level, pkg, disk, dl);
      AppendAssoc(req0, first.requests, second.requests);
      if level in cache {
        r := Some(cache[level]);
      } else {
        r := None;
      }
    }
  }

  lemma WindowedStep(cache: map<int, LevelData>, levels: seq<LevelData>, start: int, first: int, i: nat)
    requires i < |levels|
    ensures start + i >= first ==>
      Windowed(cache, levels[..i + 1], start, first) == Windowed(cache, levels[..i], start, first)[start + i := levels[i]]
    ensures start + i < first ==>
      Windowed(cache, levels[..i + 1], start, first) == Windowed(cache, levels[..i], start, first)
  {
    var a := Windowed(cache, levels[..i + 1], start, first);
    var b := Windowed(cache, levels[..i], start, first);
    if start + i >= first {
      forall k
        ensures k in a <==> k in b[start + i := levels[i]]
      {
        WindowedContents(cache, levels[..i + 1], start, first, k);
        WindowedContents(cache, levels[..i], start, first, k);
      }
      forall k | k in a
        ensures a[k] == b[start + i := levels[i]][k]
      {
        if k != start + i && InWindow(k, i + 1, start, first) {
          assert levels[..i + 1][k - start] == levels[..i][k - start];
        }
      }
    } else {
      forall k
        ensures k in a <==> k in b
      {
        WindowedContents(cache, levels[..i + 1], start, first, k);
        WindowedContents(cache, levels[..i], start, first, k);
      }
      forall k | k in a
        ensures a[k] == b[k]
      {
      }
    }
  }

  /** The special track (`SpecialLevelHandler`). `passed` is the persisted
      high-water mark `PassedSpecialLevel`. */
  class SpecialLevelHandler {
    const model: LevelModel
    var isInited: bool
    var passed: Option<int>

    constructor (passed: Option<int>)
      ensures fresh(model)
      ensures model.State() == ModelState(None, None, "", None, Placement(0, 0, 0)) && model.levelCount == 0
      ensures !isInited && this.passed == passed
    {
      model := new LevelModel();
      isInited := false;
      this.passed := passed;
    }

    function Snapshot(): SpecialState
      reads this, model
    {
      SpecialState(model.State(), model.levelCount, isInited, passed)
    }

    /** `PassedSpecialLevel`: the persisted mark, 0 when none was saved. */
    function PassedSpecialLevel(): (r: int)
      reads this
      ensures passed.None? ==> r == 0
      ensures passed.Some? ==> r == passed.value
    {
      passed.GetOr(0)
    }

    /** `GetLevelData`: the record of `level` on the loaded page, `None`
        without a loaded stage or when the level is off the page. */
    function GetLevelData(level: int): (r: Option<LevelData>)
      reads this, model
      ensures r.Some? <==> model.curStage.Some? && 0 <= level - model.stageStartLevel < |model.curStage.value.levels|
      ensures r.Some? ==> r.value == model.curStage.value.levels[level - model.stageStartLevel]
    {
      if model.curStage.None? then None
      else
        var index := level - model.stageStartLevel;
        if index < 0 || index >= |model.curStage.value.levels| then None
        else Some(model.curStage.value.levels[index])
    }

    /** `InitLevels`: records the loaded stage's level count and marks the
        track initialised; `ok` is false (and nothing changes) without a
        loaded stage, where the source throws. */
    method InitLevels() returns (ok: bool)
      modifies model`levelCount, this`isInited
      ensures ok <==> model.curStage.Some?
      ensures ok ==> model.levelCount == |model.curStage.value.levels| && isInited
      ensures !ok ==> model.levelCount == old(model.levelCount) && isInited == old(isInited)
    {
      if model.curStage.None? {
        return false;
      }
      model.SetLevelCount();
      isInited := true;
      ok := true;
    }

    /** `IsEnterSpecifiedLevel`: decides whether the player may enter the
        special level the main level has unlocked, and on success raises the
        persisted mark to it; `None` where the source throws (offset 0). */
    method IsEnterSpecifiedLevel(rule: SpecialLevelRuleConfig, mainLevel: int) returns (hit: Option<bool>)
      modifies this`passed
      ensures hit == Enter(rule, mainLevel, old(PassedSpecialLevel()), model.levelCount)
      ensures hit == Some(true) ==> passed == SpecialLevel(rule, mainLevel)
      ensures hit != Some(true) ==> passed == old(passed)
      ensures PassedSpecialLevel() >= old(PassedSpecialLevel())
    {
      var level := SpecialLevel(rule, mainLevel);
      if level.None? {
        return None;
      }
      var specified := level.value;
      var isHit := rule.enable && mainLevel > rule.start && PassedSpecialLevel() < specified &&
                   TruncRem(mainLevel - 1 - rule.start, rule.offset) == 0 && specified <= model.levelCount;
      if isHit {
        passed := Some(specified);
      }
      hit := Some(isHit);
    }
  }

  /** A registered track: the main or the special handler. */
  datatype HandlerRef = MainRef(main: MainLevelHandler) | SpecialRef(special: SpecialLevelHandler)
  {
    function Model(): LevelModel
    {
      if MainRef? then main.model else special.model
    }

    function Handler(): object
    {
      if MainRef? then main else special
    }

    function Tag(): string
    {
      if MainRef? then MainTag else SpecialTag
    }

    function Prefix(): string
    {
      if MainRef? then MainPrefix else SpecialPrefix
    }

    /** `FirstLevel`: where the track's stage is first resolved. */
    function FirstLevel(): (r: int)
      reads if MainRef? then {main} else {}
      ensures r >= 1
    {
      if MainRef? then main.FirstLevel() else 1
    }
  }

  /** `SetCurStageInPackage`: loads the bundled file of the current stage of
      the default catalog; a failed load leaves the current stage as it was. */
  method SetCurStageInPackage(m: LevelModel, prefix: string, pkg: Package)
    modifies m`curStage
    ensures m.curStage == BundledStage(old(m.State()), prefix, pkg)
  {
    var id := m.GetStageId(true);
    if id.None? {
      return;
    }
    var path := BundledAssetPath(prefix, id.value);
    if path in pkg.stages {
      m.curStage := Some(pkg.stages[path]);
    }
  }

  /** `SetCurStageInPersistentData`: loads the saved file of the current
      stage; `ok` is false (and nothing changes) when the file is missing. */
  method SetCurStageInPersistentData(m: LevelModel, disk: Disk) returns (ok: bool)
    requires m.saveMap.Some? && 0 <= m.stageIndex < |m.saveMap.value.stages|
    modifies m`curStage
    ensures ok <==> SavedStageFile(m.State()) in disk.stages
    ensures ok ==> m.curStage == Some(disk.stages[SavedStageFile(m.State())])
    ensures !ok ==> m.curStage == old(m.curStage)
  {
    var path := m.GetSaveStageFilePath();
    if path !in disk.stages {
      return false;
    }
    m.curStage := Some(disk.stages[path]);
    ok := true;
  }

  /** `DownloadStage`: requests the saved catalog's current stage file, unless
      the current index is past that catalog's end. */
  method DownloadStage(h: HandlerRef, dl: Downloader)
    requires h.Model().saveMap.Some? && 0 <= h.Model().stageIndex
    modifies dl
    ensures var m := h.Model(); var stages := m.saveMap.value.stages;
      dl.requests == old(dl.requests) +
        (if m.stageIndex < |stages|
         then [DownloadRequest(StageFile, h.Tag(), stages[m.stageIndex].url, SavedStageFile(m.State()))]
         else [])
  {
    var m := h.Model();
    var desc := m.GetStageDesc(false);
    if desc.None? {
      return;
    }
    var path := m.GetSaveStageFilePath();
    dl.DownloadFile(DownloadRequest(StageFile, h.Tag(), desc.value.url, path));
  }

  /** The effect of the track's own `InitLevels` when it `ran` (it fails, and
      changes nothing, without a loaded stage); the rest of the handler is
      unchanged. */
  twostate predicate AfterInitLevels(h: HandlerRef, ran: bool)
    reads h.Handler(), h.Model()
  {
    var m := h.Model();
    var done := ran && m.curStage.Some?;
    (h.MainRef? ==>
      h.main.cache == (if done then Windowed(old(h.main.cache), m.curStage.value.levels, m.stageStartLevel, h.main.FirstLevel()) else old(h.main.cache)) &&
      h.main.isInited == (done || old(h.main.isInited)) &&
      h.main.stored == old(h.main.stored) && m.levelCount == old(m.levelCount)) &&
    (h.SpecialRef? ==>
      m.levelCount == (if done then |m.curStage.value.levels| else old(m.levelCount)) &&
      h.special.isInited == (done || old(h.special.isInited)) &&
      h.special.passed == old(h.special.passed))
  }

  /** The track's own `InitLevels`; false where the source throws. */
  method RunInitLevels(h: HandlerRef) returns (ok: bool)
    modifies h.Handler(), h.Model()`levelCount
    ensures ok <==> h.Model().curStage.Some?
    ensures AfterInitLevels(h, true)
  {
    match h
    case MainRef(mh) =>
      ok := mh.model.HasSetLevels();
      mh.InitLevels();
    case SpecialRef(sh) =>
      ok := sh.InitLevels();
  }

  /** The stage-loading part of `BaseLevelMgr.InitStage`, as `InitStagePlan`
      describes; `proceed` tells whether the source goes on to `InitLevels`. */
  method LoadStage(m: LevelModel, level: int, tag: string, prefix: string, pkg: Package, disk: Disk, dl: Downloader)
    returns (proceed: bool)
    modifies m`stageIndex, m`stageStartLevel, m`stageEndLevel, m`curStage, dl
    ensures var plan := InitStagePlan(old(m.State()), level, tag, prefix, pkg, disk);
      m.State() == plan.state && dl.requests == old(dl.requests) + AsSeq(plan.download) &&
      proceed == plan.initLevels
  {
    ghost var st := m.State();
    if m.defaultMap.None? {
      return false;
    }
    if UsesDefaultCatalog(m.saveMap, m.defaultMap.value) {
      proceed := m.ComputeStage(level, true);
      ghost var st1 := st.(placed := AfterCompute(st.defaultMap, level, st.placed));
      assert m.State() == st1;
      if proceed {
        SetCurStageInPackage(m, prefix, pkg);
      }
    } else {
      proceed := m.ComputeStage(level, false);
      ghost var st1 := st.(placed := AfterCompute(st.saveMap, level, st.placed));
      assert m.State() == st1;
      if !proceed {
        return;
      }
      ResolvedStageIsInCatalog(st.saveMap.value, level, st.placed);
      var path := m.GetSaveStageFilePath();
      assert path == SavedStageFile(st1);
      if path !in disk.stages {
        var stages := m.saveMap.value.stages;
        dl.DownloadFile(DownloadRequest(StageFile, tag, stages[m.stageIndex].url, path));
        proceed := m.ComputeStage(level, true);
        assert m.State() == st1.(placed := AfterCompute(st.defaultMap, level, st1.placed));
        if proceed {
          SetCurStageInPackage(m, prefix, pkg);
        }
      } else {
        var _ := SetCurStageInPersistentData(m, disk);
      }
    }
  }

  /** `BaseLevelMgr.InitStage`: loads the stage of `level` for the track `h`,
      as `InitStagePlan` describes, then runs the track's `InitLevels`. */
  method InitStage(h: HandlerRef, level: int, pkg: Package, disk: Disk, dl: Downloader)
    modifies h.Handler(), h.Model(), dl
    ensures h.MainRef? ==>
      var r := MainInitStage(old(h.main.Snapshot()), level, pkg, disk);
      h.main.Snapshot() == r.state && dl.requests == old(dl.requests) + r.requests &&
      h.Model().levelCount == old(h.Model().levelCount)
    ensures h.SpecialRef? ==>
      var r := SpecialInitStage(old(h.special.Snapshot()), level, pkg, disk);
      h.special.Snapshot() == r.state && dl.requests == old(dl.requests) + r.requests
  {
    var proceed := LoadStage(h.Model(), level, h.Tag(), h.Prefix(), pkg, disk, dl);
    if proceed {
      var _ := RunInitLevels(h);
    }
  }
}

=== FILE: unity_level_mgr.dfy ===
/** The Unity level manager (unity-level/BaseLevelMgr.cs): a registry of track
    handlers by group, their start-up initialisation, the check for newer
    remote catalogs and the handling of finished downloads. */
module UnityLevelMgr {
  import opened Common
  import opened UnityLevelDatas
  import opened UnityLevelModel
  import opened UnityLevelHandlers

  datatype Group = Main | Special

  /** The remote configuration the manager consults: the newest catalog of
      each track (possibly absent) and the special-level rule. */
  datatype RemoteConfig = RemoteConfig(
    mainLevelMapDesc: Option<MapDesc>,
    specialLevelMapDesc: Option<MapDesc>,
    specialLevelRule: SpecialLevelRuleConfig)

  /** `RemoteMapConfig` of a track. */
  function RemoteMapConfig(h: HandlerRef, cfg: RemoteConfig): Option<MapDesc>
  {
    if h.MainRef? then cfg.mainLevelMapDesc else cfg.specialLevelMapDesc
  }

  /** `Dictionary.TryAdd`: adds the entry only when the key is new. */
  function TryAdd(m: map<Group, HandlerRef>, g: Group, h: HandlerRef): (r: map<Group, HandlerRef>)
    ensures r.Keys == m.Keys + {g}
    ensures g in m ==> r[g] == m[g]
  {
    if g in m then m else m[g := h]
  }

  /** Registering twice under one group keeps the first handler. */
  lemma RegisterKeepsFirst(m: map<Group, HandlerRef>, g: Group, h1: HandlerRef, h2: HandlerRef)
    requires g !in m
    ensures TryAdd(TryAdd(m, g, h1), g, h2) == m[g := h1]
  {
  }

  /** The catalog download `DownloadMap` requests for a track. */
  function MapRequest(h: HandlerRef, desc: MapDesc): DownloadRequest
    reads h.Model()
  {
    DownloadRequest(MapFile, h.Tag(), desc.url, SavedMapPath(h.Model().savePath, h.Prefix()))
  }

  /** One handler of `CheckUpdate`: the catalog download it requests when
      `IsNeedUpdate` holds; `None` where the source throws (no remote
      catalog, or no bundled catalog to compare with). */
  function CheckOne(h: HandlerRef, cfg: RemoteConfig): (r: Option<seq<DownloadRequest>>)
    reads h.Model()
    ensures var desc := RemoteMapConfig(h, cfg); var m := h.Model();
      r.None? <==> desc.None? || ((m.saveMap.None? || m.saveMap.value.updateAt < desc.value.updateAt) && m.defaultMap.None?)
    ensures r.Some? ==> RemoteMapConfig(h, cfg).Some?
    ensures r.Some? ==> r.value == (if h.Model().IsNeedUpdate(RemoteMapConfig(h, cfg).value)
                                    then [MapRequest(h, RemoteMapConfig(h, cfg).value)] else [])
  {
    var desc := RemoteMapConfig(h, cfg);
    var m := h.Model();
    if desc.None? then None
    else if (m.saveMap.None? || m.saveMap.value.updateAt < desc.value.updateAt) && m.defaultMap.None? then None
    else if m.IsNeedUpdate(desc.value) then Some([MapRequest(h, desc.value)])
    else Some([])
  }

  /** `CheckUpdate` over handlers in turn: the requests made and whether it
      got through all of them. */
  function CheckAll(hs: seq<HandlerRef>, cfg: RemoteConfig): (r: (seq<DownloadRequest>, bool))
    reads set h | h in hs :: h.Model()
  {
    if hs == [] then ([], true)
    else
      var prev := CheckAll(hs[..|hs| - 1], cfg);
      if !prev.1 then prev
      else match CheckOne(hs[|hs| - 1], cfg)
        case None => (prev.0, false)
        case Some(reqs) => (prev.0 + reqs, true)
  }

  /** Once a handler throws, the remaining handlers are not checked. */
  lemma {:induction false} CheckAllStops(hs: seq<HandlerRef>, cfg: RemoteConfig, j: nat)
    requires j <= |hs| && !CheckAll(hs[..j], cfg).1
    ensures CheckAll(hs, cfg) == CheckAll(hs[..j], cfg)
    decreases |hs| - j
  {
    if j < |hs| {
      assert hs[..j + 1][..j] == hs[..j];
      CheckAllStops(hs, cfg, j + 1);
    } else {
      assert hs[..j] == hs;
    }
  }

  /** `CheckAllStops` at every point of the scan. */
  lemma CheckAllStopsAny(hs: seq<HandlerRef>, cfg: RemoteConfig)
    ensures forall j :: 0 <= j <= |hs| && !CheckAll(hs[..j], cfg).1 ==> CheckAll(hs, cfg) == CheckAll(hs[..j], cfg)
  {
    forall j | 0 <= j <= |hs| && !CheckAll(hs[..j], cfg).1
      ensures CheckAll(hs, cfg) == CheckAll(hs[..j], cfg)
    {
      CheckAllStops(hs, cfg, j);
    }
  }

  /** The handler's catalog is stale: `IsNeedUpdate` holds against the
      remote catalog, and `r` is the download that fetches it. */
  predicate StaleRequest(h: HandlerRef, cfg: RemoteConfig, r: DownloadRequest)
    reads h.Model()
  {
    var desc := RemoteMapConfig(h, cfg);
    var m := h.Model();
    desc.Some? && m.defaultMap.Some? && m.IsNeedUpdate(desc.value) && r == MapRequest(h, desc.value)
  }

  /** One more handler extends a completed check by that handler's own step. */
  lemma CheckAllStep(hs: seq<HandlerRef>, cfg: RemoteConfig, i: nat)
    requires i < |hs| && CheckAll(hs[..i], cfg).1
    ensures CheckAll(hs[..i + 1], cfg) ==
      (if CheckOne(hs[i], cfg).None? then (CheckAll(hs[..i], cfg).0, false)
       else (CheckAll(hs[..i], cfg).0 + CheckOne(hs[i], cfg).value, true))
  {
    assert hs[..i + 1][..i] == hs[..i];
  }

  /** A handler's own step requests exactly its stale catalog. */
  lemma CheckOneStale(h: HandlerRef, cfg: RemoteConfig, r: DownloadRequest)
    requires CheckOne(h, cfg).Some?
    ensures r in CheckOne(h, cfg).value <==> StaleRequest(h, cfg, r)
  {
  }

  /** When `CheckUpdate` gets through, it requests a catalog download for
      exactly the handlers whose `IsNeedUpdate` holds. */
  lemma {:induction false} CheckAllExactlyStale(hs: seq<HandlerRef>, cfg: RemoteConfig, r: DownloadRequest)
    requires CheckAll(hs, cfg).1
    ensures r in CheckAll(hs, cfg).0 <==> exists i :: 0 <= i < |hs| && StaleRequest(hs[i], cfg, r)
  {
    if hs != [] {
      var n := |hs| - 1;
      var init := hs[..n];
      assert hs[..n + 1] == hs;
      var prev := CheckAll(init, cfg);
      assert prev.1;
      CheckAllStep(hs, cfg, n);
      var one := CheckOne(hs[n], cfg).value;
      assert CheckAll(hs, cfg).0 == prev.0 + one;
      CheckAllExactlyStale(init, cfg, r);
      CheckOneStale(hs[n], cfg, r);
      if r in prev.0 {
        var i :| 0 <= i < n && StaleRequest(init[i], cfg, r);
        StaleInPrefix(hs, init, cfg, r, i);
      } else if r in one {
        assert StaleRequest(hs[n], cfg, r);
      } else {
        NoneStale(hs, init, cfg, r);
      }
    }
  }

  /** No stale handler among all but the last, and the last not stale:
      none among `hs`. */
  lemma NoneStale(hs: seq<HandlerRef>, init: seq<HandlerRef>, cfg: RemoteConfig, r: DownloadRequest)
    requires |hs| >= 1 && init == hs[..|hs| - 1]
    requires forall i :: 0 <= i < |init| ==> !StaleRequest(init[i], cfg, r)
    requires !StaleRequest(hs[|hs| - 1], cfg, r)
    ensures forall i :: 0 <= i < |hs| ==> !StaleRequest(hs[i], cfg, r)
  {
    forall i | 0 <= i < |hs|
      ensures !StaleRequest(hs[i], cfg, r)
    {
      if i < |init| {
        assert hs[i] == init[i];
      }
    }
  }

  /** A stale handler among all but the last is a stale handler among
      `hs`. */
  lemma StaleInPrefix(hs: seq<HandlerRef>, init: seq<HandlerRef>, cfg: RemoteConfig, r: DownloadRequest, i: nat)
    requires |init| <= |hs| && init == hs[..|init|]
    requires i < |init| && StaleRequest(init[i], cfg, r)
    ensures exists k :: 0 <= k < |hs| && StaleRequest(hs[k], cfg, r)
  {
    assert hs[i] == init[i];
  }

  /** The level state after `ReadSavaMapData`: the save directory is set and
      the saved catalog read when its file exists. */
  function ReadSaved(st: ModelState, prefix: string, disk: Disk): (r: ModelState)
    ensures r.savePath == SaveDirectory(disk.root)
    ensures r.saveMap == (if SavedMapPath(r.savePath, prefix) in disk.maps
                          then Some(disk.maps[SavedMapPath(r.savePath, prefix)]) else st.saveMap)
    ensures r.defaultMap == st.defaultMap && r.curStage == st.curStage && r.placed == st.placed
  {
    var savePath := SaveDirectory(disk.root);
    var path := SavedMapPath(savePath, prefix);
    st.(savePath := savePath, saveMap := if path in disk.maps then Some(disk.maps[path]) else st.saveMap)
  }

  /** `ReadSavaMapData`. */
  method ReadSaveMapData(h: HandlerRef, disk: Disk)
    modifies h.Model()`savePath, h.Model()`saveMap
    ensures h.Model().State() == ReadSaved(old(h.Model().State()), h.Prefix(), disk)
  {
    var m := h.Model();
    m.savePath := SaveDirectory(disk.root);
    var path := SavedMapPath(m.savePath, h.Prefix());
    if path in disk.maps {
      m.saveMap := Some(disk.maps[path]);
    }
  }

  /** `LoadMapConfigAsync`: loads the bundled catalog as the default one;
      `ok` is false (nothing loaded) when the bundle lacks it. */
  method LoadMapConfig(h: HandlerRef, pkg: Package) returns (ok: bool)
    modifies h.Model()`defaultMap
    ensures var path := BundledAssetPath(h.Prefix(), MapDataName);
      ok == (path in pkg.maps) &&
      h.Model().defaultMap == (if ok then Some(pkg.maps[path]) else old(h.Model().defaultMap))
  {
    var path := BundledAssetPath(h.Prefix(), MapDataName);
    if path !in pkg.maps {
      return false;
    }
    h.Model().defaultMap := Some(pkg.maps[path]);
    ok := true;
  }

  /** `DownloadMap`: requests the newest catalog of a track, unless it has no
      remote catalog. */
  method DownloadMap(h: HandlerRef, desc: Option<MapDesc>, dl: Downloader)
    modifies dl
    ensures desc.None? ==> dl.requests == old(dl.requests)
    ensures desc.Some? ==> dl.requests == old(dl.requests) + [MapRequest(h, desc.value)]
  {
    if desc.None? {
      return;
    }
    dl.DownloadFile(DownloadRequest(MapFile, h.Tag(), desc.value.url, SavedMapPath(h.Model().savePath, h.Prefix())));
  }

  /** `InitializeMgr` for the main track: bundled catalog, saved catalog, then
      the stage of `FirstLevel`; it stops when the bundled catalog is missing. */
  method InitializeMain(h: MainLevelHandler, pkg: Package, disk: Disk, dl: Downloader)
    modifies h, h.model, dl
    ensures var path := BundledAssetPath(MainPrefix, MapDataName);
      var s := old(h.Snapshot());
      if path in pkg.maps then
        var loaded := ReadSaved(s.model.(defaultMap := Some(pkg.maps[path])), MainPrefix, disk);
        var r := MainInitStage(s.(model := loaded), FirstLevelOf(s.stored.GetOr(1)), pkg, disk);
        h.Snapshot() == r.state && dl.requests == old(dl.requests) + r.requests
      else h.Snapshot() == s && dl.requests == old(dl.requests)
    ensures h.model.levelCount == old(h.model.levelCount)
  {
    ghost var s0 := h.Snapshot();
    var ok := LoadMapConfig(MainRef(h), pkg);
    if !ok {
      return;
    }
    ghost var loaded := ReadSaved(s0.model.(defaultMap := h.model.defaultMap), MainPrefix, disk);
    ReadSaveMapData(MainRef(h), disk);
    assert h.Snapshot() == s0.(model := loaded);
    InitStage(MainRef(h), h.FirstLevel(), pkg, disk, dl);
  }

  /** `InitializeMgr` for the special track, whose stage is first resolved at 1. */
  method InitializeSpecial(h: SpecialLevelHandler, pkg: Package, disk: Disk, dl: Downloader)
    modifies h, h.model, dl
    ensures var path := BundledAssetPath(SpecialPrefix, MapDataName);
      var s := old(h.Snapshot());
      if path in pkg.maps then
        var loaded := ReadSaved(s.model.(defaultMap := Some(pkg.maps[path])), SpecialPrefix, disk);
        var r := SpecialInitStage(s.(model := loaded), 1, pkg, disk);
        h.Snapshot() == r.state && dl.requests == old(dl.requests) + r.requests
      else h.Snapshot() == s && dl.requests == old(dl.requests)
  {
    ghost var s0 := h.Snapshot();
    var ok := LoadMapConfig(SpecialRef(h), pkg);
    if !ok {
      return;
    }
    ghost var loaded := ReadSaved(s0.model.(defaultMap := h.model.defaultMap), SpecialPrefix, disk);
    ReadSaveMapData(SpecialRef(h), disk);
    assert h.Snapshot() == s0.(model := loaded);
    InitStage(SpecialRef(h), 1, pkg, disk, dl);
  }

  /** `InitializeMgr`. */
  method InitializeMgr(h: HandlerRef, pkg: Package, disk: Disk, dl: Downloader)
    modifies h.Handler(), h.Model(), dl
    ensures h.MainRef? ==>
      var path := BundledAssetPath(MainPrefix, MapDataName);
      var s := old(h.main.Snapshot());
      if path in pkg.maps then
        var loaded := ReadSaved(s.model.(defaultMap := Some(pkg.maps[path])), MainPrefix, disk);
        var r := MainInitStage(s.(model := loaded), FirstLevelOf(s.stored.GetOr(1)), pkg, disk);
        h.main.Snapshot() == r.state && dl.requests == old(dl.requests) + r.requests
      else h.main.Snapshot() == s && dl.requests == old(dl.requests)
    ensures h.SpecialRef? ==>
      var path := BundledAssetPath(SpecialPrefix, MapDataName);
      var s := old(h.special.Snapshot());
      if path in pkg.maps then
        var loaded := ReadSaved(s.model.(defaultMap := Some(pkg.maps[path])), SpecialPrefix, disk);
        var r := SpecialInitStage(s.(model := loaded), 1, pkg, disk);
        h.special.Snapshot() == r.state && dl.requests == old(dl.requests) + r.requests
      else h.special.Snapshot() == s && dl.requests == old(dl.requests)
  {
    match h
    case MainRef(mh) => InitializeMain(mh, pkg, disk, dl);
    case SpecialRef(sh) => InitializeSpecial(sh, pkg, disk, dl);
  }

  /** `OnMapFileDownSuccess`: after a catalog download, re-reads the saved
      catalog, resolves `FirstLevel` on it and requests the stage file; `ok`
      is false where the source throws (the resolution fails). */
  method OnMapFileDownSuccess(h: HandlerRef, disk: Disk, dl: Downloader) returns (ok: bool)
    modifies h.Model()`savePath, h.Model()`saveMap, h.Model()`stageIndex, h.Model()`stageStartLevel, h.Model()`stageEndLevel, dl
    ensures var st := ReadSaved(old(h.Model().State()), h.Prefix(), disk);
      h.Model().State() == st.(placed := AfterCompute(st.saveMap, old(h.FirstLevel()), st.placed))
    ensures ok <==> h.Model().saveMap.Some? && Resolve(h.Model().saveMap.value.stages, old(h.FirstLevel())).Some?
    ensures !ok ==> dl.requests == old(dl.requests)
    ensures ok ==> var m := h.Model();
      0 <= m.stageIndex < |m.saveMap.value.stages| &&
      dl.requests == old(dl.requests) +
        [DownloadRequest(StageFile, h.Tag(), m.saveMap.value.stages[m.stageIndex].url, SavedStageFile(m.State()))]
  {
    var first := h.FirstLevel();
    var m := h.Model();
    ok := ReloadAndResolve(h, first, disk);
    if ok {
      ResolvedStageIsInCatalog(m.saveMap.value, first, old(m.State()).placed);
      DownloadStage(h, dl);
    }
  }

  /** The first half of `OnMapFileDownSuccess`: the saved catalog is read
      again and `level` resolved on it. */
  method ReloadAndResolve(h: HandlerRef, level: int, disk: Disk) returns (ok: bool)
    modifies h.Model()`savePath, h.Model()`saveMap, h.Model()`stageIndex, h.Model()`stageStartLevel, h.Model()`stageEndLevel
    ensures var st := ReadSaved(old(h.Model().State()), h.Prefix(), disk);
      h.Model().State() == st.(placed := AfterCompute(st.saveMap, level, st.placed))
    ensures ok <==> h.Model().saveMap.Some? && Resolve(h.Model().saveMap.value.stages, level).Some?
  {
    var m := h.Model();
    ReadSaveMapData(h, disk);
    ok := m.ComputeStage(level, false);
  }

  /** One handler of `CheckUpdate`: `ok` is false where the source throws;
      otherwise the catalog download is requested when `IsNeedUpdate` holds. */
  method CheckHandler(h: HandlerRef, cfg: RemoteConfig, dl: Downloader) returns (ok: bool)
    modifies dl
    ensures ok == CheckOne(h, cfg).Some?
    ensures dl.requests == old(dl.requests) + (if ok then CheckOne(h, cfg).value else [])
  {
    var desc := RemoteMapConfig(h, cfg);
    var m := h.Model();
    if desc.None? || ((m.saveMap.None? || m.saveMap.value.updateAt < desc.value.updateAt) && m.defaultMap.None?) {
      return false;
    }
    if m.IsNeedUpdate(desc.value) {
      DownloadMap(h, desc, dl);
    }
    ok := true;
  }

  /** The loop of `CheckUpdate` over the handlers `hs`, in order. */
  method CheckHandlers(hs: seq<HandlerRef>, cfg: RemoteConfig, dl: Downloader) returns (completed: bool)
    modifies dl
    ensures dl.requests == old(dl.requests) + old(CheckAll(hs, cfg)).0 && completed == old(CheckAll(hs, cfg)).1
  {
    CheckAllStopsAny(hs, cfg);
    var i := 0;
    while i < |hs|
      invariant 0 <= i <= |hs|
      invariant old(CheckAll(hs[..i], cfg)).1
      invariant dl.requests == old(dl.requests) + old(CheckAll(hs[..i], cfg)).0
    {
      assert hs[..i + 1][..i] == hs[..i] && hs[..i + 1][i] == hs[i];
      ghost var prev := old(CheckAll(hs[..i], cfg)).0;
      ghost var one := CheckOne(hs[i], cfg);
      assert old(CheckOne(hs[i], cfg)) == one;
      assert old(CheckAll(hs[..i + 1], cfg)) == if one.None? then (prev, false) else (prev + one.value, true);
      var ok := CheckHandler(hs[i], cfg, dl);
      if !ok {
        return false;
      }
      i := i + 1;
    }
    assert hs[..i] == hs;
    completed := true;
  }

  /** `OnStageLevelFileDownSuccess`: after a stage download, resolves
      `FirstLevel` on the saved catalog, loads the saved stage file and runs
      `InitLevels`; it stops where the source throws. */
  method OnStageLevelFileDownSuccess(h: HandlerRef, disk: Disk)
    modifies h.Handler(), h.Model()
    ensures var m := h.Model();
      var first := old(h.FirstLevel());
      var resolved := m.saveMap.Some? && Resolve(m.saveMap.value.stages, first).Some?;
      var loaded := resolved && 0 <= m.stageIndex < |m.saveMap.value.stages| && SavedStageFile(m.State()) in disk.stages;
      m.defaultMap == old(m.defaultMap) && m.saveMap == old(m.saveMap) && m.savePath == old(m.savePath) &&
      m.Placed() == AfterCompute(m.saveMap, first, old(m.Placed())) &&
      m.curStage == (if loaded then Some(disk.stages[SavedStageFile(m.State())]) else old(m.curStage)) &&
      AfterInitLevels(h, loaded)
  {
    var m := h.Model();
    var ok := m.ComputeStage(h.FirstLevel(), false);
    if !ok {
      return;
    }
    ok := SetCurStageInPersistentData(m, disk);
    if !ok {
      return;
    }
    var _ := RunInitLevels(h);
  }

  /** Each group at most once. */
  predicate UniqueGroups(order: seq<Group>)
  {
    forall i, j :: 0 <= i < j < |order| ==> order[i] != order[j]
  }

  /** The handlers of the groups in `order`, in that order. */
  function InOrder(order: seq<Group>, handlers: map<Group, HandlerRef>): (hs: seq<HandlerRef>)
    requires forall g :: g in order ==> g in handlers
    ensures |hs| == |order|
    ensures forall i :: 0 <= i < |hs| ==> hs[i] == handlers[order[i]]
  {
    if order == [] then [] else [handlers[order[0]]] + InOrder(order[1..], handlers)
  }

  /** `order` without `g`. */
  function Without(order: seq<Group>, g: Group): (r: seq<Group>)
    ensures forall x :: x in r <==> x in order && x != g
    ensures UniqueGroups(order) ==> UniqueGroups(r)
  {
    if order == [] then []
    else if order[0] == g then Without(order[1..], g)
    else
      var rest := Without(order[1..], g);
      assert UniqueGroups(order) ==> order[0] !in order[1..] && UniqueGroups(order[1..]) by {
        if UniqueGroups(order) {
          forall k | 0 <= k < |order[1..]|
            ensures order[1..][k] != order[0]
          {
            assert order[1..][k] == order[k + 1];
          }
        }
      }
      [order[0]] + rest
  }

  /** The level manager: registered handlers by group. The dictionary's
      enumeration order is its insertion order, kept in `order`. */
  class BaseLevelMgr {
    var handlers: map<Group, HandlerRef>
    var order: seq<Group>

    constructor ()
      ensures handlers == map[] && order == [] && Valid()
    {
      handlers := map[];
      order := [];
    }

    /** `order` lists every registered group exactly once. */
    predicate Valid()
      reads this
    {
      UniqueGroups(order) && forall g :: g in order <==> g in handlers
    }

    /** The objects the handler registered under `g` owns. */
    function Owned(g: Group): set<object>
      reads this
    {
      if g in handlers then {handlers[g].Handler(), handlers[g].Model()} else {}
    }

    /** `Register`: keeps the first handler of a group; a new group is
        enumerated after those already registered. */
    method Register(group: Group, handler: HandlerRef)
      requires Valid()
      modifies this`handlers, this`order
      ensures Valid()
      ensures handlers == TryAdd(old(handlers), group, handler)
      ensures order == if group in old(handlers) then old(order) else old(order) + [group]
    {
      if group !in handlers {
        handlers := handlers[group := handler];
        order := order + [group];
      }
    }

    /** `Unregister`: forgets the group, if registered. */
    method Unregister(group: Group)
      requires Valid()
      modifies this`handlers, this`order
      ensures Valid()
      ensures handlers == old(handlers) - {group} && order == Without(old(order), group)
      ensures group !in old(handlers) ==> handlers == old(handlers)
    {
      if group in handlers {
        handlers := handlers - {group};
      } else {
        assert handlers - {group} == handlers;
      }
      order := Without(order, group);
    }

    /** `GetLevelHandler`: `None` for a group nobody registered. The Cocos
        manager's `getHandler` has the same shape over its own handler
        table; the two clients keep separate registries. */
    function GetLevelHandler(group: Group): (r: Option<HandlerRef>)
      reads this
      ensures r.None? <==> group !in handlers
      ensures r.Some? ==> r.value == handlers[group]
    {
      if group in handlers then Some(handlers[group]) else None
    }

    /** The registered handlers, in the order of their registration. */
    function Registered(): (hs: seq<HandlerRef>)
      requires Valid()
      reads this
      ensures |hs| == |order|
      ensures forall i :: 0 <= i < |hs| ==> hs[i] == handlers[order[i]]
    {
      InOrder(order, handlers)
    }

    /** `GetLevel`: the main track's persisted level or the special track's
        derived level; `None` where the source throws: for an unregistered
        group (a null handler) and for a special rule with offset 0. */
    function GetLevel(group: Group, cfg: RemoteConfig, mainLevel: int): (r: Option<int>)
      reads this, if group in handlers && handlers[group].MainRef? then {handlers[group].main} else {}
      ensures group !in handlers ==> r.None?
      ensures group in handlers && handlers[group].MainRef? ==> r == Some(handlers[group].main.Level())
      ensures group in handlers && handlers[group].SpecialRef? ==> r == SpecialLevel(cfg.specialLevelRule, mainLevel)
    {
      if group !in handlers then None
      else
        match handlers[group]
        case MainRef(mh) => Some(mh.Level())
        case SpecialRef(_) => SpecialLevel(cfg.specialLevelRule, mainLevel)
    }

    /** `SetLevel`: persists the main track's level; the special track's
        setter does nothing. `ok` is false for an unregistered group, where
        the source dereferences a null handler, and then nothing changes. */
    method SetLevel(level: int, group: Group) returns (ok: bool)
      modifies Owned(group)
      ensures ok <==> group in handlers
      ensures group in handlers && handlers[group].MainRef? ==>
        handlers[group].main.stored == Some(level) && unchanged(handlers[group].Model())
      ensures group in handlers && handlers[group].SpecialRef? ==> unchanged(handlers[group].special)
    {
      var handler := GetLevelHandler(group);
      if handler.None? {
        return false;
      }
      ok := true;
      match handler.value
      case MainRef(mh) => mh.SetLevel(level);
      case SpecialRef(_) =>
    }

    /** `GetLevelData`: `None` for an unregistered group; otherwise the
        track's own lookup. */
    method GetLevelData(level: int, group: Group, pkg: Package, disk: Disk, dl: Downloader) returns (r: Option<LevelData>)
      modifies Owned(group), dl
      ensures group !in handlers ==> r.None? && dl.requests == old(dl.requests)
      ensures group in handlers && handlers[group].SpecialRef? ==>
        r == handlers[group].special.GetLevelData(level) && dl.requests == old(dl.requests)
      ensures group in handlers && handlers[group].MainRef? ==>
        var res := MainGetLevelData(old(handlers[group].main.Snapshot()), level, pkg, disk);
        handlers[group].main.Snapshot() == res.0.state && r == res.1 &&
        dl.requests == old(dl.requests) + res.0.requests
    {
      var handler := GetLevelHandler(group);
      if handler.None? {
        return None;
      }
      match handler.value
      case MainRef(mh) => r := mh.GetLevelData(level, pkg, disk, dl);
      case SpecialRef(sh) => r := sh.GetLevelData(level);
    }

    /** `IsEnterSpecifiedLevel`: false unless a special handler is registered
        under the special group; otherwise that handler's decision, `None`
        where it throws. */
    method IsEnterSpecifiedLevel(cfg: RemoteConfig, mainLevel: int) returns (hit: Option<bool>)
      modifies Owned(Special)
      ensures !(Special in handlers && handlers[Special].SpecialRef?) ==> hit == Some(false)
      ensures Special in handlers && handlers[Special].SpecialRef? ==>
        var sh := handlers[Special].special;
        hit == Enter(cfg.specialLevelRule, mainLevel, old(sh.PassedSpecialLevel()), sh.model.levelCount) &&
        sh.passed == (if hit == Some(true) then SpecialLevel(cfg.specialLevelRule, mainLevel) else old(sh.passed))
    {
      var handler := GetLevelHandler(Special);
      if handler.None? || !handler.value.SpecialRef? {
        return Some(false);
      }
      hit := handler.value.special.IsEnterSpecifiedLevel(cfg.specialLevelRule, mainLevel);
    }

    /** `OnMainLevelUpdate`: forwards the new level to the main handler's
        `UpdateLevels`, if the main group holds one. */
    method OnMainLevelUpdate(level: int, pkg: Package, disk: Disk, dl: Downloader)
      modifies Owned(Main), dl
      ensures !(Main in handlers && handlers[Main].MainRef?) ==> dl.requests == old(dl.requests)
      ensures Main in handlers && handlers[Main].MainRef? ==>
        var r := MainUpdateLevels(old(handlers[Main].main.Snapshot()), level, pkg, disk);
        handlers[Main].main.Snapshot() == r.state && dl.requests == old(dl.requests) + r.requests
    {
      var handler := GetLevelHandler(Main);
      if handler.None? || !handler.value.MainRef? {
        return;
      }
      handler.value.main.UpdateLevels(level, pkg, disk, dl);
    }

    /** `CheckUpdate`: nothing before the content network is ready; then, for
        each handler in turn, a catalog download when `IsNeedUpdate` holds.
        `completed` is false where the source throws part-way. */
    method CheckUpdate(cdnReady: bool, cfg: RemoteConfig, dl: Downloader) returns (completed: bool)
      requires Valid()
      modifies dl
      ensures !cdnReady ==> dl.requests == old(dl.requests) && completed
      ensures cdnReady ==>
        dl.requests == old(dl.requests) + old(CheckAll(Registered(), cfg)).0 && completed == old(CheckAll(Registered(), cfg)).1
    {
      if !cdnReady {
        return true;
      }
      completed := CheckHandlers(Registered(), cfg, dl);
    }

    /** `Initialize`: runs `InitializeMgr` on every registered handler, in
        the order of registration. */
    method Initialize(pkg: Package, disk: Disk, dl: Downloader)
      requires Valid()
      modifies Owned(Main), Owned(Special), dl
      ensures handlers == old(handlers)
      ensures |Registered()| == 1 && Main in handlers && handlers[Main].MainRef? ==>
        var path := BundledAssetPath(MainPrefix, MapDataName);
        var s := old(handlers[Main].main.Snapshot());
        if path in pkg.maps then
          var loaded := ReadSaved(s.model.(defaultMap := Some(pkg.maps[path])), MainPrefix, disk);
          var r := MainInitStage(s.(model := loaded), FirstLevelOf(s.stored.GetOr(1)), pkg, disk);
          handlers[Main].main.Snapshot() == r.state && dl.requests == old(dl.requests) + r.requests
        else handlers[Main].main.Snapshot() == s && dl.requests == old(dl.requests)
    {
      var hs := Registered();
      var i := 0;
      while i < |hs|
        invariant 0 <= i <= |hs|
        invariant hs == Registered()
        invariant |hs| == 1 && Main in handlers && handlers[Main].MainRef? ==>
          var path := BundledAssetPath(MainPrefix, MapDataName);
          var s := old(handlers[Main].main.Snapshot());
          if i == 0 then handlers[Main].main.Snapshot() == s && dl.requests == old(dl.requests)
          else if path in pkg.maps then
            var loaded := ReadSaved(s.model.(defaultMap := Some(pkg.maps[path])), MainPrefix, disk);
            var r := MainInitStage(s.(model := loaded), FirstLevelOf(s.stored.GetOr(1)), pkg, disk);
            handlers[Main].main.Snapshot() == r.state && dl.requests == old(dl.requests) + r.requests
          else handlers[Main].main.Snapshot() == s && dl.requests == old(dl.requests)
      {
        assert order[i] in handlers && hs[i] == handlers[order[i]];
        InitializeMgr(hs[i], pkg, disk, dl);
        i := i + 1;
      }
    }
  }
}

=== FILE: unity_level_model.dfy ===
/** Stage resolution of the Unity client (unity-level/LevelModel.cs): a level
    number is placed on a page ("stage") of a catalog by walking the catalog's
    level counts; past the catalog's end the last stage's size is repeated. */
module UnityLevelModel {
  import opened Common
  import opened UnityLevelDatas

  /** The number of levels the first `n` stages of a catalog hold together. */
  function Prefix(stages: seq<StageDesc>, n: nat): int
    requires n <= |stages|
  {
    if n == 0 then 0 else Prefix(stages, n - 1) + stages[n - 1].levelCount
  }

  /** The number of levels the whole catalog holds. */
  function Total(stages: seq<StageDesc>): int
  {
    Prefix(stages, |stages|)
  }

  predicate NonNegativeCounts(stages: seq<StageDesc>)
  {
    forall i :: 0 <= i < |stages| ==> stages[i].levelCount >= 0
  }

  /** `level` lies past every cumulative count, so no stage of the catalog holds it. */
  predicate Beyond(stages: seq<StageDesc>, level: int)
  {
    forall j :: 1 <= j <= |stages| ==> Prefix(stages, j) < level
  }

  /** The three fields stage resolution writes: `StageIndex`, `StageStartLevel`
      and `StageEndLevel`. */
  datatype Placement = Placement(index: int, start: int, end: int)

  /** Resolution scanning the catalog from stage `i` on, the running total being
      `Prefix(stages, i)`. */
  function ResolveFrom(stages: seq<StageDesc>, level: int, i: nat): (r: Option<Placement>)
    requires i <= |stages|
    ensures r.Some? ==> 0 <= r.value.index < |stages|
    decreases |stages| - i
  {
    if i == |stages| then Wrap(stages, level)
    else if level <= Prefix(stages, i + 1) then Some(Placement(i, Prefix(stages, i) + 1, Prefix(stages, i + 1)))
    else ResolveFrom(stages, level, i + 1)
  }

  /** The page past the catalog's end: the last stage's size `L` is repeated from
      the catalog total `T` on, the page starting at `T + L * ((level - T) / L)`
      with C#'s truncating division. `None` where the source throws: an empty
      catalog (the index `-1`) or an empty last stage (division by zero). */
  function Wrap(stages: seq<StageDesc>, level: int): (r: Option<Placement>)
    ensures r.Some? <==> |stages| > 0 && stages[|stages| - 1].levelCount != 0
    ensures r.Some? ==> r.value.index == |stages| - 1
    ensures r.Some? ==> r.value.end - r.value.start == stages[|stages| - 1].levelCount
  {
    if |stages| == 0 then None
    else
      var size := stages[|stages| - 1].levelCount;
      if size == 0 then None
      else
        var start := size * TruncDiv(level - Total(stages), size) + Total(stages);
        Some(Placement(|stages| - 1, start, start + size))
  }

  /** `LevelModel.ComputeStage` as a function of the catalog's stages and the level. */
  function Resolve(stages: seq<StageDesc>, level: int): (r: Option<Placement>)
    ensures r.Some? ==> 0 <= r.value.index < |stages|
  {
    ResolveFrom(stages, level, 0)
  }

  /** The placement fields after `ComputeStage` on `catalog`: unchanged when the
      catalog is missing (the source fails on its first access), the resolved
      page on success, and otherwise the values the loop left when the source
      threw: the last index, `T + 1` and `T`. */
  function AfterCompute(catalog: Option<MapData>, level: int, prev: Placement): (p: Placement)
    ensures catalog.None? ==> p == prev
    ensures catalog.Some? && Resolve(catalog.value.stages, level).Some? ==>
      p == Resolve(catalog.value.stages, level).value
  {
    if catalog.None? then prev
    else
      match Resolve(catalog.value.stages, level)
      case Some(placed) => placed
      case None => Placement(|catalog.value.stages| - 1, Total(catalog.value.stages) + 1, Total(catalog.value.stages))
  }

  /** The first stage whose cumulative count reaches `level` is the one chosen. */
  lemma {:induction false} ResolveFromFirstFit(stages: seq<StageDesc>, level: int, i: nat, k: nat)
    requires i <= k < |stages|
    requires level <= Prefix(stages, k + 1)
    requires forall j :: i < j <= k ==> Prefix(stages, j) < level
    ensures ResolveFrom(stages, level, i) == Some(Placement(k, Prefix(stages, k) + 1, Prefix(stages, k + 1)))
    decreases k - i
  {
    if i < k {
      ResolveFromFirstFit(stages, level, i + 1, k);
    }
  }

  /** A level past every cumulative count from stage `i` on is wrapped. */
  lemma {:induction false} ResolveFromBeyond(stages: seq<StageDesc>, level: int, i: nat)
    requires i <= |stages|
    requires forall j :: i < j <= |stages| ==> Prefix(stages, j) < level
    ensures ResolveFrom(stages, level, i) == Wrap(stages, level)
    decreases |stages| - i
  {
    if i < |stages| {
      ResolveFromBeyond(stages, level, i + 1);
    }
  }

  /** Whatever the counts, resolution picks the first stage whose cumulative
      count is at least `level`; the page runs from the previous total plus one
      to that cumulative count. */
  lemma ResolveFirstFit(stages: seq<StageDesc>, level: int, k: nat)
    requires k < |stages|
    requires level <= Prefix(stages, k + 1)
    requires forall j :: 0 < j <= k ==> Prefix(stages, j) < level
    ensures Resolve(stages, level) == Some(Placement(k, Prefix(stages, k) + 1, Prefix(stages, k + 1)))
    ensures Resolve(stages, level).value.end - Resolve(stages, level).value.start + 1 == stages[k].levelCount
  {
    ResolveFromFirstFit(stages, level, 0, k);
  }

  /** Resolution fails exactly on an empty catalog, or on a level past the whole
      catalog when the last stage is empty. */
  lemma ResolveFails(stages: seq<StageDesc>, level: int)
    ensures Resolve(stages, level).None? <==>
      Beyond(stages, level) && (|stages| == 0 || stages[|stages| - 1].levelCount == 0)
  {
    if Beyond(stages, level) {
      ResolveFromBeyond(stages, level, 0);
    } else {
      var k :| 1 <= k <= |stages| && level <= Prefix(stages, k);
      FirstReaching(stages, level, k);
    }
  }

  /** A level some cumulative count reaches is placed within the catalog. */
  lemma {:induction false} FirstReaching(stages: seq<StageDesc>, level: int, k: nat)
    requires 1 <= k <= |stages| && level <= Prefix(stages, k)
    ensures Resolve(stages, level).Some?
    decreases k
  {
    if forall j :: 0 < j < k ==> Prefix(stages, j) < level {
      ResolveFirstFit(stages, level, k - 1);
    } else {
      var j :| 0 < j < k && level <= Prefix(stages, j);
      FirstReaching(stages, level, j);
    }
  }

  /** Within capacity (1 <= level <= total) the chosen page contains the level
      and holds exactly the chosen stage's count of levels. */
  lemma {:induction false} ResolveWithinCapacity(stages: seq<StageDesc>, level: int)
    requires 1 <= level <= Total(stages)
    ensures Resolve(stages, level).Some?
    ensures var p := Resolve(stages, level).value;
      0 <= p.index < |stages| &&
      (forall j :: 0 < j <= p.index ==> Prefix(stages, j) < level) &&
      level <= Prefix(stages, p.index + 1) &&
      p.start == Prefix(stages, p.index) + 1 && p.end == Prefix(stages, p.index + 1) &&
      p.start <= level <= p.end &&
      p.end - p.start + 1 == stages[p.index].levelCount
  {
    WithinFrom(stages, level, 0);
  }

  lemma {:induction false} WithinFrom(stages: seq<StageDesc>, level: int, i: nat)
    requires i <= |stages| && Prefix(stages, i) < level <= Total(stages)
    ensures ResolveFrom(stages, level, i).Some?
    ensures var p := ResolveFrom(stages, level, i).value;
      i <= p.index < |stages| &&
      (forall j :: i < j <= p.index ==> Prefix(stages, j) < level) &&
      level <= Prefix(stages, p.index + 1) &&
      p.start == Prefix(stages, p.index) + 1 && p.end == Prefix(stages, p.index + 1)
    decreases |stages| - i
  {
    if i == |stages| {
      assert false;
    } else if level > Prefix(stages, i + 1) {
      WithinFrom(stages, level, i + 1);
    }
  }

  /** With non-negative counts the cumulative counts never decrease. */
  lemma {:induction false} PrefixMonotone(stages: seq<StageDesc>, i: nat, j: nat)
    requires NonNegativeCounts(stages) && i <= j <= |stages|
    ensures Prefix(stages, i) <= Prefix(stages, j)
    decreases j - i
  {
    if i < j {
      PrefixMonotone(stages, i, j - 1);
    }
  }

  /** With non-negative counts, a level above the total is past every stage. */
  lemma BeyondTotal(stages: seq<StageDesc>, level: int)
    requires NonNegativeCounts(stages) && level > Total(stages)
    ensures Beyond(stages, level)
  {
    forall j | 1 <= j <= |stages|
      ensures Prefix(stages, j) < level
    {
      PrefixMonotone(stages, j, |stages|);
    }
  }

  /** Beyond capacity the last stage is chosen and the page, of the last
      stage's size, runs from `T + L * ((level - T) / L)` up to (excluding) the
      next multiple, so it contains the level. */
  lemma ResolveBeyondCapacity(stages: seq<StageDesc>, level: int)
    requires NonNegativeCounts(stages) && |stages| > 0
    requires stages[|stages| - 1].levelCount > 0
    requires level > Total(stages)
    ensures Resolve(stages, level).Some?
    ensures var p := Resolve(stages, level).value;
      var size := stages[|stages| - 1].levelCount;
      p.index == |stages| - 1 &&
      p.start == size * ((level - Total(stages)) / size) + Total(stages) &&
      p.end == p.start + size &&
      p.start <= level < p.end
  {
    BeyondTotal(stages, level);
    ResolveFromBeyond(stages, level, 0);
    var size := stages[|stages| - 1].levelCount;
    var x := level - Total(stages);
    assert x == size * (x / size) + x % size;
  }

  /** Wrapping is periodic: levels one last-stage size apart land on
      consecutive pages. */
  lemma ResolvePeriodic(stages: seq<StageDesc>, level: int)
    requires NonNegativeCounts(stages) && |stages| > 0
    requires stages[|stages| - 1].levelCount > 0
    requires level > Total(stages)
    ensures var size := stages[|stages| - 1].levelCount;
      Resolve(stages, level).Some? && Resolve(stages, level + size).Some? &&
      Resolve(stages, level + size).value.index == Resolve(stages, level).value.index &&
      Resolve(stages, level + size).value.start == Resolve(stages, level).value.start + size &&
      Resolve(stages, level + size).value.end == Resolve(stages, level).value.end + size
  {
    var size := stages[|stages| - 1].levelCount;
    ResolveBeyondCapacity(stages, level);
    ResolveBeyondCapacity(stages, level + size);
    var x := level - Total(stages);
    DivShift(x, size);
  }

  lemma DivShift(x: int, d: int)
    requires d > 0
    ensures (x + d) / d == x / d + 1
  {
    var q := x / d;
    var r := x % d;
    assert x + d == d * (q + 1) + r;
    DivUnique(x + d, d, q + 1, r);
  }

  lemma DivUnique(a: int, d: int, q: int, r: int)
    requires d > 0 && 0 <= r < d && a == d * q + r
    ensures a / d == q
  {
    var q' := a / d;
    var r' := a % d;
    assert d * q' + r' == d * q + r;
    assert d * (q - q') == r' - r;
    if q' < q {
      MulAtLeast(d, q - q');
      assert false;
    } else if q' > q {
      MulAtLeast(d, q' - q);
      assert false;
    }
  }

  lemma {:induction false} MulAtLeast(d: int, k: int)
    requires d > 0 && k >= 1
    ensures d * k >= d
    decreases k
  {
    if k > 1 {
      MulAtLeast(d, k - 1);
      assert d * k == d * (k - 1) + d;
    }
  }

  /** The first wrapped page starts at the catalog total itself: for a level
      less than one last-stage size past the total, the page begins at the
      catalog's final level. */
  lemma WrapStartsAtTotal(stages: seq<StageDesc>, level: int)
    requires NonNegativeCounts(stages) && |stages| > 0
    requires stages[|stages| - 1].levelCount > 0
    requires Total(stages) < level < Total(stages) + stages[|stages| - 1].levelCount
    ensures Resolve(stages, level) == Some(Placement(|stages| - 1, Total(stages), Total(stages) + stages[|stages| - 1].levelCount))
  {
    ResolveBeyondCapacity(stages, level);
    var size := stages[|stages| - 1].levelCount;
    DivUnique(level - Total(stages), size, 0, level - Total(stages));
  }

  /** One stage of ten levels: level 15 lands on the page from 10 to 20. */
  lemma ResolveOneStageExample(url: string)
    ensures Resolve([StageDesc("a", 10, url)], 15) == Some(Placement(0, 10, 20))
  {
    var stages := [StageDesc("a", 10, url)];
    assert Prefix(stages, 1) == Prefix(stages, 0) + 10;
    WrapStartsAtTotal(stages, 15);
  }

  /** `Path.Combine` of two parts with '/' as the separator: the second part
      alone when it is rooted (starts with '/') or the first is empty, the
      first alone when the second is empty, otherwise joined by one '/'. */
  function PathCombine(a: string, b: string): (p: string)
    ensures b != "" ==> |p| >= |b| && p[|p| - |b|..] == b
    ensures a != "" && (b == "" || b[0] != '/') ==> |p| >= |a| && p[..|a|] == a
    ensures b != "" && b[0] == '/' ==> p == b
  {
    if b == "" then a
    else if a == "" || b[0] == '/' then b
    else if a[|a| - 1] == '/' then a + b
    else a + "/" + b
  }

  /** The file a stage of a saved catalog is stored in:
      `<save directory>/<update_at>/<stage_id>`. */
  function SaveStagePath(savePath: string, updateAt: int, stageId: string): string
  {
    PathCombine(PathCombine(savePath, IntToString(updateAt)), stageId)
  }

  predicate NoSlash(s: string) { forall i :: 0 <= i < |s| ==> s[i] != '/' }

  lemma IntTextHasNoSlash(u: int)
    ensures NoSlash(IntToString(u))
  {
    var s := IntToString(u);
    if u < 0 {
      assert s == [s[0]] + s[1..];
    }
  }

  /** What `PathCombine(a, b)` puts in front of a non-empty `b`. */
  function CombineBase(a: string): string
  {
    if a == "" then "" else if a[|a| - 1] == '/' then a else a + "/"
  }

  lemma CombineNonEmpty(a: string, b: string)
    requires b != "" && b[0] != '/'
    ensures PathCombine(a, b) == CombineBase(a) + b
  {
  }

  /** The stage file of a stage id that is not rooted. */
  lemma SaveStagePathShape(savePath: string, u: int, id: string)
    requires id != "" && id[0] != '/'
    ensures SaveStagePath(savePath, u, id) == CombineBase(savePath) + (IntToString(u) + "/" + id)
  {
    var s := IntToString(u);
    var base := CombineBase(savePath);
    IntTextHasNoSlash(u);
    assert s[0] != '/';
    CombineNonEmpty(savePath, s);
    var x := base + s;
    IntTextHasNoSlash(u);
    assert x[|x| - 1] == s[|s| - 1] != '/';
    assert PathCombine(x, id) == x + "/" + id;
    assert x + "/" + id == base + (s + "/" + id);
  }

  /** The position of the first '/' of `t`, or its length when it has none. */
  function SlashIndex(t: string): nat
  {
    if t == [] || t[0] == '/' then 0 else 1 + SlashIndex(t[1..])
  }

  lemma {:induction false} SlashIndexAfter(s: string, rest: string)
    requires NoSlash(s)
    ensures SlashIndex(s + "/" + rest) == |s|
  {
    if s != [] {
      assert (s + "/" + rest)[1..] == s[1..] + "/" + rest;
      SlashIndexAfter(s[1..], rest);
    }
  }

  /** Two digit texts followed by '/' and a rest agree only when both parts agree. */
  lemma SplitAtFirstSlash(s1: string, id1: string, s2: string, id2: string)
    requires NoSlash(s1) && NoSlash(s2)
    requires s1 + "/" + id1 == s2 + "/" + id2
    ensures s1 == s2 && id1 == id2
  {
    var t1 := s1 + "/" + id1;
    var t2 := s2 + "/" + id2;
    SlashIndexAfter(s1, id1);
    SlashIndexAfter(s2, id2);
    assert s1 == t1[..|s1|] && s2 == t2[..|s2|];
    assert id1 == t1[|s1| + 1..] && id2 == t2[|s2| + 1..];
  }

  /** A rooted stage id is the whole stage file path, whatever the save
      directory and catalog version. */
  lemma SaveStagePathRooted(savePath: string, u: int, id: string)
    requires id != "" && id[0] == '/'
    ensures SaveStagePath(savePath, u, id) == id
  {
  }

  /** Under one save directory, distinct catalog versions or distinct stage ids
      that are not rooted give distinct stage files. */
  lemma SaveStagePathInjective(savePath: string, u1: int, id1: string, u2: int, id2: string)
    requires id1 != "" && id2 != "" && id1[0] != '/' && id2[0] != '/'
    requires SaveStagePath(savePath, u1, id1) == SaveStagePath(savePath, u2, id2)
    ensures u1 == u2 && id1 == id2
  {
    SaveStagePathShape(savePath, u1, id1);
    SaveStagePathShape(savePath, u2, id2);
    var base := CombineBase(savePath);
    var t1 := IntToString(u1) + "/" + id1;
    var t2 := IntToString(u2) + "/" + id2;
    assert t1 == (base + t1)[|base|..];
    assert t2 == (base + t2)[|base|..];
    IntTextHasNoSlash(u1);
    IntTextHasNoSlash(u2);
    SplitAtFirstSlash(IntToString(u1), id1, IntToString(u2), id2);
    IntToStringInjective(u1, u2);
  }

  /** The catalog stage resolution works on when the game starts: the bundled
      default catalog when nothing was saved or the saved one is older, the
      saved catalog otherwise. */
  predicate UsesDefaultCatalog(saveMap: Option<MapData>, defaultMap: MapData)
  {
    saveMap.None? || saveMap.value.updateAt < defaultMap.updateAt
  }

  function ActiveCatalog(saveMap: Option<MapData>, defaultMap: MapData): (m: MapData)
    ensures m == defaultMap || saveMap == Some(m)
  {
    if UsesDefaultCatalog(saveMap, defaultMap) then defaultMap else saveMap.value
  }

  /** A snapshot of a `LevelModel`'s catalogs, save directory, loaded stage
      and placement (everything but the level count). */
  datatype ModelState = ModelState(
    defaultMap: Option<MapData>,
    saveMap: Option<MapData>,
    savePath: string,
    curStage: Option<StageData>,
    placed: Placement)

  /** One track's level state: its bundled and saved catalogs, the save
      directory, the loaded stage file, the placement of the current page and
      the loaded stage's level count. */
  class LevelModel {
    var defaultMap: Option<MapData>
    var saveMap: Option<MapData>
    var savePath: string
    var curStage: Option<StageData>
    var stageIndex: int
    var stageStartLevel: int
    var stageEndLevel: int
    var levelCount: int

    constructor ()
      ensures defaultMap == None && saveMap == None && savePath == "" && curStage == None
      ensures stageIndex == 0 && stageStartLevel == 0 && stageEndLevel == 0 && levelCount == 0
    {
      defaultMap := None;
      saveMap := None;
      savePath := "";
      curStage := None;
      stageIndex := 0;
      stageStartLevel := 0;
      stageEndLevel := 0;
      levelCount := 0;
    }

    function Placed(): Placement
      reads this
    {
      Placement(stageIndex, stageStartLevel, stageEndLevel)
    }

    function State(): ModelState
      reads this
    {
      ModelState(defaultMap, saveMap, savePath, curStage, Placed())
    }

    /** The catalog a resolution with `inPackage` reads. */
    function Catalog(inPackage: bool): (m: Option<MapData>)
      reads this
      ensures m == (if inPackage then defaultMap else saveMap)
    {
      if inPackage then defaultMap else saveMap
    }

    /** `ComputeStage`: the loop accumulates the level counts into
        `stageEndLevel` and stops at the first stage reaching `level`; past the
        end it wraps on the last stage. `ok` is false where the source throws
        (missing catalog, empty catalog, empty last stage); the fields then hold
        what was written before the failure. */
    method ComputeStage(level: int, inPackage: bool) returns (ok: bool)
      modifies this`stageIndex, this`stageStartLevel, this`stageEndLevel
      ensures ok <==> Catalog(inPackage).Some? && Resolve(Catalog(inPackage).value.stages, level).Some?
      ensures Placed() == AfterCompute(Catalog(inPackage), level, old(Placed()))
      ensures State() == old(State()).(placed := Placed())
    {
      var mapData := if inPackage then defaultMap else saveMap;
      if mapData.None? {
        return false;
      }
      var stages := mapData.value.stages;
      var count := |stages|;
      stageStartLevel := 1;
      stageEndLevel := 0;
      var i := 0;
      while i < count
        invariant 0 <= i <= count
        invariant stageEndLevel == Prefix(stages, i)
        invariant stageStartLevel == Prefix(stages, i) + 1
        invariant Resolve(stages, level) == ResolveFrom(stages, level, i)
      {
        stageEndLevel := stageEndLevel + stages[i].levelCount;
        if level <= stageEndLevel {
          stageIndex := i;
          return true;
        }
        stageStartLevel := stageEndLevel + 1;
        i := i + 1;
      }
      stageIndex := count - 1;
      if count == 0 {
        return false;
      }
      var stageCount := stages[stageIndex].levelCount;
      if stageCount == 0 {
        return false;
      }
      stageStartLevel := stageCount * TruncDiv(level - stageEndLevel, stageCount) + stageEndLevel;
      stageEndLevel := stageStartLevel + stageCount;
      ok := true;
    }

    /** `GetStageId`: the id of the current stage in the chosen catalog;
        `None` where the source throws (missing catalog, index out of range). */
    function GetStageId(inPackage: bool): (r: Option<string>)
      reads this
      ensures r.Some? <==> Catalog(inPackage).Some? && 0 <= stageIndex < |Catalog(inPackage).value.stages|
      ensures r.Some? ==> r.value == Catalog(inPackage).value.stages[stageIndex].stageId
    {
      var m := if inPackage then defaultMap else saveMap;
      if m.Some? && 0 <= stageIndex < |m.value.stages| then Some(m.value.stages[stageIndex].stageId) else None
    }

    /** `GetStageDesc`: the current stage's descriptor, `None` when the index
        is past the catalog's end. */
    function GetStageDesc(inPackage: bool): (r: Option<StageDesc>)
      reads this
      requires Catalog(inPackage).Some? && stageIndex >= 0
      ensures r.None? <==> stageIndex >= |Catalog(inPackage).value.stages|
      ensures r.Some? ==> r.value == Catalog(inPackage).value.stages[stageIndex]
    {
      var stages := (if inPackage then defaultMap else saveMap).value.stages;
      if stageIndex >= |stages| then None else Some(stages[stageIndex])
    }

    /** `GetSaveStageFilePath`: "" without a saved catalog, otherwise the
        file of the current stage of the saved catalog. */
    function GetSaveStageFilePath(): (r: string)
      reads this
      requires saveMap.Some? ==> 0 <= stageIndex < |saveMap.value.stages|
      ensures saveMap.None? <==> r == ""
      ensures saveMap.Some? ==>
        r == SaveStagePath(savePath, saveMap.value.updateAt, saveMap.value.stages[stageIndex].stageId)
    {
      if saveMap.None? then ""
      else
        var r := SaveStagePath(savePath, saveMap.value.updateAt, saveMap.value.stages[stageIndex].stageId);
        assert |IntToString(saveMap.value.updateAt)| >= 1;
        r
    }

    /** `IsNeedUpdate`: the remote catalog is newer than the saved one (or
        nothing is saved) and newer than the bundled one. */
    predicate IsNeedUpdate(desc: MapDesc)
      reads this
      requires (saveMap.None? || saveMap.value.updateAt < desc.updateAt) ==> defaultMap.Some?
    {
      (saveMap.None? || saveMap.value.updateAt < desc.updateAt) && defaultMap.value.updateAt < desc.updateAt
    }

    /** `HasSetLevels`: a stage file is loaded. */
    predicate HasSetLevels()
      reads this
    {
      curStage.Some?
    }

    /** `SetLevelCount`: records the loaded stage's number of levels. */
    method SetLevelCount()
      requires curStage.Some?
      modifies this`levelCount
      ensures levelCount == |curStage.value.levels|
    {
      levelCount := |curStage.value.levels|;
    }
  }

  /** An update is needed exactly when the remote catalog is newer than the
      catalog resolution would start from. */
  lemma NeedUpdateIffNewerThanActive(m: LevelModel, desc: MapDesc)
    requires m.defaultMap.Some?
    ensures m.IsNeedUpdate(desc) <==> ActiveCatalog(m.saveMap, m.defaultMap.value).updateAt < desc.updateAt
  {
  }

  /** After a successful resolution the current stage has an id and a
      descriptor in the resolved catalog. */
  lemma ResolvedStageIsInCatalog(catalog: MapData, level: int, prev: Placement)
    requires Resolve(catalog.stages, level).Some?
    ensures 0 <= AfterCompute(Some(catalog), level, prev).index < |catalog.stages|
  {
  }
}
